=== FILE: README.md ===
# HDF5Translator in Dafny

This project models the core of HDF5Translator. HDF5Translator turns an HDF5 file written by an instrument into a file with a different layout. A configuration lists five kinds of work. The translator applies them to the destination file in this order:

1. Tree copies from the source file.
2. Dataset rules. Each rule reads a dataset or a default value, then sanitises, casts, transforms, unit-converts, reshapes and flattens it, and writes the result with merged attributes.
3. Attribute updates.
4. Pruning.
5. Soft, hard and external links.

An HDF5 file is a `Containers.Container`. It maps each path (the list of its component names) to an entry: a hard link to a node, a soft link or an external link. Nodes are groups or datasets, each with attributes.

A Python exception that escapes is a `Values.Result` in the `Raised` state, carrying its exception class. numpy, json, pint, `float()`, UTF-8 decoding and `eval` are abstract functions bundled in a `Values.Oracles` record. Every operation is a pure function of its inputs, and each phase is a transformation of the destination file.

Where the source disagrees with its evident intent, `Hdf5Utils.Revision` selects either the code as written (`AsWritten`) or the corrected behaviour (`Corrected`). The "## Findings" section lists these cases.

The modules follow the source layout:

- `Text` covers Python string operations and HDF5 path text.
- `Values` defines Python values and exceptions.
- `Containers` defines files.
- `KeyVals` models `argparse_utils.py`.
- `Elements` models `translator_elements.py`.
- `DataUtils` models `data_utils.py`.
- `Hdf5Utils` models `hdf5_utils.py`.
- `Translator` models `translator.py`.

Two tree-copy behaviours are worth knowing:

- **Single tree copy.** A copy without trailing slashes places the input object at `output/leaf(input)` (hdf5_utils.py:128-140). The output path names the group to copy into, and the input's own last name is kept. `Hdf5Utils.SingleCopy` states this.
- **Tree-copy fan-out.** A copy from `/a/` to `/b/` places a member `x` at `/b/x/x`; the Findings section has the details.

The empty path text is handled as h5py handles it: `"" in f` is False, while `require_group("")`, `f[""]` and creating a link at `""` raise ValueError. `/` names the root. So an empty prune entry is skipped, an empty attribute location raises ValueError, and a link with an empty destination is skipped when its source is absent and raises otherwise (ValueError, or KeyError for a hard link whose source does not resolve).

## Model

| member | source | states |
|---|---|---|
| Text.Strip | HDF5Translator/utils/argparse_utils.py:14 | `str.strip()`: the result has no whitespace at either end. It is the slice of the input that starts after the leading whitespace, and only whitespace follows it in the input. |
| Text.StripIdempotent | HDF5Translator/utils/argparse_utils.py:14 | Stripping a stripped string changes nothing. |
| Text.Lower | HDF5Translator/translator_elements.py:17 | `str.lower()` on ASCII: every letter A-Z becomes its lower-case letter, and every other character and the length are kept. |
| Text.LowerIdempotent | HDF5Translator/translator_elements.py:17 | Lower-casing twice is lower-casing once. |
| Text.SplitFirst | HDF5Translator/utils/argparse_utils.py:13 | `split("=", 1)` unpacked into two names: no result exactly when the separator is absent. Otherwise key + separator + value rebuild the item, and the key holds no separator. |
| Text.LeafText | HDF5Translator/utils/hdf5_utils.py:128 | `rsplit("/", 1)[-1]`: the result holds no slash. When the path has a slash, the text before the last slash, a slash and the leaf rebuild the path. |
| Text.ComponentsJoin | HDF5Translator/utils/hdf5_utils.py:109-117 | The path `a/b` names the components of `a` followed by those of `b`, so doubled and trailing slashes do not matter. |
| Text.ComponentsOfParent | HDF5Translator/utils/hdf5_utils.py:54 | The group before the last slash is a prefix of the path. It is a proper prefix exactly when the path does not end in a slash. |
| Text.Last | src/HDF5Translator/utils/data_utils.py:37-46 | `sorted(matches)[-1]`: an element of the list that no other element follows in path order. |
| Text.PrecedesIrreflexive | src/HDF5Translator/utils/data_utils.py:37-39 | The order `sorted` uses on paths never puts a name before itself. |
| Text.PrecedesTransitive | src/HDF5Translator/utils/data_utils.py:37-39 | That order is transitive. |
| Text.PrecedesTotal | src/HDF5Translator/utils/data_utils.py:37-39 | Of two different names, one comes first, so `sorted(...)[-1]` is well defined. |
| Text.Sorted | HDF5Translator/utils/hdf5_utils.py:109 | A group's member names in strictly increasing order, each exactly once. |
| KeyVals.ParseKeyValues | HDF5Translator/utils/argparse_utils.py:9-15 | Raises ValueError exactly when some item lacks `=`. Otherwise it returns the dictionary built by inserting each item's stripped key and value from left to right. |
| KeyVals.SplitAtFirstSeparator | HDF5Translator/utils/argparse_utils.py:12-14 | An item is split at its first `=` only. Later `=` signs stay in the value. |
| KeyVals.KeysComeFromItems | HDF5Translator/utils/argparse_utils.py:11-14 | Every key of the dictionary is the stripped key of some item. |
| KeyVals.LastItemWins | HDF5Translator/utils/argparse_utils.py:11-14 | For a repeated key, the last item with that key gives the value. |
| Elements.TypeKey | HDF5Translator/translator_elements.py:17-19 | The lookup key has no whitespace at either end. It is the lower-cased, stripped name, except that "string" becomes "str". |
| Elements.LookupType | HDF5Translator/translator_elements.py:21-28 | A key names a builtins type first, else a numpy type, else raises ValueError, and raises exactly when it is in neither namespace. |
| Elements.EvaluateType | HDF5Translator/translator_elements.py:11-28 | A type object is returned as is. A name is looked up by its lower-cased, stripped key, with "string" read as "str". |
| Elements.EvaluateTypeByKey | HDF5Translator/translator_elements.py:17-19 | Two names with the same lookup key resolve alike. |
| Elements.EvaluateTypeIgnoresLeadingSpace | HDF5Translator/translator_elements.py:17 | A leading whitespace character in a type name changes nothing. |
| Elements.EvaluateTypeIgnoresCase | HDF5Translator/translator_elements.py:17 | Letter case in a type name changes nothing. |
| Elements.EvaluateTypeString | HDF5Translator/translator_elements.py:18-19 | "String" names Python's `str`. |
| Elements.ResolveDataType | HDF5Translator/translator_elements.py:46-57 | The post-init data type is the resolved type. It is `str` when the type is absent or does not resolve. |
| Elements.EvaluateTransformation | HDF5Translator/translator_elements.py:59-67 | A transformation string is stripped and evaluated. A successful `eval` gives the callable, and a failing one keeps the original string. Anything else is unchanged. |
| Elements.MakeTranslationElement | HDF5Translator/translator_elements.py:31-67 | Raises TypeError exactly for a non-mapping, a missing destination or an unknown key. Otherwise the destination, source, alternate file, units, minimum dimensionality, attributes, default and compression are kept. The data type is the resolved type (`str` when absent or unresolvable). A string transformation becomes the callable a successful `eval` gives. A type object returns before the transformation is evaluated. |
| Elements.MakeLinkElement | HDF5Translator/translator_elements.py:70-76 | Raises exactly when a required key is missing, an unknown key is given or the entry is not a mapping. An absent kind becomes "internal" and an absent link type "soft". An explicit null stays null. |
| DataUtils.ApplyTransformation | src/HDF5Translator/utils/data_utils.py:20-28 | A missing or failing transformation leaves the value unchanged. It never raises. |
| DataUtils.SelectSourceUnits | src/HDF5Translator/utils/data_utils.py:115-127 | The source dataset's own `units` attribute wins, even a null one. Otherwise the rule's `source_units`, otherwise None. |
| DataUtils.IfDataIsNone | src/HDF5Translator/utils/data_utils.py:154-167 | The result is None only when both the data and the default are. Data that is not None is kept. |
| DataUtils.DecodeBytes | src/HDF5Translator/utils/data_utils.py:223-224 | UTF-8 decoding gives the decoded text, and raises ValueError exactly when the bytes do not decode. |
| DataUtils.TryStringAsArray | src/HDF5Translator/utils/data_utils.py:194-203 | Non-strings pass through. A string comes back stripped, or parsed into an array when it starts with `[`. An unreadable literal raises ValueError. |
| DataUtils.SanitizeAttribute | src/HDF5Translator/utils/data_utils.py:170-191 | None stays None and nothing else becomes None. Bytes never survive. Text becomes a float when `float()` accepts it. Text that survives is stripped, is no array literal, and is not a float. Failures are ValueError. |
| DataUtils.SanitizeAttributeIdempotent | src/HDF5Translator/utils/data_utils.py:170-191 | Sanitising a sanitised attribute changes nothing. |
| DataUtils.SanitizeAttributes | HDF5Translator/translator.py:101 | The dict comprehension keeps the keys and sanitises each value under its key. It raises exactly when some value fails. |
| DataUtils.SanitizeAttributesIdempotent | HDF5Translator/translator.py:101 | Sanitising a sanitised attribute mapping changes nothing. |
| DataUtils.DropNone | HDF5Translator/translator.py:261-263 | Exactly the attributes whose value is not None remain, with their values. |
| DataUtils.CastToDatatype | src/HDF5Translator/utils/data_utils.py:53-80 | With no type, or for None, the value is kept. An array is cast with `astype`, other values by calling the type. A ValueError falls back to the default, and any other exception escapes with its own class. |
| DataUtils.ParseData | src/HDF5Translator/utils/data_utils.py:222-227 | A value that is neither text nor bytes passes unchanged, and a value that is not None never becomes None. |
| DataUtils.SanitizeData | src/HDF5Translator/utils/data_utils.py:206-238 | The default stands in for None data, whatever the default's kind. None data with a None default gives None, and a None result implies the default is None. Bytes that do not decode raise ValueError. Text, given or decoded, is stripped and read as an array literal with the rule's type (ValueError when unreadable), then cast with the rule's type and default. Any other value, a non-text default included, goes straight to the cast. |
| DataUtils.NoneDataIsDefault | src/HDF5Translator/utils/data_utils.py:213-214 | Sanitising None data is sanitising the rule's default, of whatever kind. |
| DataUtils.RejectedCastWithNoneDefault | src/HDF5Translator/utils/data_utils.py:74-80 | A value the rule's type rejects with ValueError falls back to a None default, so the rule has nothing to write. |
| DataUtils.WithMinRank | src/HDF5Translator/utils/data_utils.py:99 | `np.array(v, ndmin=n)` gives an array. It fails exactly for more than 64 dimensions or an integer outside int64. |
| DataUtils.AddDimensionsIfNeeded | src/HDF5Translator/utils/data_utils.py:83-103 | No requirement, a requirement of 0, None, or a reshape that fails leaves the value alone. Otherwise the result reaches the rank by prepending size-1 axes, keeping the dtype and the elements. |
| DataUtils.ScalarGrowsToOnes | src/HDF5Translator/utils/data_utils.py:83-103 | A scalar grown to rank 3 has shape (1, 1, 1). |
| DataUtils.AddDimensionsIdempotent | src/HDF5Translator/utils/data_utils.py:83-103 | Growing twice to the same rank is growing once. |
| DataUtils.FixIfArrayOfStrings | src/HDF5Translator/utils/data_utils.py:106-112 | Non-string values are unchanged. A string array of rank 2 or more raises TypeError unless its first axis is empty. A string array that succeeds becomes one string. |
| DataUtils.FixJoinsWords | src/HDF5Translator/utils/data_utils.py:106-112 | A 1-d array of strings becomes its elements joined by single spaces. |
| DataUtils.FixRaisesOnGrownStringArray | src/HDF5Translator/utils/data_utils.py:106-112 | A two-word array grown to rank 2 makes the code as written raise TypeError, where the corrected flattening gives "a b". |
| DataUtils.FlattenStringArray | src/HDF5Translator/utils/data_utils.py:106-112 | A string array of any rank becomes its elements joined by single spaces, and raises exactly when an element is not text. On 1-d unicode arrays it agrees with the code as written. |
| DataUtils.PerformUnitConversion | src/HDF5Translator/utils/data_utils.py:256-286 | A conversion pint cannot do leaves the value unchanged. It never raises. |
| DataUtils.GetFromKeyVals | src/HDF5Translator/utils/data_utils.py:241-253 | The default when there are no key-values. Otherwise the key's text, or a default that is not None, goes through attribute sanitising. |
| DataUtils.GetFromKeyValsNumber | src/HDF5Translator/utils/data_utils.py:241-253 | A number given as text on the command line comes back as a float. |
| DataUtils.ResolveAlternateSourceFile | src/HDF5Translator/utils/data_utils.py:31-50 | A pattern resolves to its last match in sorted order, or to nothing when there is no match. A plain path is kept. The result is always an existing file. |
| DataUtils.ParseTranslationElements | src/HDF5Translator/utils/data_utils.py:130-139 | Every element kept is the successful construction of some entry, and every entry that constructs is kept. There are no more elements than entries. |
| DataUtils.ParseTranslationElementsInOrder | src/HDF5Translator/utils/data_utils.py:130-139 | Parsing two runs of entries gives the elements of the first followed by those of the second. A single entry gives its element, or nothing when it does not construct. So the survivors keep their order. |
| DataUtils.ParseKeepsValidEntries | src/HDF5Translator/utils/data_utils.py:130-139 | When every entry constructs, all are kept, in order. |
| DataUtils.ParsedFromEntries | src/HDF5Translator/utils/data_utils.py:130-139 | Every element kept was constructed from some entry. |
| DataUtils.ParseLinkElements | src/HDF5Translator/utils/data_utils.py:142-151 | Every link kept is the successful construction of some entry, and every entry that constructs is kept. |
| DataUtils.ParseLinkElementsInOrder | src/HDF5Translator/utils/data_utils.py:142-151 | Parsing two runs of link entries gives the links of the first followed by those of the second. A single entry gives its link or nothing. So the survivors keep their order. |
| DataUtils.ParseKeepsValidLinks | src/HDF5Translator/utils/data_utils.py:142-151 | When every link entry constructs, all are kept, in order. |
| DataUtils.LinkParsedFromEntries | src/HDF5Translator/utils/data_utils.py:142-151 | Every link kept was constructed from some entry. |
| Containers.ContainsIgnoresTrailingSlash | HDF5Translator/translator.py:103 | `path in f` gives the same answer with or without a trailing slash for a non-empty path. `/` names the root and is always present; the empty name is never present. |
| Containers.NodeAt | HDF5Translator/utils/hdf5_utils.py:27-28 | `f.get(path)` finds an object exactly when the path resolves, and then it is the node the path leads to. |
| Containers.ChildNames | HDF5Translator/utils/hdf5_utils.py:110 | `group.keys()` holds exactly the names with an entry directly below the group. |
| Containers.Graft | HDF5Translator/utils/hdf5_utils.py:135-140 | `h5_in.copy(...)` into a free path under a group adds a copy of the source tree there, keeps the rest of the file, and adds nothing elsewhere. |
| Containers.Delete | HDF5Translator/translator.py:110-113 | `del f[path]` removes the path and everything below it and keeps the rest. It raises KeyError exactly for the root or a missing path. |
| Containers.RequireGroup | HDF5Translator/utils/hdf5_utils.py:54 | An existing group is returned unchanged, and missing groups on the way are created empty. It raises TypeError exactly when a non-group blocks the way. Only prefixes of the path are added. |
| Containers.RequireGroupFresh | HDF5Translator/utils/hdf5_utils.py:54 | Every link `require_group` adds is a hard link to a new group; existing links are kept. |
| Containers.RequireGroupText | HDF5Translator/utils/hdf5_utils.py:54 | `require_group` on a text: the empty name raises ValueError, a blocked path TypeError. Otherwise the named path is a group, nothing is removed or changed, every new link leads to a new group, and a group that was missing is created empty. |
| Containers.ResolveFresh | HDF5Translator/translator.py:69-140 | When a change only keeps links or adds links to new objects, a path that leads to an old object afterwards led to it before. |
| Containers.KeptOutsideThenOne | HDF5Translator/translator.py:69-86 | A run of changes that keeps every object the paths `ps` did not lead to, followed by one change of at most the object `p` leads to, keeps every object none of `ps + [p]` led to at the start. |
| Containers.OneThenKeptOutside | HDF5Translator/translator.py:98-106 | One change of at most the object `p` leads to, followed by a run that keeps every object the paths `ps` do not lead to, keeps every object none of `[p] + ps` led to at the start. |
| Containers.UpdateAttrs | HDF5Translator/translator.py:106 | `attrs.update` keeps the links and the other objects, and merges the new attributes over the old. It raises exactly when nothing is at the path or a value cannot be stored. |
| Hdf5Utils.GetDataAndAttributesFromSource | HDF5Translator/utils/hdf5_utils.py:14-44 | A source path that leads to a dataset gives its value and sanitised attributes. No source, a missing path or a group gives the default and no attributes. |
| Hdf5Utils.WrittenDatasetReadsBack | HDF5Translator/utils/hdf5_utils.py:14-80 | Reading back a dataset just written gives the value written; for a dataset written anew, the attributes read are the written attributes, sanitised (and the read raises when those do not sanitise). |
| Hdf5Utils.CompatibleStable | HDF5Translator/utils/hdf5_utils.py:54-70 | Creating the parent groups does not change whether the path holds a dataset of the same shape and dtype as the data. |
| Hdf5Utils.WriteCompatible | HDF5Translator/utils/hdf5_utils.py:62-71 | Writing into a same-shape, same-dtype dataset keeps its compression and merges the attributes. Other objects are unchanged. |
| Hdf5Utils.Recreate | HDF5Translator/utils/hdf5_utils.py:72-80 | The path is replaced by a new dataset holding exactly the given attributes, and only paths at or below it change. It raises exactly for the root (KeyError), for None data, unstorable values or an int outside int64 (TypeError), and for a refused compression: TypeError for any filter on a shape-`()` value, ValueError for an unknown filter name. |
| Hdf5Utils.WriteDataset | HDF5Translator/utils/hdf5_utils.py:47-80 | As written, a path whose text before the last slash is empty (`/title`) raises ValueError. Otherwise it raises exactly when a non-group blocks the parent, an attribute cannot be stored, or an incompatible write cannot be made: the root, unstorable data, an int outside int64, or a compression h5py refuses. On success the parent is a group and the path holds the data. A compatible dataset keeps its compression and merges the attributes; otherwise a fresh dataset holds exactly the given attributes. No link outside the path changes. |
| Hdf5Utils.RequireParent | HDF5Translator/utils/hdf5_utils.py:54 | The group above the path: as written the text before the last slash, which raises ValueError when empty; corrected, the components before the leaf. It raises otherwise exactly when that group is blocked; on success it is a group, nothing was removed or changed, and every new link leads to a new group. |
| Hdf5Utils.WriteInto | HDF5Translator/utils/hdf5_utils.py:56-80 | Once the parent exists: raises exactly when an attribute cannot be stored or an incompatible write cannot be made. An int outside int64 at a free path raises OverflowError from the first attempt, which the retry does not catch; a refused compression raises TypeError on a shape-`()` value and ValueError otherwise. Only the path changes among the links, every new link leads to a new object, and only the object the path led to may change. |
| Hdf5Utils.WriteDatasetKeepsOtherObjects | HDF5Translator/utils/hdf5_utils.py:47-80 | A successful write changes no object except the one the path led to, and every new link leads to a new object, so an object reached through another hard link is untouched unless it is the target. |
| Hdf5Utils.TopLevelDestinationRaises | HDF5Translator/utils/hdf5_utils.py:54 | As written, writing `/name` raises ValueError: `"/name".rsplit("/", 1)[0]` is the empty name, which `require_group` refuses. |
| Hdf5Utils.TopLevelDestinationWritten | HDF5Translator/utils/hdf5_utils.py:47-80 | Corrected, writing storable data that fits int64 and attributes at `/name`, with a compression h5py accepts for that shape, succeeds and the root's member `name` holds the data. |
| Hdf5Utils.CompressedTextRaises | HDF5Translator/utils/hdf5_utils.py:56-80 | Text with any non-empty compression name is never written: both attempts create a shape-`()` dataset, which refuses filters. |
| Hdf5Utils.WideIntRaises | HDF5Translator/utils/hdf5_utils.py:56-80 | An int outside int64 is never written, whatever the compression. |
| Hdf5Utils.SingleCopy | HDF5Translator/utils/hdf5_utils.py:128-140 | Raises TypeError exactly when the output group is blocked. Otherwise the output is a group, the tree at output/leaf is a copy of the source tree, and nothing else changes but groups on the way. |
| Hdf5Utils.ClearTarget | HDF5Translator/utils/hdf5_utils.py:128-133 | An existing object at the target is deleted with everything below it. Nothing else changes. |
| Hdf5Utils.CopyTree | HDF5Translator/utils/hdf5_utils.py:83-140 | An empty input raises ValueError. A non-group input gives False and no change. An empty output raises IndexError. An input slash without an output slash gives False. A single copy places the tree. A fan-out copies every group member to its target; as written, a fan-out from `/` raises ValueError. Only paths below the output change. |
| Hdf5Utils.CopyChildren | HDF5Translator/utils/hdf5_utils.py:109-117 | The fan-out loop copies every group member to its target, keeps earlier copies, and changes nothing outside the output group. A loop over members none of which is a group changes nothing. |
| Hdf5Utils.CopyChild | HDF5Translator/utils/hdf5_utils.py:91-96 | One fan-out step: a member that is not a group gives False in the recursive call and leaves the output file as it was; a group member is copied to its target and earlier copies survive. |
| Hdf5Utils.OutputSlashIgnored | HDF5Translator/utils/hdf5_utils.py:98-101 | With an unslashed input, a trailing slash on the output path gives the same result as none. |
| Hdf5Utils.OutputSlashesIgnored | HDF5Translator/utils/hdf5_utils.py:98-101 | Any number of trailing output slashes give the same result as none. |
| Hdf5Utils.FanOutNestsChildren | HDF5Translator/utils/hdf5_utils.py:109-117 | As written, a fan-out from `a/` to `b/` places member `x` at `b/x/x`, and `b/x` is not a copy of `a/x`. |
| Hdf5Utils.RootFanOutRaises | HDF5Translator/utils/hdf5_utils.py:104-110 | As written, a tree copy from `/` to a slashed output raises ValueError: the input is stripped to the empty name, and `h5_in[""]` refuses it. |
| Hdf5Utils.RootFanOutCopiesMembers | HDF5Translator/utils/hdf5_utils.py:104-118 | Corrected, a successful tree copy from `/` to `b/` copies each member group `x` of the root to `b/x`. |
| Hdf5Utils.OneMoreSlash | HDF5Translator/utils/hdf5_utils.py:98-101 | With an unslashed input, one more trailing output slash gives the same result. |
| Values.Truth | HDF5Translator/translator.py:239 | Python truth: None and the empty string are false, other text is true. Only an array can raise, and then with ValueError. |
| Translator.ReadRule | HDF5Translator/translator.py:214-222 | With an open source and a truthy source path, the rule reads the source dataset. Otherwise it reads its default and its own attributes. |
| Translator.ConvertUnits | HDF5Translator/translator.py:236-241 | Raises exactly when the truth test of the source unit raises. Converts exactly when the source unit is truthy and the destination unit is a non-empty string; otherwise the data is unchanged. |
| Translator.MergedAttributes | HDF5Translator/translator.py:251-259 | The rule's attributes override the source's. `units` is the destination unit when given, else the effective source unit when not None. No other keys appear. |
| Translator.FinalAttributes | HDF5Translator/translator.py:251-263 | Merged attributes minus None values, each sanitised. The destination unit, or else the source unit, is the `units` attribute, and no new keys appear. |
| Translator.PrepareWrite | HDF5Translator/translator.py:214-263 | Nothing is written exactly when the read succeeds and sanitises to None. A written value is the sanitised value put through the value steps, and the written attributes are the final attributes of what was read. |
| Translator.ShapeValue | HDF5Translator/translator.py:231-248 | An unreadable unit truth test raises ValueError. Otherwise the value is transformed when the transformation is callable and gives a value, then converted when the source unit is truthy, the destination unit non-empty and pint gives a value. Text is then written as it is; anything else is grown to the minimum rank and then fixed (as written) or flattened (corrected). |
| Translator.TextIsNeverReshaped | HDF5Translator/translator.py:243-248 | Text that is neither transformed nor converted is written as sanitised, whatever the minimum rank. |
| Translator.PlainRuleWritesSanitised | HDF5Translator/translator.py:214-248 | Without a transformation, a conversion or a minimum rank, the written value is the flattened sanitised value, and the sanitised value itself when it is no string array. |
| Translator.ConversionSeesTransformed | HDF5Translator/translator.py:231-245 | The transformation runs before pint: the converted transformed value, grown to the minimum rank, is what is written. |
| Translator.TransformedValueWritten | HDF5Translator/translator.py:231-248 | A callable transformation that gives a value, with no conversion and no minimum rank, writes that value when it is not a string array. |
| Translator.TransformOnlyShape | HDF5Translator/translator.py:231-248 | With a callable transformation that gives a value, no conversion and no minimum rank, the value steps return the transformed value unchanged unless it is a string array. |
| Translator.DefaultIsCast | HDF5Translator/translator.py:214-263 | A rule without a source, default 42 and data type "float" writes `float(42)` with no attributes. |
| Translator.EmptyDestinationUnits | HDF5Translator/translator.py:239-259 | An empty destination unit skips the conversion but is still stored as the empty `units` string. |
| Translator.RuleUnitsBeatSourceUnits | HDF5Translator/translator.py:214-259 | Without a source, a `units` attribute declared by the rule ends up as the dataset's units. |
| Translator.ProcessTranslationElement | HDF5Translator/translator.py:203-275 | A None value writes nothing. As written, a value for a destination directly below the root raises ValueError. Otherwise the destination holds the prepared value and attributes, no link outside the destination changes, every new link leads to a new object, and no object changes except the one the destination led to. |
| Translator.SourceCheckedInItsFile | HDF5Translator/translator.py:157-168 | An internal link's source is looked up in the destination file, any other in the opened source file. A source missing there skips the link. |
| Translator.Attach | HDF5Translator/translator.py:177-200 | Storing a link at a free path creates missing groups. It raises TypeError exactly when a non-group blocks the parent. |
| Translator.CreateLink | HDF5Translator/translator.py:177-200 | Internal soft gives a soft link to the source path. Internal hard gives a hard link to the object the source resolves to, and KeyError when it resolves to none. An unknown kind makes no link. External gives an external link to the relative file path. A link at the empty name raises ValueError. No link or object is removed or changed. |
| Translator.ReplaceLink | HDF5Translator/translator.py:170-200 | An existing destination is deleted first (KeyError when the destination names the root); then the link is created. The empty destination raises ValueError for soft and external links, and KeyError or ValueError for hard ones. No object changes, only the destination and the groups above it change, and the destination holds the requested link. |
| Translator.ProcessLinkElement | HDF5Translator/translator.py:143-200 | Skips without a source or when the source is absent (an external link without a source file raises TypeError); otherwise it is the replacement of the destination by the link. An empty destination leaves the file as it was. No object changes, and only the destination and the groups above it change. |
| Translator.LinkStep | HDF5Translator/translator.py:118-140 | An external link reads its alternate or main source file. It is skipped when no alternate file exists, raises OSError when the alternate exists but is not an HDF5 file, and is otherwise always stored as an external link. An unknown kind raises TypeError. An internal link needs no source file. No object changes, and an empty destination changes nothing. |
| Translator.LinkPhase | HDF5Translator/translator.py:116-140 | The links in order. No object changes. Only paths at or below some non-empty link destination change. |
| Translator.TreeCopyPhase | HDF5Translator/translator.py:62-63 | Raises TypeError without a source file and OSError when it cannot be opened. No object of the file changes. Only paths below some tree destination change. |
| Translator.RuleInput | HDF5Translator/translator.py:69-81 | A rule reads its resolved alternate file, or else the source file, and is skipped when that file does not exist. A file that exists but does not open as HDF5 is unopenable. With no source file it reads nothing. |
| Translator.DataStep | HDF5Translator/translator.py:69-86 | A skipped rule, or one whose value sanitises to None, changes nothing. A rule whose file exists but is not HDF5 raises OSError. A failing preparation raises. A successful rule leaves its destination holding the prepared value and attributes. Only paths at or below the destination change, every new link leads to a new object, and only the object the destination led to may change. |
| Translator.DataPhase | HDF5Translator/translator.py:69-86 | The rules in order. Only paths at or below some rule's destination change. |
| Translator.DataPhaseKeepsUntargeted | HDF5Translator/translator.py:69-86 | The rules change at most the objects their destinations led to before the phase, however many links reach an object; every new link leads to a new object. |
| Translator.LastRuleWins | HDF5Translator/translator.py:69-86 | Among rules sharing a destination the last one wins: after the phase, the destination holds its value and attributes. |
| Translator.AttributeStep | HDF5Translator/translator.py:100-106 | Values are sanitised (ValueError), and the empty location raises ValueError. A missing location is created as a group holding them. An existing object keeps its attributes and gains the new ones. No link changes, and no object changes except the one the location leads to. |
| Translator.AttributeList | HDF5Translator/translator.py:98-106 | The attribute entries in order. No link or object reference is removed or replaced. |
| Translator.AttributeListKeepsUntargeted | HDF5Translator/translator.py:98-106 | The attribute entries change at most the objects their locations led to before them; every new link leads to a new group. |
| Translator.AttributePhase | HDF5Translator/translator.py:97-106 | As written, no `attributes` key raises AttributeError. Corrected, it is an empty mapping. Otherwise the entries are applied in order. |
| Translator.PrunePhase | HDF5Translator/translator.py:108-113 | Raises KeyError exactly when a listed non-empty path names the root; the empty name is never present and is skipped. Afterwards no listed path exists, nothing is added, no object changes, and every path outside the listed trees stays. |
| Translator.Initial | HDF5Translator/translator.py:51-59 | A template is copied when given. Otherwise a new file when overwriting or when none exists, else the existing file. |
| Translator.Populate | HDF5Translator/translator.py:51-86 | The starting file, the tree copies and the dataset rules. Every path of the starting file outside all tree and rule destinations keeps its entry. |
| Translator.Finish | HDF5Translator/translator.py:97-140 | Attributes, pruning and links. As written, no `attributes` key raises AttributeError. Every path outside the pruned trees and link destinations keeps its entry. |
| Translator.FinishKeepsUntargeted | HDF5Translator/translator.py:97-140 | Steps 3 to 5 change at most the objects the attribute locations lead to: pruning and linking change no object. |
| Translator.PopulateKeepsUntargeted | HDF5Translator/translator.py:51-86 | Steps 0 to 2 keep every object of the starting file that no rule destination leads to once the trees are copied: copying trees changes no object. |
| Translator.Translate | HDF5Translator/translator.py:32-140 | The five phases in order on a valid file. As written, a configuration without `attributes` never succeeds. |
| Translator.TranslateKeepsUntouched | HDF5Translator/translator.py:32-140 | A successful translation keeps, with the same entry, every path of the starting file that no tree copy, rule, pruned path or link aims at. |
| Translator.TranslateKeepsUntargeted | HDF5Translator/translator.py:32-140 | A successful translation keeps every object of the starting file that no rule destination (after the tree copies) and no attribute location (after the rules) leads to, however many links reach it. |
| Translator.TranslateKeepsUntouchedObject | HDF5Translator/translator.py:32-140 | A path no phase aims at, holding a hard link to an object no rule or attribute entry reaches, leads to that same object, with the same contents, after the translation. |
| Translator.OverwriteIgnoresExisting | HDF5Translator/translator.py:51-59 | With overwrite and no template, the existing destination plays no part. |
| Translator.MissingAttributesRaise | HDF5Translator/translator.py:97-100 | As written, once the copies and rules succeed, a configuration without `attributes` ends in AttributeError. |
| Translator.UnopenableAlternateRaises | HDF5Translator/translator.py:69-80 | A rule whose alternate-file pattern last matches an existing file that h5py cannot open raises OSError rather than being skipped. |
| Translator.CompressedTextRuleRaises | HDF5Translator/translator.py:203-275 | A rule that prepares text and names a compression filter always raises. |
| Translator.MissingAttributesCorrected | HDF5Translator/translator.py:97-100 | Corrected, a configuration without `attributes` translates like one with an empty mapping. |

## Left out

- File I/O, h5py handles and the opening and closing of files are left out. Each phase reads and returns a `Container`, and the files the translator can open are a parameter (`Translator.Env`).
- Glob matching, `is_file` and `os.path.relpath` are fields of `Translator.Env`. Only a glob pattern is matched relative to the destination's directory (`Env.glob`). A plain alternate path is checked as given, so relative to the working directory, by membership in `Env.isFile`. `Env.files` holds the existing files that open as HDF5.
- numpy, json, pint, `float()`, UTF-8 decoding, type construction and `eval` are fields of `Values.Oracles`. Their own behaviour is not modelled.
- Writes made before an exception escapes are not kept. A raise returns no file.
- Only `Containers.Resolve` and `Containers.NodeAt` follow a soft link, one hop, and only at the final path. A soft link in the middle of a path is not followed, and a dangling soft link counts as present for `in`.
- Members are addressed by path, so the members of a group reached through a second hard link are not visible under that link's path. `expand_external` is not modelled: a copied external link stays an external link.
- Creating a link under a non-group is modelled as TypeError, the class h5py raises for that.
- A `tree_copy` entry without a `source` or `destination` key raises KeyError in Python. The model takes the entries as pairs.
- Reading a configuration file, the command-line front end, logging and the tools directory are left out.
- The older `src/` copies of `translator.py`, `hdf5_utils.py`, `translator_elements.py` and the configuration reader are not part of this model.
- Containers.RequireGroup: a soft link to a group on the way is a non-group here, so it raises TypeError where h5py follows the link.
- Hdf5Utils.WriteDataset: a parent group reached through a soft link counts as blocked, as in RequireGroup.
- Hdf5Utils.SingleCopy: an output group reached through a soft link counts as blocked, as in RequireGroup.
- Hdf5Utils.CopyTree: an input path that is a soft link to a group gives False and copies nothing, where h5py follows the link and copies the group.
- Hdf5Utils.CopyChildren: a member that is a soft link to a group is not copied as a group, for the same reason.
- Translator.Attach: a link whose parent is reached through a soft link counts as blocked, as in RequireGroup.
- Translator.AttributeStep: a location below a soft-linked group raises TypeError, as in RequireGroup, where h5py reaches it through the link.
- Text.Lower: ASCII letters only. Python's `str.lower()` also lower-cases other letters (the Kelvin sign becomes `k`, for one), so such a type name could resolve differently in Python.
- DataUtils.CastToDatatype: an escaping exception keeps its class only when that class is one of `Values.Exc` (ValueError, TypeError, OverflowError, AttributeError, IndexError, KeyError, OSError).
- Containers.NodeAt: an external link leads to no object here. h5py's `get` would open the other file; the model does not follow links between files.
- Hdf5Utils.GetDataAndAttributesFromSource: a source path that is an external link gives the default, as `NodeAt` does not follow it. An empty source text gives the default too, where h5py raises ValueError; `process_translation_element` never passes an empty source (translator.py:215).
- Hdf5Utils.CopyTree: an input path that is an external link is not a group here, so it gives False where h5py would follow the link into the other file.
- Elements.MakeTranslationElement: a YAML null `destination` is read as a missing key and raises TypeError, where Python constructs the element with `destination` None and fails only when the destination is used. A null `attributes` cannot be written, since the field is a mapping here; Python keeps None, which `process_translation_element` replaces by `{}` only when it reads no source (translator.py:221). A null for any other optional key is read as absent, which is Python's own default of None.
- Elements.MakeLinkElement: a YAML null `destination_path` is read as a missing key, so construction raises TypeError where Python keeps None. A null `source_path` is kept, as in Python.
- Values.Float: a float is a rational number here, with no NaN, no infinities and no rounding.
- Values.Value: YAML lists and mappings are not values here. In Python a list attribute passes `sanitize_attribute` unchanged and is stored by h5py as an array, and a list `default_value` is cast by calling the type (`str([1, 2])` is `"[1, 2]"`), not with `astype`.
- Hdf5Utils.WriteDataset: the filters known are `gzip`, `lzf` and `szip`; whether szip is available depends on the HDF5 build, and an integer compression level (`compression: 4`) is not modelled, since the field is text here.
- Hdf5Utils.Recreate: when several checks fail, the class raised follows h5py's order as modelled (data type, then filters, then attributes); the exact class h5py raises for an unstorable attribute is TypeError here.
- Translator.DataPhase: the object frame (no object changes except those the destinations lead to) is stated by Translator.DataPhaseKeepsUntargeted rather than on the phase itself, to keep the phase's proof small.
- Translator.Populate: the object frame is stated by Translator.PopulateKeepsUntargeted; Populate itself states the link frame only.
- Translator.Finish: the object frame is stated by Translator.FinishKeepsUntargeted; Finish itself states the link frame only.
- Translator.TranslateKeepsUntouched: an untouched path keeps its link, but the object behind it can still change when another path that some rule or attribute entry aims at is a hard link to the same object. The per-object statement is Translator.TranslateKeepsUntouchedObject, which adds that condition.

## Findings

| source | as written | input that shows it | evidently intended | confidence | as-written member | corrected member |
|---|---|---|---|---|---|---|
| HDF5Translator/translator.py:97-100 | `config.get("attributes", [])` defaults to a list, and `.items()` is then called on it | a configuration with no `attributes` key | an absent key means no attributes (an empty mapping) | high, not executed | Translator.MissingAttributesRaise | Translator.MissingAttributesCorrected |
| src/HDF5Translator/utils/data_utils.py:106-112 | `" ".join(data.tolist())` on a string array of rank 2 or more joins lists, and raises TypeError | a rule with `minimum_dimensionality: 2` whose data is the string array ["a", "b"] | the elements joined with spaces, "a b" | medium, not executed | DataUtils.FixRaisesOnGrownStringArray | DataUtils.FlattenStringArray |
| HDF5Translator/utils/hdf5_utils.py:109-117 | the fan-out recurses with output `b/x` for member `x`, and the single copy then puts `x` inside it, at `b/x/x` | a tree copy from `/a/` to `/b/` where `/a` has a group `x` | `/a/x` copied to `/b/x` | high, not executed | Hdf5Utils.FanOutNestsChildren | Hdf5Utils.CopyTree |
| HDF5Translator/utils/hdf5_utils.py:54 | `path.rsplit("/", maxsplit=1)[0]` is the group required above the dataset | a rule whose destination is `/title` | the root group is required, and `/title` is written | medium, not executed | Hdf5Utils.TopLevelDestinationRaises | Hdf5Utils.TopLevelDestinationWritten |
| HDF5Translator/utils/hdf5_utils.py:104-110 | the input `/` is stripped of its slash before `h5_in[input_path]` | a tree copy from `/` to `/b/` | every member group of the root copied under `/b` | medium, not executed | Hdf5Utils.RootFanOutRaises | Hdf5Utils.RootFanOutCopiesMembers |

=== FILE: containers.dfy ===
/** An HDF5 file as the translator sees it: a tree of groups and datasets
    addressed by paths, with soft and external links. A path is the list of
    its component names; every path maps to a link, and a hard link names a
    node by id, so two paths that share an id are two hard links to one
    object. */
module Containers {
  import opened Text
  import opened Values

  /** An absolute path in a file, as its component names. */
  type Path = seq<string>

  /** An object in a file. */
  datatype Node =
    | Group(attrs: Attrs)
    | Dataset(value: Value, compression: Option<string>, attrs: Attrs)

  /** What a path names: an object (hard link), or a soft or external link. */
  datatype Entry =
    | Hard(id: nat)
    | SoftLink(target: string)
    | ExternalLink(file: string, target: string)

  datatype Container = Container(entries: map<Path, Entry>, nodes: map<nat, Node>, next: nat)

  predicate WellNamed(p: Path) {
    forall i :: 0 <= i < |p| ==> NameOk(p[i])
  }

  function Parent(p: Path): Path
    requires p != []
  {
    p[..|p| - 1]
  }

  /** Whether `p` is a hard link to a group. */
  predicate IsGroupAt(c: Container, p: Path) {
    && p in c.entries
    && c.entries[p].Hard?
    && c.entries[p].id in c.nodes
    && c.nodes[c.entries[p].id].Group?
  }

  /** A well-formed file: the root is a group, names are valid, every proper
      prefix of a path is a group, hard links name existing nodes, and `next`
      is a fresh id. */
  predicate Valid(c: Container) {
    && IsGroupAt(c, [])
    && (forall p :: p in c.entries ==> WellNamed(p))
    && (forall p, i :: p in c.entries && 0 <= i < |p| ==> IsGroupAt(c, p[..i]))
    && (forall p :: p in c.entries && c.entries[p].Hard? ==> c.entries[p].id in c.nodes)
    && (forall id :: id in c.nodes ==> id < c.next)
  }

  /** A new, empty file: only the root group. */
  function Empty(): (r: Container)
    ensures Valid(r)
    ensures r.entries.Keys == {[]}
    ensures r.nodes[r.entries[[]].id] == Group(map[])
  {
    Container(map[[] := Hard(0)], map[0 := Group(map[])], 1)
  }

  /** `d` keeps every object of `c` as it was. */
  predicate NodesKept(c: Container, d: Container) {
    forall id :: id in c.nodes ==> id in d.nodes && d.nodes[id] == c.nodes[id]
  }

  /** `d` keeps every link and every object of `c` as it was. */
  predicate Extends(c: Container, d: Container) {
    && (forall q :: q in c.entries ==> q in d.entries && d.entries[q] == c.entries[q])
    && (forall id :: id in c.nodes ==> id in d.nodes && d.nodes[id] == c.nodes[id])
  }

  /** Every link of `d` is the link `c` has at that path, or a hard link to
      an object `c` does not have. */
  predicate FreshLinks(c: Container, d: Container) {
    forall q :: q in d.entries ==>
      || (q in c.entries && d.entries[q] == c.entries[q])
      || (d.entries[q].Hard? && d.entries[q].id !in c.nodes)
  }

  /** `d` still has every object of `c`, and all of them as they were except
      perhaps the one `p` leads to in `c`. */
  predicate ObjectsKeptBut(c: Container, d: Container, p: Path) {
    && (forall id :: id in c.nodes ==> id in d.nodes)
    && (forall id :: id in c.nodes && Resolve(c, p) != Some(id) ==> d.nodes[id] == c.nodes[id])
  }

  /** Whether one of the paths leads to the object `id` in `c`. */
  ghost predicate Targeted(c: Container, id: nat, ps: seq<Path>) {
    exists i :: 0 <= i < |ps| && Resolve(c, ps[i]) == Some(id)
  }

  /** `d` still has every object of `c`, and all of them as they were except
      perhaps those the paths lead to in `c`. */
  ghost predicate ObjectsKeptOutside(c: Container, d: Container, ps: seq<Path>) {
    && (forall id :: id in c.nodes ==> id in d.nodes)
    && (forall id :: id in c.nodes && !Targeted(c, id, ps) ==> d.nodes[id] == c.nodes[id])
  }

  /** When the links of `d` are old or lead to new objects, a path that leads
      to an old object in `d` led to it in `c` already. */
  lemma ResolveFresh(c: Container, d: Container, p: Path, id: nat)
    requires FreshLinks(c, d)
    requires Resolve(d, p) == Some(id) && id in c.nodes
    ensures Resolve(c, p) == Some(id)
  {
    var e := d.entries[p];
    if e.SoftLink? {
      var q := Components(e.target);
      assert q in d.entries && d.entries[q] == Hard(id);
    }
  }

  lemma FreshLinksTrans(c: Container, d: Container, e: Container)
    requires FreshLinks(c, d) && FreshLinks(d, e)
    requires forall id :: id in c.nodes ==> id in d.nodes
    ensures FreshLinks(c, e)
  {
  }

  /** A run of changes that keeps the objects the paths `ps` do not lead to,
      then one change of at most the object `p` leads to: together they keep
      every object that none of `ps + [p]` led to at the start. */
  lemma KeptOutsideThenOne(c: Container, c1: Container, d: Container, ps: seq<Path>, p: Path)
    requires FreshLinks(c, c1) && ObjectsKeptOutside(c, c1, ps)
    requires FreshLinks(c1, d) && ObjectsKeptBut(c1, d, p)
    ensures FreshLinks(c, d) && ObjectsKeptOutside(c, d, ps + [p])
  {
    FreshLinksTrans(c, c1, d);
    forall id | id in c.nodes && !Targeted(c, id, ps + [p])
      ensures d.nodes[id] == c.nodes[id]
    {
      forall i | 0 <= i < |ps|
        ensures Resolve(c, ps[i]) != Some(id)
      {
        assert (ps + [p])[i] == ps[i];
      }
      if Resolve(c1, p) == Some(id) {
        assert (ps + [p])[|ps|] == p;
        ResolveFresh(c, c1, p, id);
      }
    }
  }

  /** One change of at most the object `p` leads to, then a run of changes
      that keeps the objects the paths `ps` do not lead to: together they
      keep every object that none of `[p] + ps` led to at the start. */
  lemma OneThenKeptOutside(c: Container, c1: Container, d: Container, p: Path, ps: seq<Path>)
    requires FreshLinks(c, c1) && ObjectsKeptBut(c, c1, p)
    requires FreshLinks(c1, d) && ObjectsKeptOutside(c1, d, ps)
    ensures FreshLinks(c, d) && ObjectsKeptOutside(c, d, [p] + ps)
  {
    FreshLinksTrans(c, c1, d);
    forall id | id in c.nodes && !Targeted(c, id, [p] + ps)
      ensures d.nodes[id] == c.nodes[id]
    {
      assert ([p] + ps)[0] == p;
      forall i | 0 <= i < |ps|
        ensures Resolve(c1, ps[i]) != Some(id)
      {
        if Resolve(c1, ps[i]) == Some(id) {
          assert ([p] + ps)[i + 1] == ps[i];
          ResolveFresh(c, c1, ps[i], id);
        }
      }
    }
  }

  /** h5py's `path in f`: whether a link of that name exists. HDF5 has no
      empty name, so `"" in f` is False (while `"/" in f` names the root). */
  predicate Contains(c: Container, path: string) {
    path != "" && Components(path) in c.entries
  }

  /** `path in f` ignores a trailing slash, except that the slash alone names
      the root where the empty text names nothing. */
  lemma ContainsIgnoresTrailingSlash(c: Container, path: string)
    requires Valid(c)
    ensures path != "" ==> Contains(c, path + "/") == Contains(c, path)
    ensures Contains(c, "/") && !Contains(c, "")
  {
    ComponentsDropSlash(path + "/");
    assert (path + "/")[..|path + "/"| - 1] == path;
    ComponentsDropSlash("/");
    assert "/"[..0] == "";
  }

  /** Nothing lies below a path that does not exist. */
  lemma {:induction false} NoDescendant(c: Container, p: Path, q: Path)
    requires Valid(c) && p !in c.entries && q in c.entries
    ensures !(p <= q)
    decreases |q|
  {
    if p <= q {
      assert p != q;
      assert q[..|q|] == q;
      assert |p| < |q|;
      assert Parent(q)[..|p|] == q[..|p|];
      assert p <= Parent(q);
      NoDescendant(c, p, Parent(q));
    }
  }

  lemma NoDescendants(c: Container, p: Path)
    requires Valid(c) && p !in c.entries
    ensures forall q :: q in c.entries ==> !(p <= q)
  {
    forall q | q in c.entries
      ensures !(p <= q)
    {
      NoDescendant(c, p, q);
    }
  }

  /** The object a path leads to: a hard link's node, or the node of the hard
      link a soft link names; external links lead outside the file. */
  function Resolve(c: Container, p: Path): (r: Option<nat>)
    ensures r.Some? ==> r.value in c.nodes
    ensures p in c.entries && c.entries[p].Hard? && c.entries[p].id in c.nodes ==> r == Some(c.entries[p].id)
    ensures p !in c.entries ==> r.None?
  {
    if p !in c.entries then None
    else
      var e := c.entries[p];
      if e.Hard? then (if e.id in c.nodes then Some(e.id) else None)
      else if e.SoftLink? then
        var q := Components(e.target);
        if q in c.entries && c.entries[q].Hard? && c.entries[q].id in c.nodes then Some(c.entries[q].id)
        else None
      else None
  }

  /** `f.get(path)`: the object at a path, if any. */
  function NodeAt(c: Container, p: Path): (r: Option<Node>)
    ensures r.Some? <==> Resolve(c, p).Some?
    ensures r.Some? ==> r.value == c.nodes[Resolve(c, p).value]
  {
    var id := Resolve(c, p);
    if id.Some? then Some(c.nodes[id.value]) else None
  }

  /** `del f[path]`: removes the link and everything below it; the root and
      missing paths raise. */
  function Delete(c: Container, p: Path): (r: Result<Container>)
    requires Valid(c)
    ensures r.Raised? <==> p == [] || p !in c.entries
    ensures r.Raised? ==> r.exc == KeyError
    ensures r.Ok? ==> Valid(r.value) && r.value.nodes == c.nodes && r.value.next == c.next
    ensures r.Ok? ==> forall q :: q in r.value.entries <==> q in c.entries && !(p <= q)
    ensures r.Ok? ==> forall q :: q in r.value.entries ==> r.value.entries[q] == c.entries[q]
  {
    if p == [] || p !in c.entries then Raised(KeyError)
    else
      var d := c.(entries := map q | q in c.entries && !(p <= q) :: c.entries[q]);
      assert Valid(d) by {
        forall q | q in d.entries && q != []
          ensures IsGroupAt(d, Parent(q))
        {
          assert Parent(q) <= q;
        }
      }
      Ok(d)
  }

  /** Creates a new object under an existing group. */
  function AddNode(c: Container, p: Path, n: Node): (r: Container)
    requires Valid(c)
    requires p != [] && WellNamed(p) && p !in c.entries && IsGroupAt(c, Parent(p))
    ensures Valid(r)
    ensures Extends(c, r)
    ensures r.entries.Keys == c.entries.Keys + {p}
    ensures r.entries[p].Hard? && r.nodes[r.entries[p].id] == n
    ensures r.entries[p].id !in c.nodes
  {
    var r := Container(c.entries[p := Hard(c.next)], c.nodes[c.next := n], c.next + 1);
    assert forall i :: 0 <= i < |p| ==> IsGroupAt(r, p[..i]) by {
      forall i | 0 <= i < |p|
        ensures IsGroupAt(r, p[..i])
      {
        if i < |p| - 1 {
          assert p[..i] == Parent(p)[..i];
        }
      }
    }
    r
  }

  /** `f[path] = link` under an existing group: a soft or external link, or
      a hard link to an existing object. */
  function AddLink(c: Container, p: Path, e: Entry): (r: Container)
    requires Valid(c)
    requires p != [] && WellNamed(p) && p !in c.entries && IsGroupAt(c, Parent(p))
    requires e.Hard? ==> e.id in c.nodes
    ensures Valid(r)
    ensures Extends(c, r)
    ensures r.entries == c.entries[p := e] && r.nodes == c.nodes
  {
    var r := c.(entries := c.entries[p := e]);
    assert forall i :: 0 <= i < |p| ==> IsGroupAt(r, p[..i]) by {
      forall i | 0 <= i < |p|
        ensures IsGroupAt(r, p[..i])
      {
        if i < |p| - 1 {
          assert p[..i] == Parent(p)[..i];
        }
      }
    }
    r
  }

  /** Some prefix of `p` exists and is not a group. */
  predicate Blocked(c: Container, p: Path) {
    exists i :: 0 <= i <= |p| && p[..i] in c.entries && !IsGroupAt(c, p[..i])
  }

  lemma BlockedStep(c: Container, p: Path)
    requires p != []
    ensures Blocked(c, p) <==> Blocked(c, Parent(p)) || (p in c.entries && !IsGroupAt(c, p))
  {
    if Blocked(c, p) {
      var i :| 0 <= i <= |p| && p[..i] in c.entries && !IsGroupAt(c, p[..i]);
      if i < |p| {
        assert Parent(p)[..i] == p[..i];
      } else {
        assert p[..i] == p;
      }
    }
    if Blocked(c, Parent(p)) {
      var i :| 0 <= i <= |Parent(p)| && Parent(p)[..i] in c.entries && !IsGroupAt(c, Parent(p)[..i]);
      assert Parent(p)[..i] == p[..i];
    }
    if p in c.entries && !IsGroupAt(c, p) {
      assert p[..|p|] == p;
    }
  }

  /** `f.require_group(path)`: an existing group is returned as is; missing
      groups on the way are created; an existing non-group anywhere on the
      way raises TypeError. */
  function RequireGroup(c: Container, p: Path): (r: Result<Container>)
    requires Valid(c) && WellNamed(p)
    ensures r.Raised? <==> Blocked(c, p)
    ensures r.Raised? ==> r.exc == TypeError
    ensures r.Ok? ==> Valid(r.value) && IsGroupAt(r.value, p) && Extends(c, r.value)
    ensures r.Ok? ==> forall q :: q in r.value.entries && q !in c.entries ==> q <= p
    ensures IsGroupAt(c, p) ==> r == Ok(c)
    ensures r.Ok? && p !in c.entries ==> NodeAt(r.value, p) == Some(Group(map[]))
    decreases |p|
  {
    if p == [] then
      assert !Blocked(c, []);
      Ok(c)
    else
      BlockedStep(c, p);
      var c1 :- RequireGroup(c, Parent(p));
      if p in c1.entries then
        if IsGroupAt(c1, p) then Ok(c1) else Raised(TypeError)
      else
        Ok(AddNode(c1, p, Group(map[])))
  }

  /** Every entry that requiring a group adds is a hard link to a new
      object. */
  lemma {:induction false} RequireGroupFresh(c: Container, p: Path)
    requires Valid(c) && WellNamed(p)
    ensures RequireGroup(c, p).Ok? ==> FreshLinks(c, RequireGroup(c, p).value)
    decreases |p|
  {
    if p != [] {
      RequireGroupFresh(c, Parent(p));
    }
  }

  /** `f.require_group(text)`: HDF5 refuses the empty name with ValueError;
      any other text is the group its components name. */
  function RequireGroupText(c: Container, text: string): (r: Result<Container>)
    requires Valid(c)
    ensures r.Raised? <==> text == "" || Blocked(c, Components(text))
    ensures r.Raised? ==> r.exc == (if text == "" then ValueError else TypeError)
    ensures r.Ok? ==> Valid(r.value) && IsGroupAt(r.value, Components(text)) && Extends(c, r.value)
    ensures r.Ok? ==> FreshLinks(c, r.value)
    ensures r.Ok? ==> forall q :: q in r.value.entries && q !in c.entries ==> q <= Components(text)
    ensures r.Ok? && Components(text) !in c.entries ==> NodeAt(r.value, Components(text)) == Some(Group(map[]))
  {
    if text == "" then Raised(ValueError)
    else
      RequireGroupFresh(c, Components(text));
      RequireGroup(c, Components(text))
  }

  /** The names of the members of the group at `p` (`g.keys()`). */
  function ChildNames(c: Container, p: Path): (r: set<string>)
    ensures forall k :: k in r <==> p + [k] in c.entries
  {
    var r := set q | q in c.entries && |q| == |p| + 1 && p <= q :: q[|p|];
    assert forall k :: k in r <==> p + [k] in c.entries by {
      forall k | k in r
        ensures p + [k] in c.entries
      {
        var q :| q in c.entries && |q| == |p| + 1 && p <= q && k == q[|p|];
        assert q == p + [k];
      }
      forall k | p + [k] in c.entries
        ensures k in r
      {
        var q := p + [k];
        assert |q| == |p| + 1 && p <= q && q[|p|] == k;
      }
    }
    r
  }

  /** What h5py can store: not None, and not a numpy unicode or object
      array. */
  predicate Storable(v: Value) {
    !v.Null? && !(v.Array? && (v.arr.dtype.kind == Unicode || v.arr.dtype.kind == PyObject))
  }

  predicate AllStorable(a: Attrs) {
    forall k :: k in a ==> Storable(a[k])
  }

  /** `f[path].attrs.update(ad)`: KeyError when the path leads nowhere,
      TypeError when a value cannot be stored; otherwise the object keeps its
      attributes and gains or overrides the given ones. */
  function UpdateAttrs(c: Container, p: Path, ad: Attrs): (r: Result<Container>)
    requires Valid(c)
    ensures r.Raised? <==> NodeAt(c, p).None? || !AllStorable(ad)
    ensures r.Ok? ==>
      && Valid(r.value)
      && r.value.entries == c.entries
      && NodeAt(r.value, p).Some?
      && NodeAt(r.value, p).value == NodeAt(c, p).value.(attrs := NodeAt(c, p).value.attrs + ad)
      && (forall id :: id in c.nodes && id != Resolve(c, p).value ==> id in r.value.nodes && r.value.nodes[id] == c.nodes[id])
  {
    var id := Resolve(c, p);
    if id.None? then Raised(KeyError)
    else if !AllStorable(ad) then Raised(TypeError)
    else
      var n := c.nodes[id.value];
      Ok(c.(nodes := c.nodes[id.value := n.(attrs := n.attrs + ad)]))
  }

  /** A link as it appears after being copied `off` ids further on. */
  function Shift(e: Entry, off: nat): Entry {
    if e.Hard? then Hard(e.id + off) else e
  }

  /** `e1` in `c1` and `e2` in `c2` are the same link or lead to equal
      objects. */
  predicate SameEntry(c1: Container, e1: Entry, c2: Container, e2: Entry) {
    if e1.Hard? then e2.Hard? && e1.id in c1.nodes && e2.id in c2.nodes && c2.nodes[e2.id] == c1.nodes[e1.id]
    else e2 == e1
  }

  /** The tree at `dp` in `d` is a copy of the tree at `sp` in `c`. */
  ghost predicate Copied(c: Container, sp: Path, d: Container, dp: Path) {
    forall s ::
      && (sp + s in c.entries <==> dp + s in d.entries)
      && (sp + s in c.entries ==> SameEntry(c, c.entries[sp + s], d, d.entries[dp + s]))
  }

  /** Moving paths from below `sp` to below `dp` keeps distinct paths
      distinct. */
  lemma RerootInjective(sp: Path, dp: Path)
    ensures forall q1, q2 :: sp <= q1 && sp <= q2 && q1 != q2 ==> dp + q1[|sp|..] != dp + q2[|sp|..]
  {
    forall q1, q2 | sp <= q1 && sp <= q2 && dp + q1[|sp|..] == dp + q2[|sp|..]
      ensures q1 == q2
    {
      assert q1[|sp|..] == (dp + q1[|sp|..])[|dp|..];
      assert q2[|sp|..] == (dp + q2[|sp|..])[|dp|..];
      assert q1 == sp + q1[|sp|..];
      assert q2 == sp + q2[|sp|..];
    }
  }

  /** The links below `sp`, moved to below `dp`, with hard links `off` ids
      further on. */
  function Moved(src: map<Path, Entry>, sp: Path, dp: Path, off: nat): (m: map<Path, Entry>)
    ensures forall s :: dp + s in m <==> sp + s in src
    ensures forall s :: sp + s in src ==> m[dp + s] == Shift(src[sp + s], off)
    ensures forall t :: t in m ==> dp <= t
  {
    var keys := set q | q in src && sp <= q :: dp + q[|sp|..];
    assert forall t :: t in keys <==> dp <= t && sp + t[|dp|..] in src by {
      forall t | t in keys
        ensures dp <= t && sp + t[|dp|..] in src
      {
        var q :| q in src && sp <= q && t == dp + q[|sp|..];
        assert t[|dp|..] == q[|sp|..];
        assert sp + t[|dp|..] == q;
      }
      forall t | dp <= t && sp + t[|dp|..] in src
        ensures t in keys
      {
        var q := sp + t[|dp|..];
        assert q[|sp|..] == t[|dp|..];
        assert dp + q[|sp|..] == t;
      }
    }
    var m := map t | t in keys :: Shift(src[sp + t[|dp|..]], off);
    assert forall s :: dp + s in m <==> sp + s in src by {
      forall s
        ensures dp + s in m <==> sp + s in src
      {
        assert (dp + s)[|dp|..] == s;
      }
    }
    m
  }

  /** The objects of a file, renumbered `off` ids further on. */
  function ShiftedNodes(src: map<nat, Node>, off: nat): (m: map<nat, Node>)
    ensures forall id :: id in m <==> id >= off && id - off in src
    ensures forall id :: id in m ==> m[id] == src[id - off]
  {
    var keys := set i | i in src :: i + off;
    assert forall k :: k in keys <==> k >= off && k - off in src by {
      forall k | k >= off && k - off in src
        ensures k in keys
      {
        var i: nat := k - off;
        assert i + off == k;
      }
    }
    map k | k in keys :: src[k - off]
  }

  /** The tree at `sp` in `src`, copied in as the new path `dp` of `dst`,
      with its objects given fresh ids. */
  function Graft(src: Container, sp: Path, dst: Container, dp: Path): (r: Container)
    requires Valid(src) && Valid(dst)
    requires sp in src.entries
    requires dp != [] && WellNamed(dp) && dp !in dst.entries && IsGroupAt(dst, Parent(dp))
    ensures Valid(r)
    ensures Extends(dst, r)
    ensures Copied(src, sp, r, dp)
    ensures forall t :: t in r.entries ==> t in dst.entries || dp <= t
  {
    var off := dst.next;
    var moved := Moved(src.entries, sp, dp, off);
    var shifted := ShiftedNodes(src.nodes, off);
    var r := Container(dst.entries + moved, dst.nodes + shifted, dst.next + src.next);
    GraftFacts(src, sp, dst, dp, moved, shifted, r);
    r
  }

  lemma ParentOfConcat(a: Path, b: Path)
    requires b != []
    ensures Parent(a + b) == a + Parent(b)
  {
  }

  lemma GraftFacts(src: Container, sp: Path, dst: Container, dp: Path,
                   moved: map<Path, Entry>, shifted: map<nat, Node>, r: Container)
    requires Valid(src) && Valid(dst)
    requires sp in src.entries
    requires dp != [] && WellNamed(dp) && dp !in dst.entries && IsGroupAt(dst, Parent(dp))
    requires moved == Moved(src.entries, sp, dp, dst.next)
    requires shifted == ShiftedNodes(src.nodes, dst.next)
    requires r == Container(dst.entries + moved, dst.nodes + shifted, dst.next + src.next)
    ensures Valid(r)
    ensures Extends(dst, r)
    ensures Copied(src, sp, r, dp)
    ensures forall t :: t in r.entries ==> t in dst.entries || dp <= t
  {
    NoDescendants(dst, dp);
    assert forall q :: q in dst.entries ==> q !in moved;
    assert forall id :: id in dst.nodes ==> id !in shifted;
    assert Extends(dst, r);
    GraftCopied(src, sp, dst, dp, moved, shifted, r);
    forall t | t in moved
      ensures WellNamed(t)
      ensures r.entries[t].Hard? ==> r.entries[t].id in r.nodes
    {
      GraftMovedEntry(src, sp, dst, dp, moved, shifted, r, t);
    }
    forall t, i | t in r.entries && 0 <= i < |t|
      ensures IsGroupAt(r, t[..i])
    {
      if t in moved {
        GraftMovedPrefix(src, sp, dst, dp, moved, shifted, r, t, i);
      }
    }
    forall id | id in r.nodes
      ensures id < r.next
    {
      if id in shifted {
        ShiftedBelow(src, dst.next, shifted, id);
      }
    }
  }

  lemma GraftMovedPrefix(src: Container, sp: Path, dst: Container, dp: Path,
                         moved: map<Path, Entry>, shifted: map<nat, Node>, r: Container, t: Path, i: nat)
    requires Valid(src) && Valid(dst)
    requires dp != [] && IsGroupAt(dst, Parent(dp))
    requires Extends(dst, r)
    requires forall q :: q in dst.entries ==> q !in moved
    requires forall id :: id in dst.nodes ==> id !in shifted
    requires moved == Moved(src.entries, sp, dp, dst.next)
    requires shifted == ShiftedNodes(src.nodes, dst.next)
    requires r == Container(dst.entries + moved, dst.nodes + shifted, dst.next + src.next)
    requires t in moved && i < |t|
    ensures IsGroupAt(r, t[..i])
  {
    var x := t[|dp|..];
    assert t == dp + x;
    if i < |dp| - 1 {
      assert t[..i] == Parent(dp)[..i];
    } else if i == |dp| - 1 {
      assert t[..i] == Parent(dp);
    } else {
      var j := i - |dp|;
      assert t[..i] == dp + x[..j];
      assert sp + x in src.entries;
      assert (sp + x)[..|sp| + j] == sp + x[..j];
      MovedGroup(src, sp, dst, dp, moved, shifted, r, x[..j]);
    }
  }

  lemma MovedGroup(src: Container, sp: Path, dst: Container, dp: Path,
                   moved: map<Path, Entry>, shifted: map<nat, Node>, r: Container, y: Path)
    requires Valid(src)
    requires forall q :: q in dst.entries ==> q !in moved
    requires forall id :: id in dst.nodes ==> id !in shifted
    requires moved == Moved(src.entries, sp, dp, dst.next)
    requires shifted == ShiftedNodes(src.nodes, dst.next)
    requires r == Container(dst.entries + moved, dst.nodes + shifted, dst.next + src.next)
    requires IsGroupAt(src, sp + y)
    ensures IsGroupAt(r, dp + y)
  {
    var off := dst.next;
    var g := src.entries[sp + y];
    assert dp + y in moved;
    assert r.entries[dp + y] == moved[dp + y] == Hard(g.id + off);
    assert g.id + off - off == g.id;
    assert g.id + off in shifted;
  }

  lemma ShiftedBelow(src: Container, off: nat, shifted: map<nat, Node>, id: nat)
    requires Valid(src)
    requires shifted == ShiftedNodes(src.nodes, off)
    requires id in shifted
    ensures id < off + src.next
  {
    assert id - off in src.nodes;
  }

  lemma GraftCopied(src: Container, sp: Path, dst: Container, dp: Path,
                    moved: map<Path, Entry>, shifted: map<nat, Node>, r: Container)
    requires Valid(src) && Valid(dst)
    requires dp !in dst.entries
    requires forall q :: q in dst.entries ==> !(dp <= q)
    requires moved == Moved(src.entries, sp, dp, dst.next)
    requires shifted == ShiftedNodes(src.nodes, dst.next)
    requires r == Container(dst.entries + moved, dst.nodes + shifted, dst.next + src.next)
    ensures Copied(src, sp, r, dp)
  {
    var off := dst.next;
    forall s
      ensures dp + s in r.entries <==> sp + s in src.entries
      ensures sp + s in src.entries ==> SameEntry(src, src.entries[sp + s], r, r.entries[dp + s])
    {
      assert dp <= dp + s;
      if sp + s in src.entries {
        var e := src.entries[sp + s];
        if e.Hard? {
          assert e.id + off - off == e.id;
          assert r.nodes[e.id + off] == shifted[e.id + off];
        }
      }
    }
  }

  lemma GraftMovedEntry(src: Container, sp: Path, dst: Container, dp: Path,
                        moved: map<Path, Entry>, shifted: map<nat, Node>, r: Container, t: Path)
    requires Valid(src) && Valid(dst)
    requires WellNamed(dp)
    requires forall q :: q in dst.entries ==> q !in moved
    requires forall id :: id in dst.nodes ==> id !in shifted
    requires moved == Moved(src.entries, sp, dp, dst.next)
    requires shifted == ShiftedNodes(src.nodes, dst.next)
    requires r == Container(dst.entries + moved, dst.nodes + shifted, dst.next + src.next)
    requires t in moved
    ensures WellNamed(t)
    ensures r.entries[t].Hard? ==> r.entries[t].id in r.nodes
  {
    var x := t[|dp|..];
    assert t == dp + x;
    assert sp + x in src.entries;
    WellNamedConcat(dp, sp, x);
    var e := src.entries[sp + x];
    if e.Hard? {
      assert e.id + dst.next - dst.next == e.id;
    }
  }

  lemma WellNamedConcat(dp: Path, sp: Path, x: Path)
    requires WellNamed(dp) && WellNamed(sp + x)
    ensures WellNamed(dp + x)
  {
    forall i | 0 <= i < |dp + x|
      ensures NameOk((dp + x)[i])
    {
      if i >= |dp| {
        assert (dp + x)[i] == (sp + x)[i - |dp| + |sp|];
      }
    }
  }
}

=== FILE: datautils.dfy ===
/** The value and attribute normalisers of the translator
    (src/HDF5Translator/utils/data_utils.py): default substitution, byte
    decoding, array-literal parsing, casting, dimension growth, string-array
    flattening, unit selection and conversion, and the parsing of the
    `data_copy` and `link_list` sections. */
module DataUtils {
  import opened Text
  import opened Values
  import opened Elements

  /** numpy's limit on the number of array dimensions. */
  const MaxDims: nat := 64

  /** Bounds of numpy's default integer type (int64). */
  const Int64Min: int := -0x8000_0000_0000_0000
  const Int64Max: int := 0x7FFF_FFFF_FFFF_FFFF

  /** `apply_transformation`: a failing or non-callable transformation leaves
      the value as it was; it never raises. */
  function ApplyTransformation(data: Value, t: Transformation, o: Oracles): (r: Value)
    ensures !t.Callable? ==> r == data
    ensures t.Callable? && o.transform(t.id, data).None? ==> r == data
    ensures t.Callable? && o.transform(t.id, data).Some? ==> r == o.transform(t.id, data).value
  {
    if t.Callable? then
      var out := o.transform(t.id, data);
      if out.Some? then out.value else data
    else data
  }

  /** `select_source_units`: the source dataset's own `units` attribute when
      it has one (even a null one), otherwise the rule's `source_units`. */
  function SelectSourceUnits(sourceUnits: Option<string>, attributes: Attrs): (r: Value)
    ensures "units" in attributes ==> r == attributes["units"]
    ensures "units" !in attributes && sourceUnits.Some? ==> r == Str(sourceUnits.value)
    ensures "units" !in attributes && sourceUnits.None? ==> r == Null
  {
    if "units" in attributes then attributes["units"]
    else if sourceUnits.None? then Null
    else Str(sourceUnits.value)
  }

  /** `if_data_is_none`: the default stands in for missing data. */
  function IfDataIsNone(data: Value, default: Value): (r: Value)
    ensures r.Null? <==> data.Null? && default.Null?
    ensures !data.Null? ==> r == data
    ensures data.Null? ==> r == default
  {
    if data.Null? then default else data
  }

  /** Whether stripped text looks like an array literal. */
  predicate LooksLikeArray(t: string) {
    |t| > 0 && t[0] == '['
  }

  /** `try_string_as_array`: non-strings pass through; strings come back
      stripped, or parsed into an array when they start with '['. A literal
      that json or numpy cannot read raises ValueError. */
  function TryStringAsArray(v: Value, dataType: Option<TypeName>, o: Oracles): (r: Result<Value>)
    ensures !v.Str? ==> r == Ok(v)
    ensures v.Str? && !LooksLikeArray(Strip(v.s)) ==> r == Ok(Str(Strip(v.s)))
    ensures v.Str? && LooksLikeArray(Strip(v.s)) ==>
      match o.parseArray(Strip(v.s), dataType)
      case Some(a) => r == Ok(Array(a))
      case None => r == Raised(ValueError)
  {
    if v.Str? then
      var t := Strip(v.s);
      if LooksLikeArray(t) then
        var a := o.parseArray(t, dataType);
        if a.Some? then Ok(Array(a.value)) else Raised(ValueError)
      else Ok(Str(t))
    else Ok(v)
  }

  /** `value.decode("utf-8")`, raising ValueError on invalid input. */
  function DecodeBytes(b: seq<byte>, o: Oracles): (r: Result<Value>)
    ensures r.Ok? <==> o.decode(b).Some?
    ensures r.Ok? ==> r.value == Str(o.decode(b).value)
    ensures r.Raised? ==> r.exc == ValueError
  {
    var d := o.decode(b);
    if d.Some? then Ok(Str(d.value)) else Raised(ValueError)
  }

  /** `sanitize_attribute`: None stays None; bytes are decoded; text that
      looks like an array literal becomes an array; other text becomes a
      float when `float()` accepts it and stays (stripped) text otherwise;
      every other value is kept. */
  function SanitizeAttribute(v: Value, o: Oracles): (r: Result<Value>)
    ensures v.Null? ==> r == Ok(Null)
    ensures r.Ok? && r.value.Null? ==> v.Null?
    ensures !v.Str? && !v.Bytes? ==> r == Ok(v)
    ensures v.Str? && !LooksLikeArray(Strip(v.s)) ==>
      match o.parseFloat(Strip(v.s))
      case Some(x) => r == Ok(Float(x))
      case None => r == Ok(Str(Strip(v.s)))
    ensures r.Ok? && r.value.Str? ==>
      Stripped(r.value.s) && !LooksLikeArray(r.value.s) && o.parseFloat(r.value.s).None?
    ensures r.Ok? ==> !r.value.Bytes?
    ensures r.Raised? ==> r.exc == ValueError
  {
    var text :- if v.Bytes? then DecodeBytes(v.bytes, o) else Ok(v);
    var w :- TryStringAsArray(text, None, o);
    if w.Str? then
      var x := o.parseFloat(w.s);
      Ok(if x.Some? then Float(x.value) else w)
    else Ok(w)
  }

  /** Sanitising an attribute twice gives what sanitising once gives. */
  lemma SanitizeAttributeIdempotent(v: Value, o: Oracles)
    requires SanitizeAttribute(v, o).Ok?
    ensures SanitizeAttribute(SanitizeAttribute(v, o).value, o) == SanitizeAttribute(v, o)
  {
    var w := SanitizeAttribute(v, o).value;
    if w.Str? {
      StripOfStripped(w.s);
    }
  }

  /** `{k: sanitize_attribute(v) for k, v in attrs.items()}`: every value
      sanitised under its own key; ValueError when any value cannot be. */
  function SanitizeAttributes(a: Attrs, o: Oracles): (r: Result<Attrs>)
    ensures r.Raised? <==> exists k :: k in a && SanitizeAttribute(a[k], o).Raised?
    ensures r.Raised? ==> r.exc == ValueError
    ensures r.Ok? ==> r.value.Keys == a.Keys
    ensures r.Ok? ==> forall k :: k in a ==> Ok(r.value[k]) == SanitizeAttribute(a[k], o)
  {
    if exists k :: k in a && SanitizeAttribute(a[k], o).Raised? then Raised(ValueError)
    else Ok(map k | k in a :: SanitizeAttribute(a[k], o).value)
  }

  /** Sanitising attributes twice gives what sanitising once gives. */
  lemma SanitizeAttributesIdempotent(a: Attrs, o: Oracles)
    requires SanitizeAttributes(a, o).Ok?
    ensures SanitizeAttributes(SanitizeAttributes(a, o).value, o) == SanitizeAttributes(a, o)
  {
    var b := SanitizeAttributes(a, o).value;
    forall k | k in b
      ensures SanitizeAttribute(b[k], o) == Ok(b[k])
    {
      SanitizedValueFixed(a, o, b, k);
    }
    SanitizeFixedPoint(b, o);
  }

  /** A sanitised value is a fixed point of sanitising. */
  lemma SanitizedValueFixed(a: Attrs, o: Oracles, b: Attrs, k: string)
    requires SanitizeAttributes(a, o) == Ok(b) && k in b
    ensures SanitizeAttribute(b[k], o) == Ok(b[k])
  {
    assert k in a && Ok(b[k]) == SanitizeAttribute(a[k], o);
    SanitizeAttributeIdempotent(a[k], o);
  }

  /** Attributes whose every value is a fixed point of sanitising are a fixed
      point of sanitising the mapping. */
  lemma SanitizeFixedPoint(b: Attrs, o: Oracles)
    requires forall k :: k in b ==> SanitizeAttribute(b[k], o) == Ok(b[k])
    ensures SanitizeAttributes(b, o) == Ok(b)
  {
    var c := SanitizeAttributes(b, o);
    assert c.Ok?;
    forall k | k in b
      ensures c.value[k] == b[k]
    {
      assert Ok(c.value[k]) == SanitizeAttribute(b[k], o);
    }
    assert c.value == b;
  }

  /** The attributes with a value other than None. */
  function DropNone(a: Attrs): (r: Attrs)
    ensures forall k :: k in r <==> k in a && !a[k].Null?
    ensures forall k :: k in r ==> r[k] == a[k]
  {
    map k | k in a && !a[k].Null? :: a[k]
  }

  /** `cast_to_datatype`: without a type, or for None, the value is kept;
      arrays are cast with `astype`, other values by calling the type; a
      ValueError falls back to the rule's default (uncast), and any other
      exception escapes. */
  function CastToDatatype(data: Value, dataType: Option<TypeName>, default: Value, o: Oracles): (r: Result<Value>)
    ensures dataType.None? || data.Null? ==> r == Ok(data)
    ensures dataType.Some? && !data.Null? ==>
      var out := if data.Array? then o.astype(dataType.value, data.arr) else o.construct(dataType.value, data);
      && (out.Cast? ==> r == Ok(out.v))
      && (out.CastValueError? ==> r == Ok(default))
      && (out.CastOtherError? ==> r == Raised(out.exc))
    ensures r.Ok? && r.value.Null? ==> data.Null? || default.Null?
  {
    if dataType.None? || data.Null? then Ok(data)
    else
      var out := if data.Array? then o.astype(dataType.value, data.arr) else o.construct(dataType.value, data);
      match out
      case Cast(v) => Ok(v)
      case CastValueError => Ok(default)
      case CastOtherError(x) => Raised(x)
  }

  /** The decoding and array-literal parsing steps of `sanitize_data`, for
      data that is not None. */
  function ParseData(d: Value, dataType: TypeName, o: Oracles): (r: Result<Value>)
    ensures !d.Str? && !d.Bytes? ==> r == Ok(d)
    ensures !d.Null? && r.Ok? ==> !r.value.Null?
  {
    var text :- if d.Bytes? then DecodeBytes(d.bytes, o) else Ok(d);
    TryStringAsArray(text, Some(dataType), o)
  }

  /** `sanitize_data`: default substitution, then byte decoding, array-literal
      parsing with the rule's type, and the cast. The result is None only
      when both the data and the default are. */
  function SanitizeData(data: Value, e: TranslationElement, o: Oracles): (r: Result<Value>)
    ensures data.Null? && e.defaultValue.Null? ==> r == Ok(Null)
    ensures r == Ok(Null) ==> e.defaultValue.Null?
    ensures var d := IfDataIsNone(data, e.defaultValue);
      !d.Null? && !d.Str? && !d.Bytes? ==> r == CastToDatatype(d, Some(e.dataType), e.defaultValue, o)
    ensures var d := IfDataIsNone(data, e.defaultValue);
      d.Bytes? && o.decode(d.bytes).None? ==> r == Raised(ValueError)
    ensures var d := IfDataIsNone(data, e.defaultValue);
      d.Str? || (d.Bytes? && o.decode(d.bytes).Some?) ==>
        var t := TryStringAsArray(Str(if d.Str? then d.s else o.decode(d.bytes).value), Some(e.dataType), o);
        && (t.Raised? ==> r == Raised(ValueError))
        && (t.Ok? ==> r == CastToDatatype(t.value, Some(e.dataType), e.defaultValue, o))
  {
    var d := IfDataIsNone(data, e.defaultValue);
    if d.Null? then Ok(Null)
    else
      var parsed :- ParseData(d, e.dataType, o);
      CastToDatatype(parsed, Some(e.dataType), e.defaultValue, o)
  }

  /** Missing data is sanitised exactly as the rule's default would be. */
  lemma NoneDataIsDefault(e: TranslationElement, o: Oracles)
    ensures SanitizeData(Null, e, o) == SanitizeData(e.defaultValue, e, o)
  {
  }

  /** A value the rule's type rejects with ValueError falls back to the
      default, so with a None default there is nothing to write. */
  lemma RejectedCastWithNoneDefault(data: Value, e: TranslationElement, o: Oracles)
    requires e.defaultValue.Null?
    requires data.Int? || data.Float? || data.Bool?
    requires o.construct(e.dataType, data) == CastValueError
    ensures SanitizeData(data, e, o) == Ok(Null)
  {
  }

  /** The numpy dtype `np.array(v, dtype=type(v))` gives a scalar. */
  function ScalarDType(v: Value): DType {
    match v
    case Str(s) => DType(Unicode, |s|)
    case Bytes(b) => DType(ByteString, |b|)
    case Int(_) => DType(Integer, 8)
    case Float(_) => DType(Floating, 8)
    case Bool(_) => DType(Boolean, 1)
    case _ => DType(PyObject, 8)
  }

  function Ones(n: nat): (r: seq<nat>)
    ensures |r| == n && forall i :: 0 <= i < n ==> r[i] == 1
  {
    if n == 0 then [] else [1] + Ones(n - 1)
  }

  /** `np.array(v, dtype=..., ndmin=n)`: size-1 axes are prepended up to rank
      `n`; it raises for too many dimensions or an integer outside int64. */
  function WithMinRank(v: Value, n: nat): (r: Option<Value>)
    requires !v.Null?
    ensures r.Some? ==> r.value.Array?
    ensures r.None? <==> n > MaxDims || (v.Int? && !(Int64Min <= v.i <= Int64Max))
  {
    if n > MaxDims || (v.Int? && !(Int64Min <= v.i <= Int64Max)) then None
    else if v.Array? then
      var a := v.arr;
      if |a.shape| >= n then Some(v)
      else Some(Array(a.(shape := Ones(n - |a.shape|) + a.shape)))
    else Some(Array(NdArray(ScalarDType(v), Ones(n), [v])))
  }

  /** The rank of a value: 0 for scalars. */
  function Rank(v: Value): nat {
    if v.Array? then |v.arr.shape| else 0
  }

  /** `add_dimensions_if_needed`: no requirement, a requirement of 0, or None
      data leave the value alone, as does a failing reshape. Otherwise the
      result reaches the required rank by prepending size-1 axes, keeping the
      element type and the elements. */
  function AddDimensionsIfNeeded(data: Value, minimumDimensionality: Option<nat>): (r: Value)
    ensures minimumDimensionality.None? || minimumDimensionality == Some(0) || data.Null? ==> r == data
    ensures minimumDimensionality.Some? && !data.Null? && WithMinRank(data, minimumDimensionality.value).None? ==> r == data
    ensures minimumDimensionality.Some? && minimumDimensionality.value > 0 && !data.Null?
            && WithMinRank(data, minimumDimensionality.value).Some? ==>
      var n := minimumDimensionality.value;
      && r.Array?
      && Rank(r) >= n
      && (data.Array? ==>
            && r.arr.dtype == data.arr.dtype && r.arr.elems == data.arr.elems
            && |r.arr.shape| >= |data.arr.shape|
            && r.arr.shape == Ones(|r.arr.shape| - |data.arr.shape|) + data.arr.shape)
      && (!data.Array? ==> r.arr.shape == Ones(n) && r.arr.elems == [data])
  {
    match minimumDimensionality
    case None => data
    case Some(n) =>
      if data.Null? || n == 0 then data
      else
        var grown := WithMinRank(data, n);
        if grown.Some? then grown.value else data
  }

  /** A scalar grown to rank 3 is stored with shape (1, 1, 1). */
  lemma ScalarGrowsToOnes(x: real)
    ensures AddDimensionsIfNeeded(Float(x), Some(3)) == Array(NdArray(DType(Floating, 8), [1, 1, 1], [Float(x)]))
  {
    assert Ones(3) == [1, 1, 1];
  }

  /** Growing twice to the same rank is growing once. */
  lemma AddDimensionsIdempotent(data: Value, n: Option<nat>)
    ensures AddDimensionsIfNeeded(AddDimensionsIfNeeded(data, n), n) == AddDimensionsIfNeeded(data, n)
  {
  }

  predicate IsStringKind(k: Kind) {
    k == Unicode || k == ByteString
  }

  /** `sep.join(parts)` for a list of texts. */
  function Join(parts: seq<string>): (r: string)
    ensures |parts| == 1 ==> r == parts[0]
  {
    if parts == [] then ""
    else if |parts| == 1 then parts[0]
    else parts[0] + " " + Join(parts[1..])
  }

  /** `" ".join(items)` over Python values: TypeError unless every item is a
      `str`. */
  function JoinTexts(items: seq<Value>): (r: Result<string>)
    ensures r.Raised? <==> exists i :: 0 <= i < |items| && !items[i].Str?
    ensures r.Ok? ==> r.value == Join(Texts(items))
  {
    if forall i :: 0 <= i < |items| ==> items[i].Str? then Ok(Join(Texts(items)))
    else Raised(TypeError)
  }

  function Texts(items: seq<Value>): (r: seq<string>)
    requires forall i :: 0 <= i < |items| ==> items[i].Str?
    ensures |r| == |items| && forall i :: 0 <= i < |items| ==> r[i] == items[i].s
  {
    if items == [] then [] else [items[0].s] + Texts(items[1..])
  }

  /** The characters of a string as one-character strings (iterating a
      `str` in Python). */
  function Chars(s: string): (r: seq<string>)
    ensures |r| == |s|
  {
    if s == [] then [] else [[s[0]]] + Chars(s[1..])
  }

  /** `fix_if_array_of_strings` as written: `" ".join(data.tolist())` for
      arrays of kind 'U' or 'S'. `tolist()` of a 0-d array is its one element
      (so a string's characters are joined), of a 1-d array the list of
      elements, and of a higher-rank array a list of lists, which `join`
      refuses unless it is empty. */
  function FixIfArrayOfStrings(data: Value): (r: Result<Value>)
    ensures !data.Array? || !IsStringKind(data.arr.dtype.kind) ==> r == Ok(data)
    ensures data.Array? && IsStringKind(data.arr.dtype.kind) && Rank(data) >= 2 ==>
      r == (if data.arr.shape[0] == 0 then Ok(Str("")) else Raised(TypeError))
    ensures r.Ok? ==> (data.Array? && IsStringKind(data.arr.dtype.kind) ==> r.value.Str?)
  {
    if !data.Array? || !IsStringKind(data.arr.dtype.kind) then Ok(data)
    else
      var a := data.arr;
      if |a.shape| == 0 then
        if |a.elems| == 0 then Ok(Str(""))
        else match a.elems[0]
          case Str(s) => Ok(Str(Join(Chars(s))))
          case Bytes(b) => if b == [] then Ok(Str("")) else Raised(TypeError)
          case _ => Raised(TypeError)
      else if |a.shape| == 1 then
        var j :- JoinTexts(a.elems);
        Ok(Str(j))
      else if a.shape[0] == 0 then Ok(Str(""))
      else Raised(TypeError)
  }

  /** A 1-d string array is flattened into its elements joined by single
      spaces. */
  lemma FixJoinsWords(a: NdArray)
    requires a.dtype.kind == Unicode && |a.shape| == 1
    requires forall i :: 0 <= i < |a.elems| ==> a.elems[i].Str?
    ensures FixIfArrayOfStrings(Array(a)) == Ok(Str(Join(Texts(a.elems))))
  {
  }

  /** A two-word string array that was grown to rank 2, as a rule with
      `minimum_dimensionality: 2` does, makes the flattening raise TypeError
      instead of joining the words. */
  lemma FixRaisesOnGrownStringArray()
    ensures var words := Array(NdArray(DType(Unicode, 1), [2], [Str("a"), Str("b")]));
            var grown := AddDimensionsIfNeeded(words, Some(2));
            && grown == Array(NdArray(DType(Unicode, 1), [1, 2], [Str("a"), Str("b")]))
            && FixIfArrayOfStrings(grown) == Raised(TypeError)
            && FlattenStringArray(grown) == Ok(Str("a b"))
  {
    var a := NdArray(DType(Unicode, 1), [2], [Str("a"), Str("b")]);
    var g := NdArray(DType(Unicode, 1), [1, 2], [Str("a"), Str("b")]);
    assert Ones(1) == [1] + Ones(0);
    assert Ones(2 - |a.shape|) + a.shape == [1, 2];
    assert WithMinRank(Array(a), 2) == Some(Array(g));
    assert Texts(g.elems) == ["a", "b"] by {
      assert Texts(g.elems) == [g.elems[0].s] + Texts(g.elems[1..]);
    }
    assert Join(["a", "b"]) == "a b" by {
      assert Join(["a", "b"]) == "a" + " " + Join(["a", "b"][1..]);
      assert ["a", "b"][1..] == ["b"];
    }
  }

  /** String-array flattening as evidently intended: the elements of a
      string array of any rank, in order, joined with single spaces; other
      values are unchanged. Non-text elements still make `join` raise. */
  function FlattenStringArray(data: Value): (r: Result<Value>)
    ensures !data.Array? || !IsStringKind(data.arr.dtype.kind) ==> r == Ok(data)
    ensures data.Array? && IsStringKind(data.arr.dtype.kind) ==>
      && (r.Raised? <==> exists i :: 0 <= i < |data.arr.elems| && !data.arr.elems[i].Str?)
      && (r.Ok? ==> r.value == Str(Join(Texts(data.arr.elems))))
    ensures data.Array? && data.arr.dtype.kind == Unicode && |data.arr.shape| == 1 ==>
      r == FixIfArrayOfStrings(data)
  {
    if !data.Array? || !IsStringKind(data.arr.dtype.kind) then Ok(data)
    else
      var j :- JoinTexts(data.arr.elems);
      Ok(Str(j))
  }

  /** `perform_unit_conversion`: a conversion pint cannot do leaves the value
      unchanged; it never raises. */
  function PerformUnitConversion(data: Value, from: Value, to: string, o: Oracles): (r: Value)
    ensures o.convert(data, from, to).None? ==> r == data
    ensures o.convert(data, from, to).Some? ==> r == o.convert(data, from, to).value
  {
    var c := o.convert(data, from, to);
    if c.Some? then c.value else data
  }

  /** `getFromKeyVals`: the default when there are no key-values, or the
      key's value (the default when the key is missing) is None; otherwise
      that value passed through `sanitize_attribute`. */
  function GetFromKeyVals(item: string, keyvals: Option<map<string, string>>, default: Value, o: Oracles): (r: Result<Value>)
    ensures keyvals.None? ==> r == Ok(default)
    ensures keyvals.Some? && item in keyvals.value ==> r == SanitizeAttribute(Str(keyvals.value[item]), o)
    ensures keyvals.Some? && item !in keyvals.value ==>
      r == (if default.Null? then Ok(default) else SanitizeAttribute(default, o))
  {
    if keyvals.None? then Ok(default)
    else
      var val := if item in keyvals.value then Str(keyvals.value[item]) else default;
      if val.Null? then Ok(default) else SanitizeAttribute(val, o)
  }

  /** A number given on the command line as text comes back as a float. */
  lemma GetFromKeyValsNumber(o: Oracles)
    requires o.parseFloat("25") == Some(25.0)
    ensures GetFromKeyVals("roi_size", Some(map["roi_size" := "25"]), Int(12), o) == Ok(Float(25.0))
  {
    var kv := map["roi_size" := "25"];
    assert kv["roi_size"] == "25";
    StripOfStripped("25");
    assert !LooksLikeArray("25");
    assert SanitizeAttribute(Str("25"), o) == Ok(Float(25.0));
  }

  /** Whether a path names a glob pattern. */
  predicate IsPattern(path: string) {
    '?' in path || '*' in path || '[' in path
  }

  /** `resolve_alternate_sourcefile`: a pattern is replaced by the last of its
      matches in sorted order (None when nothing matches); the result must be
      an existing file. `matches` are the glob results relative to the
      destination's directory, `files` the paths that are files. */
  function ResolveAlternateSourceFile(alternate: string, matches: seq<string>, files: set<string>): (r: Option<string>)
    ensures r.Some? ==> r.value in files
    ensures !IsPattern(alternate) ==> (r.Some? <==> alternate in files) && (r.Some? ==> r.value == alternate)
    ensures IsPattern(alternate) && matches == [] ==> r.None?
    ensures IsPattern(alternate) && r.Some? ==>
      r.value in matches && forall m :: m in matches ==> !Precedes(r.value, m)
    ensures IsPattern(alternate) && matches != [] && r.None? ==> Last(matches) !in files
  {
    if IsPattern(alternate) && matches == [] then None
    else
      var candidate := if IsPattern(alternate) then Last(matches) else alternate;
      if candidate in files then Some(candidate) else None
  }

  /** The values of the successful results, in order. */
  function Successes<T>(rs: seq<Result<T>>): (r: seq<T>)
    ensures |r| <= |rs|
    ensures (forall i :: 0 <= i < |rs| ==> rs[i].Ok?) ==>
      |r| == |rs| && forall i :: 0 <= i < |rs| ==> r[i] == rs[i].value
    ensures (forall i :: 0 <= i < |rs| ==> rs[i].Raised?) ==> r == []
    ensures forall x :: x in r ==> Ok(x) in rs
    ensures forall i :: 0 <= i < |rs| && rs[i].Ok? ==> rs[i].value in r
  {
    if rs == [] then []
    else
      var rest := Successes(rs[1..]);
      assert forall x :: x in rest ==> Ok(x) in rs by {
        forall x | x in rest ensures Ok(x) in rs {
          assert Ok(x) in rs[1..];
        }
      }
      assert forall i :: 1 <= i < |rs| && rs[i].Ok? ==> rs[i].value in rest by {
        forall i | 1 <= i < |rs| && rs[i].Ok? ensures rs[i].value in rest {
          assert rs[1..][i - 1] == rs[i];
        }
      }
      if rs[0].Ok? then [rs[0].value] + rest else rest
  }

  /** Keeping the successes commutes with concatenation, so they keep the
      order of the results. */
  lemma {:induction false} SuccessesConcat<T>(a: seq<Result<T>>, b: seq<Result<T>>)
    ensures Successes(a + b) == Successes(a) + Successes(b)
  {
    if a == [] {
      assert a + b == b;
    } else {
      assert (a + b)[1..] == a[1..] + b;
      SuccessesConcat(a[1..], b);
    }
  }

  /** A single result keeps its value or nothing. */
  lemma SuccessesSingle<T>(rs: seq<Result<T>>)
    requires |rs| == 1
    ensures Successes(rs) == if rs[0].Ok? then [rs[0].value] else []
  {
    assert rs[1..] == [];
  }

  /** The construction outcome of every entry, in order. */
  function BuildTranslationElements(items: seq<TranslationItem>, o: Oracles): (rs: seq<Result<TranslationElement>>)
    ensures |rs| == |items|
    ensures forall i :: 0 <= i < |items| ==> rs[i] == MakeTranslationElement(items[i], o)
  {
    seq(|items|, i requires 0 <= i < |items| => MakeTranslationElement(items[i], o))
  }

  /** `parse_translation_elements`: entries that cannot be constructed are
      skipped; the others keep their order. */
  function ParseTranslationElements(items: seq<TranslationItem>, o: Oracles): (r: seq<TranslationElement>)
    ensures |r| <= |items|
    ensures forall e :: e in r ==> Ok(e) in BuildTranslationElements(items, o)
    ensures forall i :: 0 <= i < |items| && MakeTranslationElement(items[i], o).Ok? ==>
      MakeTranslationElement(items[i], o).value in r
  {
    Successes(BuildTranslationElements(items, o))
  }

  /** When every entry can be constructed, all are kept, in order. */
  lemma ParseKeepsValidEntries(items: seq<TranslationItem>, o: Oracles)
    requires forall i :: 0 <= i < |items| ==> MakeTranslationElement(items[i], o).Ok?
    ensures |ParseTranslationElements(items, o)| == |items|
    ensures forall i :: 0 <= i < |items| ==>
      ParseTranslationElements(items, o)[i] == MakeTranslationElement(items[i], o).value
  {
    var rs := BuildTranslationElements(items, o);
    assert forall i :: 0 <= i < |rs| ==> rs[i].Ok?;
  }

  /** Every element kept comes from some entry. */
  lemma ParsedFromEntries(items: seq<TranslationItem>, o: Oracles, e: TranslationElement)
    requires e in ParseTranslationElements(items, o)
    ensures exists i :: 0 <= i < |items| && MakeTranslationElement(items[i], o) == Ok(e)
  {
    var rs := BuildTranslationElements(items, o);
    var i :| 0 <= i < |rs| && rs[i] == Ok(e);
  }

  /** Parsing two runs of entries one after the other gives the elements of
      the first run followed by those of the second; a single entry gives
      its element, or nothing when it cannot be constructed. */
  lemma ParseTranslationElementsInOrder(a: seq<TranslationItem>, b: seq<TranslationItem>, o: Oracles)
    ensures ParseTranslationElements(a + b, o) == ParseTranslationElements(a, o) + ParseTranslationElements(b, o)
    ensures |a| == 1 ==>
      ParseTranslationElements(a, o) ==
        if MakeTranslationElement(a[0], o).Ok? then [MakeTranslationElement(a[0], o).value] else []
  {
    var ra, rb := BuildTranslationElements(a, o), BuildTranslationElements(b, o);
    assert BuildTranslationElements(a + b, o) == ra + rb by {
      forall i | 0 <= i < |a + b|
        ensures BuildTranslationElements(a + b, o)[i] == (ra + rb)[i]
      {
        if i < |a| { assert (a + b)[i] == a[i]; } else { assert (a + b)[i] == b[i - |a|]; }
      }
    }
    SuccessesConcat(ra, rb);
    if |a| == 1 {
      SuccessesSingle(ra);
    }
  }

  /** The construction outcome of every link entry, in order. */
  function BuildLinkElements(items: seq<LinkItem>): (rs: seq<Result<LinkElement>>)
    ensures |rs| == |items|
    ensures forall i :: 0 <= i < |items| ==> rs[i] == MakeLinkElement(items[i])
  {
    seq(|items|, i requires 0 <= i < |items| => MakeLinkElement(items[i]))
  }

  /** `parse_link_elements`: entries that cannot be constructed are skipped;
      the others keep their order. */
  function ParseLinkElements(items: seq<LinkItem>): (r: seq<LinkElement>)
    ensures |r| <= |items|
    ensures forall e :: e in r ==> Ok(e) in BuildLinkElements(items)
    ensures forall i :: 0 <= i < |items| && MakeLinkElement(items[i]).Ok? ==> MakeLinkElement(items[i]).value in r
  {
    Successes(BuildLinkElements(items))
  }

  /** When every link entry can be constructed, all are kept, in order. */
  lemma ParseKeepsValidLinks(items: seq<LinkItem>)
    requires forall i :: 0 <= i < |items| ==> MakeLinkElement(items[i]).Ok?
    ensures |ParseLinkElements(items)| == |items|
    ensures forall i :: 0 <= i < |items| ==> ParseLinkElements(items)[i] == MakeLinkElement(items[i]).value
  {
    var rs := BuildLinkElements(items);
    assert forall i :: 0 <= i < |rs| ==> rs[i].Ok?;
  }

  /** Every link kept comes from some entry. */
  lemma LinkParsedFromEntries(items: seq<LinkItem>, e: LinkElement)
    requires e in ParseLinkElements(items)
    ensures exists i :: 0 <= i < |items| && MakeLinkElement(items[i]) == Ok(e)
  {
    var rs := BuildLinkElements(items);
    var i :| 0 <= i < |rs| && rs[i] == Ok(e);
  }

  /** Parsing two runs of link entries one after the other gives the links
      of the first run followed by those of the second; a single entry gives
      its link, or nothing when it cannot be constructed. */
  lemma ParseLinkElementsInOrder(a: seq<LinkItem>, b: seq<LinkItem>)
    ensures ParseLinkElements(a + b) == ParseLinkElements(a) + ParseLinkElements(b)
    ensures |a| == 1 ==>
      ParseLinkElements(a) == if MakeLinkElement(a[0]).Ok? then [MakeLinkElement(a[0]).value] else []
  {
    var ra, rb := BuildLinkElements(a), BuildLinkElements(b);
    assert BuildLinkElements(a + b) == ra + rb by {
      forall i | 0 <= i < |a + b|
        ensures BuildLinkElements(a + b)[i] == (ra + rb)[i]
      {
        if i < |a| { assert (a + b)[i] == a[i]; } else { assert (a + b)[i] == b[i - |a|]; }
      }
    }
    SuccessesConcat(ra, rb);
    if |a| == 1 {
      SuccessesSingle(ra);
    }
  }
}

=== FILE: elements.dfy ===
/** The rule records of a translation configuration (`TranslationElement`,
    `LinkElement`) and the resolution of a configured type name into a type. */
module Elements {
  import opened Text
  import opened Values

  /** Names of `builtins` attributes that are types, in lower case (the part
      of the namespace that `evaluate_type` can reach after lower-casing). */
  const BuiltinTypes: set<string> := {
    "bool", "bytearray", "bytes", "classmethod", "complex", "dict", "enumerate",
    "filter", "float", "frozenset", "int", "list", "map", "memoryview", "object",
    "property", "range", "reversed", "set", "slice", "staticmethod", "str",
    "super", "tuple", "type", "zip"
  }

  /** Names of numpy attributes that are types and have no upper-case letter
      (only those are reachable after lower-casing), as in numpy 2.x on
      64-bit Linux: the scalar type hierarchy with its aliases, and the
      array, iterator and helper classes. */
  const NumpyTypes: set<string> := {
    "bool", "bool_", "byte", "bytes_", "cdouble", "character", "clongdouble",
    "complex128", "complex256", "complex64", "complexfloating", "csingle",
    "datetime64", "double", "flexible", "float128", "float16", "float32",
    "float64", "floating", "generic", "half", "inexact", "int16", "int32",
    "int64", "int8", "int_", "intc", "integer", "intp", "long", "longdouble",
    "longlong", "number", "object_", "short", "signedinteger", "single",
    "str_", "timedelta64", "ubyte", "uint", "uint16", "uint32", "uint64",
    "uint8", "uintc", "uintp", "ulong", "ulonglong", "unsignedinteger",
    "ushort", "void",
    "ndarray", "dtype", "matrix", "memmap", "recarray", "record", "chararray",
    "broadcast", "busdaycalendar", "errstate", "finfo", "flatiter", "iinfo",
    "ndenumerate", "ndindex", "nditer", "poly1d", "ufunc", "vectorize"
  }

  /** A `data_type` as given: already a type object, or a name to resolve. */
  datatype RawType = TypeObject(t: TypeName) | TypeText(text: string)

  /** A transformation: none, an expression string, or a callable (named by
      an id that `Oracles.transform` interprets). */
  datatype Transformation = NoTransform | Expression(text: string) | Callable(id: nat)

  /** `bool(element.transformation)`. */
  predicate TransformationSet(t: Transformation) {
    t.Callable? || (t.Expression? && t.text != "")
  }

  /** The name lookup key: lower-cased, stripped, "string" read as "str". */
  function TypeKey(name: string): (k: string)
    ensures Stripped(k)
    ensures Strip(Lower(name)) == "string" ==> k == "str"
    ensures Strip(Lower(name)) != "string" ==> k == Strip(Lower(name))
  {
    var n := Strip(Lower(name));
    if n == "string" then "str" else n
  }

  /** The lookup of a key: the builtins first, then numpy, ValueError when
      in neither. */
  function LookupType(k: string): (r: Result<TypeName>)
    ensures k in BuiltinTypes ==> r == Ok(TypeName(Builtins, k))
    ensures k !in BuiltinTypes && k in NumpyTypes ==> r == Ok(TypeName(Numpy, k))
    ensures r.Raised? <==> k !in BuiltinTypes && k !in NumpyTypes
    ensures r.Raised? ==> r.exc == ValueError
  {
    if k in BuiltinTypes then Ok(TypeName(Builtins, k))
    else if k in NumpyTypes then Ok(TypeName(Numpy, k))
    else Raised(ValueError)
  }

  /** `evaluate_type`: a type is returned as is; a name is looked up by its
      key. */
  function EvaluateType(t: RawType): (r: Result<TypeName>)
    ensures t.TypeObject? ==> r == Ok(t.t)
    ensures t.TypeText? ==> r == LookupType(TypeKey(t.text))
  {
    match t
    case TypeObject(ty) => Ok(ty)
    case TypeText(name) => LookupType(TypeKey(name))
  }

  /** Names with the same lookup key resolve alike. */
  lemma EvaluateTypeByKey(a: string, b: string)
    requires TypeKey(a) == TypeKey(b)
    ensures EvaluateType(TypeText(a)) == EvaluateType(TypeText(b))
  {
  }

  /** Leading whitespace in a configured type name does not matter. */
  lemma EvaluateTypeIgnoresLeadingSpace(c: char, name: string)
    requires IsSpace(c)
    ensures EvaluateType(TypeText([c] + name)) == EvaluateType(TypeText(name))
  {
    assert Lower([c] + name) == [c] + Lower(name) by {
      assert Lower([c] + name)[1..] == Lower(name);
    }
    StripLeadingSpace(c, Lower(name));
    EvaluateTypeByKey([c] + name, name);
  }

  /** Letter case in a configured type name does not matter. */
  lemma EvaluateTypeIgnoresCase(name: string)
    ensures EvaluateType(TypeText(Lower(name))) == EvaluateType(TypeText(name))
  {
    LowerIdempotent(name);
  }

  /** "String", in any case, names Python's `str`. */
  lemma EvaluateTypeString()
    ensures EvaluateType(TypeText("String")) == Ok(StrType)
  {
    assert Lower("String") == "string";
    StripOfStripped("string");
    assert TypeKey("String") == "str";
  }

  /** One `data_copy` entry of the configuration as read from YAML. An
      absent key and an explicit null are both `None`, except for
      `destination`, which must be present. `unknownKeys` are keys that are
      not fields of the record. */
  datatype TranslationItem =
    | TranslationItem(
        destination: Option<string>,
        source: Option<string>,
        alternateSourceFile: Option<string>,
        dataType: Option<RawType>,
        sourceUnits: Option<string>,
        destinationUnits: Option<string>,
        transformation: Transformation,
        minimumDimensionality: Option<nat>,
        attributes: Attrs,
        defaultValue: Value,
        compression: Option<string>,
        unknownKeys: set<string>)
    | NotAMapping

  /** A constructed `TranslationElement`, after `__attrs_post_init__`. */
  datatype TranslationElement = TranslationElement(
    destination: string,
    source: Option<string>,
    alternateSourceFile: Option<string>,
    dataType: TypeName,
    sourceUnits: Option<string>,
    destinationUnits: Option<string>,
    transformation: Transformation,
    minimumDimensionality: Option<nat>,
    attributes: Attrs,
    defaultValue: Value,
    compression: Option<string>)

  /** The post-init data type: `str` when absent or unresolvable. */
  function ResolveDataType(d: Option<RawType>): (r: TypeName)
    ensures d.Some? && EvaluateType(d.value).Ok? ==> r == EvaluateType(d.value).value
    ensures d.None? || EvaluateType(d.value).Raised? ==> r == StrType
  {
    if d.None? then StrType
    else
      var ev := EvaluateType(d.value);
      if ev.Ok? then ev.value else StrType
  }

  /** The post-init transformation: an expression is evaluated, and kept as
      the original string when evaluation fails. */
  function EvaluateTransformation(t: Transformation, o: Oracles): (r: Transformation)
    ensures !t.Expression? ==> r == t
    ensures t.Expression? && o.evalExpr(Strip(t.text)).None? ==> r == t
    ensures t.Expression? && o.evalExpr(Strip(t.text)).Some? ==> r == Callable(o.evalExpr(Strip(t.text)).value)
    ensures r.Expression? ==> r == t
  {
    if t.Expression? then
      var f := o.evalExpr(Strip(t.text));
      if f.Some? then Callable(f.value) else t
    else t
  }

  /** `TranslationElement(**item)`: TypeError for a missing destination, an
      unknown key or a non-mapping; otherwise the post-init fixes the data type
      (absent or unresolvable means `str`) and evaluates a transformation
      string, keeping the string when evaluation fails. A data type that is
      already a type object returns early, before the transformation step. */
  function MakeTranslationElement(item: TranslationItem, o: Oracles): (r: Result<TranslationElement>)
    ensures r.Raised? <==> item.NotAMapping? || item.destination.None? || item.unknownKeys != {}
    ensures r.Raised? ==> r.exc == TypeError
    ensures r.Ok? ==>
      var e := r.value;
      && e.destination == item.destination.value
      && e.source == item.source
      && e.alternateSourceFile == item.alternateSourceFile
      && e.sourceUnits == item.sourceUnits
      && e.destinationUnits == item.destinationUnits
      && e.minimumDimensionality == item.minimumDimensionality
      && e.attributes == item.attributes
      && e.defaultValue == item.defaultValue
      && e.compression == item.compression
      && (item.dataType.None? ==> e.dataType == StrType)
      && (item.dataType.Some? && EvaluateType(item.dataType.value).Raised? ==> e.dataType == StrType)
      && (item.dataType.Some? && EvaluateType(item.dataType.value).Ok? ==>
            e.dataType == EvaluateType(item.dataType.value).value)
      && (item.dataType.Some? && item.dataType.value.TypeObject? ==> e.transformation == item.transformation)
      && (!item.transformation.Expression? ==> e.transformation == item.transformation)
      && (e.transformation.Expression? ==> e.transformation == item.transformation)
      && ((item.dataType.None? || item.dataType.value.TypeText?) && item.transformation.Expression? &&
          o.evalExpr(Strip(item.transformation.text)).Some? ==>
            e.transformation == Callable(o.evalExpr(Strip(item.transformation.text)).value))
  {
    if item.NotAMapping? || item.destination.None? || item.unknownKeys != {} then Raised(TypeError)
    else
      var base := TranslationElement(
        item.destination.value, item.source, item.alternateSourceFile, StrType,
        item.sourceUnits, item.destinationUnits, item.transformation,
        item.minimumDimensionality, item.attributes, item.defaultValue, item.compression);
      if item.dataType.Some? && item.dataType.value.TypeObject? then
        Ok(base.(dataType := item.dataType.value.t))
      else
        Ok(base.(dataType := ResolveDataType(item.dataType),
                 transformation := EvaluateTransformation(item.transformation, o)))
  }

  /** One `link_list` entry as read from YAML. An optional field
      distinguishes an absent key (`None`) from an explicit null
      (`Some(None)`), because the dataclass defaults apply only to absent
      keys. */
  datatype LinkItem =
    | LinkItem(
        sourcePath: Option<Option<string>>,
        destinationPath: Option<string>,
        internalOrExternal: Option<Option<string>>,
        softOrHardLink: Option<Option<string>>,
        alternateSourceFile: Option<string>,
        unknownKeys: set<string>)
    | LinkNotAMapping

  /** A link rule; `None` in a kind field is an explicit YAML null. */
  datatype LinkElement = LinkElement(
    sourcePath: Option<string>,
    destinationPath: string,
    internalOrExternal: Option<string>,
    softOrHardLink: Option<string>,
    alternateSourceFile: Option<string>)

  /** A dataclass field with a default: the default when the key is absent,
      the given value (possibly null) otherwise. */
  function WithDefault(field: Option<Option<string>>, default: string): Option<string>
  {
    if field.Some? then field.value else Some(default)
  }

  /** `LinkElement(**item)`: both paths are required keys; an absent kind
      becomes "internal" and an absent link type "soft", while an explicit
      null stays null. */
  function MakeLinkElement(item: LinkItem): (r: Result<LinkElement>)
    ensures r.Raised? <==>
      item.LinkNotAMapping? || item.sourcePath.None? || item.destinationPath.None? || item.unknownKeys != {}
    ensures r.Ok? ==>
      && r.value.sourcePath == item.sourcePath.value
      && r.value.destinationPath == item.destinationPath.value
      && r.value.alternateSourceFile == item.alternateSourceFile
      && (item.internalOrExternal.None? ==> r.value.internalOrExternal == Some("internal"))
      && (item.internalOrExternal.Some? ==> r.value.internalOrExternal == item.internalOrExternal.value)
      && (item.softOrHardLink.None? ==> r.value.softOrHardLink == Some("soft"))
      && (item.softOrHardLink.Some? ==> r.value.softOrHardLink == item.softOrHardLink.value)
  {
    if item.LinkNotAMapping? || item.sourcePath.None? || item.destinationPath.None? || item.unknownKeys != {} then
      Raised(TypeError)
    else
      Ok(LinkElement(
        item.sourcePath.value,
        item.destinationPath.value,
        WithDefault(item.internalOrExternal, "internal"),
        WithDefault(item.softOrHardLink, "soft"),
        item.alternateSourceFile))
  }
}

=== FILE: hdf5utils.dfy ===
/** The file operations of the translator (HDF5Translator/utils/hdf5_utils.py):
    reading a rule's source dataset, writing a dataset, and copying subtrees
    between files with the trailing-slash conventions of `copy_hdf5_tree`. */
module Hdf5Utils {
  import opened Text
  import opened Values
  import opened Elements
  import opened DataUtils
  import opened Containers

  /** `get_data_and_attributes_from_source`: a source path that leads to a
      dataset gives its value and its sanitised attributes; anything else
      (no source, a missing path, a group) gives the rule's default and no
      attributes. */
  function GetDataAndAttributesFromSource(src: Container, e: TranslationElement, o: Oracles): (r: Result<(Value, Attrs)>)
    ensures e.source.None? ==> r == Ok((e.defaultValue, map[]))
    ensures e.source.Some? ==>
      var n := NodeAt(src, Components(e.source.value));
      && (n.None? || !n.value.Dataset? ==> r == Ok((e.defaultValue, map[])))
      && (n.Some? && n.value.Dataset? ==>
            && (r.Raised? <==> SanitizeAttributes(n.value.attrs, o).Raised?)
            && (r.Ok? ==> r.value.0 == n.value.value && Ok(r.value.1) == SanitizeAttributes(n.value.attrs, o)))
  {
    var location := if e.source.Some? then NodeAt(src, Components(e.source.value)) else None;
    if location.Some? && location.value.Dataset? then
      var attributes :- SanitizeAttributes(location.value.attrs, o);
      Ok((location.value.value, attributes))
    else Ok((e.defaultValue, map[]))
  }

  /** Reading back a dataset just written: the value read is the value
      written, and for a new dataset the attributes read are the written
      attributes, sanitised. */
  lemma WrittenDatasetReadsBack(c: Container, path: string, data: Value, compression: Option<string>, attributes: Attrs,
                                rev: Revision, e: TranslationElement, o: Oracles)
    requires Valid(c)
    requires WriteDataset(c, path, data, compression, attributes, rev).Ok?
    requires e.source == Some(path)
    ensures var g := GetDataAndAttributesFromSource(WriteDataset(c, path, data, compression, attributes, rev).value, e, o);
      && (g.Ok? ==> g.value.0 == data)
      && (!CompatibleAt(c, Components(path), data) ==>
            && (SanitizeAttributes(attributes, o).Raised? ==> g.Raised?)
            && (SanitizeAttributes(attributes, o).Ok? ==> g == Ok((data, SanitizeAttributes(attributes, o).value))))
  {
  }

  /** `require_dataset(..., exact=True)` accepts an existing dataset only
      when both it and the new data are arrays of one shape and dtype; a
      scalar has no shape, so it never matches. */
  predicate Compatible(n: Node, data: Value) {
    && n.Dataset?
    && n.value.Array? && data.Array?
    && n.value.arr.shape == data.arr.shape
    && n.value.arr.dtype == data.arr.dtype
  }

  predicate CompatibleAt(c: Container, p: Path, data: Value) {
    NodeAt(c, p).Some? && Compatible(NodeAt(c, p).value, data)
  }

  /** The group `write_dataset` requires: the components of the text before
      the last slash, which are those of the parent, or of the path itself
      when it has no slash or ends in one. */
  lemma ParentComponents(path: string)
    requires Components(path) != []
    ensures var q := Components(ParentText(path));
            q == Parent(Components(path)) || q == Components(path)
  {
    if '/' in path {
      var leaf := LeafText(path);
      ComponentsOfParent(path);
      if leaf != "" {
        ComponentsJoin(ParentText(path), leaf);
        ComponentsOfName(leaf);
      }
    }
  }

  /** Creating missing groups does not make a path compatible that was not,
      nor the reverse. */
  lemma CompatibleStable(c: Container, d: Container, g: Path, p: Path, data: Value)
    requires Valid(c)
    requires Extends(c, d)
    requires Valid(d) && IsGroupAt(d, g)
    requires forall q :: q in d.entries && q !in c.entries ==> q <= g
    ensures CompatibleAt(d, p, data) == CompatibleAt(c, p, data)
    ensures CompatibleAt(c, p, data) ==> NodeAt(d, p) == NodeAt(c, p)
  {
    assert forall q :: q in d.entries && q !in c.entries ==> IsGroupAt(d, q) by {
      forall q | q in d.entries && q !in c.entries
        ensures IsGroupAt(d, q)
      {
        if q != g {
          assert q == g[..|q|];
        }
      }
    }
    if p in c.entries && c.entries[p].SoftLink? {
      var q := Components(c.entries[p].target);
      if q !in c.entries && q in d.entries {
        assert IsGroupAt(d, q);
      }
    }
    if p !in c.entries && p in d.entries {
      assert IsGroupAt(d, p);
    }
  }

  /** `dset[...] = data` on a compatible dataset, then `attrs.update`: the
      value changes, the compression stays, the attributes merge. */
  function WriteCompatible(c: Container, p: Path, data: Value, attributes: Attrs): (r: Result<Container>)
    requires Valid(c) && CompatibleAt(c, p, data)
    ensures r.Raised? <==> !AllStorable(attributes)
    ensures r.Raised? ==> r.exc == TypeError
    ensures r.Ok? ==>
      var prior := NodeAt(c, p).value;
      && Valid(r.value)
      && r.value.entries == c.entries
      && NodeAt(r.value, p) == Some(Dataset(data, prior.compression, prior.attrs + attributes))
      && (forall id :: id in c.nodes && id != Resolve(c, p).value ==> id in r.value.nodes && r.value.nodes[id] == c.nodes[id])
      && FreshLinks(c, r.value) && ObjectsKeptBut(c, r.value, p)
  {
    if !AllStorable(attributes) then Raised(TypeError)
    else
      var id := Resolve(c, p).value;
      var n := c.nodes[id];
      var d := c.(nodes := c.nodes[id := Dataset(data, n.compression, n.attrs + attributes)]);
      assert forall q :: q in d.entries ==> (IsGroupAt(d, q) <==> IsGroupAt(c, q));
      Ok(d)
  }

  /** Whether numpy's default integer type (int64) holds the value. */
  predicate FitsInt64(v: Value) {
    !v.Int? || Int64Min <= v.i <= Int64Max
  }

  /** A value h5py stores with shape `()`: anything but an array of rank one
      or more. */
  predicate ScalarShaped(v: Value) {
    !v.Array? || v.arr.shape == []
  }

  /** The compression filters h5py knows by name. */
  predicate KnownFilter(name: string) {
    name == "gzip" || name == "lzf" || name == "szip"
  }

  /** Whether `create_dataset` refuses the compression for the data. A
      dataset of shape `()` takes no filter at all (TypeError), unless the
      name is empty and so false in Python; any other dataset needs a filter
      h5py knows (ValueError). */
  predicate CompressionRefused(data: Value, compression: Option<string>) {
    compression.Some? && (if ScalarShaped(data) then compression.value != "" else !KnownFilter(compression.value))
  }

  /** The `except` branch of `write_dataset`: delete what is at the path,
      then `create_dataset` with exactly the given attributes. Deleting the
      root raises KeyError. h5py refuses None, unicode or object arrays, and
      an int outside int64 (which numpy turns into an object array) with
      TypeError, and a compression the data cannot take with TypeError or
      ValueError. */
  function Recreate(c: Container, p: Path, data: Value, compression: Option<string>, attributes: Attrs): (r: Result<Container>)
    requires Valid(c) && WellNamed(p)
    requires p != [] ==> IsGroupAt(c, Parent(p))
    ensures r.Raised? <==>
      p == [] || !Storable(data) || !FitsInt64(data) || CompressionRefused(data, compression) || !AllStorable(attributes)
    ensures p == [] ==> r == Raised(KeyError)
    ensures p != [] && (!Storable(data) || !FitsInt64(data)) ==> r == Raised(TypeError)
    ensures p != [] && Storable(data) && FitsInt64(data) && CompressionRefused(data, compression) ==>
      r == Raised(if ScalarShaped(data) then TypeError else ValueError)
    ensures r.Ok? ==>
      && Valid(r.value)
      && p in r.value.entries && r.value.entries[p].Hard?
      && r.value.entries[p].id !in c.nodes
      && NodeAt(r.value, p) == Some(Dataset(data, compression, attributes))
      && (forall q :: q in c.entries && !(p <= q) ==> q in r.value.entries && r.value.entries[q] == c.entries[q])
      && (forall q :: q in r.value.entries && q !in c.entries ==> q == p)
      && NodesKept(c, r.value)
      && FreshLinks(c, r.value)
  {
    var c2 :- if p in c.entries then Delete(c, p) else Ok(c);
    if !Storable(data) || !FitsInt64(data) then Raised(TypeError)
    else if CompressionRefused(data, compression) then Raised(if ScalarShaped(data) then TypeError else ValueError)
    else if !AllStorable(attributes) then Raised(TypeError)
    else
      assert Parent(p) < p;
      assert p in c.entries || forall q :: q in c.entries ==> !(p <= q) by {
        if p !in c.entries {
          NoDescendants(c, p);
        }
      }
      Ok(AddNode(c2, p, Dataset(data, compression, attributes)))
  }

  /** `write_dataset`: creates the groups above the path, then writes into a
      compatible existing dataset (keeping its compression and merging the
      attributes) or replaces whatever is at the path with a new dataset
      holding exactly the given attributes. As written, the group required
      is the text before the last slash, which for a path directly below the
      root (`/title`) is the empty name, and HDF5 refuses it with ValueError;
      corrected, that group is the root. Only the object the path leads to
      changes; every other object stays as it was. */
  function WriteDataset(c: Container, path: string, data: Value, compression: Option<string>, attributes: Attrs, rev: Revision): (r: Result<Container>)
    requires Valid(c)
    ensures rev == AsWritten && ParentText(path) == "" ==> r == Raised(ValueError)
    ensures var p := Components(path);
      && (r.Raised? <==>
            || (rev == AsWritten && ParentText(path) == "")
            || Blocked(c, Components(ParentText(path)))
            || !AllStorable(attributes)
            || (!CompatibleAt(c, p, data) &&
                (p == [] || !Storable(data) || !FitsInt64(data) || CompressionRefused(data, compression))))
      && (r.Ok? ==>
            && Valid(r.value)
            && p != []
            && IsGroupAt(r.value, Parent(p))
            && NodeAt(r.value, p).Some?
            && NodeAt(r.value, p).value.Dataset?
            && NodeAt(r.value, p).value.value == data)
      && (r.Ok? && CompatibleAt(c, p, data) ==>
            var prior := NodeAt(c, p).value;
            NodeAt(r.value, p).value == Dataset(data, prior.compression, prior.attrs + attributes))
      && (r.Ok? && !CompatibleAt(c, p, data) ==>
            && NodeAt(r.value, p).value == Dataset(data, compression, attributes)
            && p in r.value.entries && r.value.entries[p].Hard?
            && r.value.entries[p].id !in c.nodes)
      && (r.Ok? ==> forall q :: q in c.entries && !(p <= q) ==> q in r.value.entries && r.value.entries[q] == c.entries[q])
      && (r.Ok? ==> forall q :: q in r.value.entries ==> q in c.entries || q <= p)
  {
    var p := Components(path);
    var g := Components(ParentText(path));
    var c1 :- RequireParent(c, path, rev);
    CompatibleStable(c, c1, g, p, data);
    WriteParentFacts(c1, path);
    WriteInto(c1, p, data, compression, attributes)
  }

  /** The `try`/`except` of `write_dataset`, once the parent group exists:
      a compatible dataset is written in place, anything else replaced. The
      first attempt passes `dtype=int` for an int, so at a free path an int
      outside int64 raises OverflowError there, which the `except` does not
      catch. */
  function WriteInto(c: Container, p: Path, data: Value, compression: Option<string>, attributes: Attrs): (r: Result<Container>)
    requires Valid(c) && WellNamed(p)
    requires p != [] ==> IsGroupAt(c, Parent(p))
    ensures r.Raised? <==>
      || !AllStorable(attributes)
      || (!CompatibleAt(c, p, data) &&
          (p == [] || !Storable(data) || !FitsInt64(data) || CompressionRefused(data, compression)))
    ensures !CompatibleAt(c, p, data) && !FitsInt64(data) ==>
      r == Raised(if p !in c.entries then OverflowError else if p == [] then KeyError else TypeError)
    ensures (!CompatibleAt(c, p, data) && p != [] && Storable(data) && FitsInt64(data) &&
             CompressionRefused(data, compression)) ==> r == Raised(if ScalarShaped(data) then TypeError else ValueError)
    ensures r.Ok? ==>
      && Valid(r.value)
      && (forall q :: q in c.entries && !(p <= q) ==> q in r.value.entries && r.value.entries[q] == c.entries[q])
      && (forall q :: q in r.value.entries ==> q in c.entries || q <= p)
      && FreshLinks(c, r.value) && ObjectsKeptBut(c, r.value, p)
    ensures r.Ok? && CompatibleAt(c, p, data) ==>
      var prior := NodeAt(c, p).value;
      NodeAt(r.value, p) == Some(Dataset(data, prior.compression, prior.attrs + attributes))
    ensures r.Ok? && !CompatibleAt(c, p, data) ==>
      && NodeAt(r.value, p) == Some(Dataset(data, compression, attributes))
      && p in r.value.entries && r.value.entries[p].Hard?
      && r.value.entries[p].id !in c.nodes
  {
    if CompatibleAt(c, p, data) then WriteCompatible(c, p, data, attributes)
    else if !FitsInt64(data) && p !in c.entries then Raised(OverflowError)
    else Recreate(c, p, data, compression, attributes)
  }

  /** `h5_file.require_group(parent_path)` in `write_dataset`: as written,
      the text before the last slash, which is empty for a path directly
      below the root; corrected, the group above the path. */
  function RequireParent(c: Container, path: string, rev: Revision): (r: Result<Container>)
    requires Valid(c)
    ensures var g := Components(ParentText(path));
      && (r.Raised? <==> (rev == AsWritten && ParentText(path) == "") || Blocked(c, g))
      && (r.Raised? ==> r.exc == ValueError || r.exc == TypeError)
      && (rev == AsWritten && ParentText(path) == "" ==> r == Raised(ValueError))
      && (r.Ok? ==> Valid(r.value) && IsGroupAt(r.value, g) && Extends(c, r.value) && FreshLinks(c, r.value))
      && (r.Ok? ==> forall q :: q in r.value.entries && q !in c.entries ==> q <= g)
  {
    var g := Components(ParentText(path));
    RequireGroupFresh(c, g);
    if rev == AsWritten then RequireGroupText(c, ParentText(path)) else RequireGroup(c, g)
  }

  /** Text is stored with shape `()`, so writing it with any non-empty
      compression name raises: h5py refuses filters on a scalar dataset, in
      the first attempt and again in the retry. */
  lemma CompressedTextRaises(c: Container, path: string, text: string, name: string, attributes: Attrs, rev: Revision)
    requires Valid(c) && name != ""
    ensures WriteDataset(c, path, Str(text), Some(name), attributes, rev).Raised?
  {
  }

  /** An int outside int64 is never written: numpy cannot hold it in its
      default integer type. */
  lemma WideIntRaises(c: Container, path: string, i: int, compression: Option<string>, attributes: Attrs, rev: Revision)
    requires Valid(c) && !(Int64Min <= i <= Int64Max)
    ensures WriteDataset(c, path, Int(i), compression, attributes, rev).Raised?
  {
  }

  /** A write changes only the object its path leads to: every other object
      keeps its contents (also one reached through another hard link), and
      every new link is a hard link to a new object. */
  lemma WriteDatasetKeepsOtherObjects(c: Container, path: string, data: Value, compression: Option<string>, attributes: Attrs, rev: Revision)
    requires Valid(c)
    ensures var r := WriteDataset(c, path, data, compression, attributes, rev);
      r.Ok? ==> FreshLinks(c, r.value) && ObjectsKeptBut(c, r.value, Components(path))
  {
    var p := Components(path);
    var g := Components(ParentText(path));
    var r := WriteDataset(c, path, data, compression, attributes, rev);
    if r.Ok? {
      var c1 := RequireParent(c, path, rev).value;
      var d := r.value;
      CompatibleStable(c, c1, g, p, data);
      WriteParentFacts(c1, path);
      assert d == WriteInto(c1, p, data, compression, attributes).value;
      FreshLinksTrans(c, c1, d);
      forall id | id in c.nodes && Resolve(c, p) != Some(id)
        ensures d.nodes[id] == c.nodes[id]
      {
        if Resolve(c1, p) == Some(id) {
          ResolveFresh(c, c1, p, id);
        }
      }
    }
  }

  /** After requiring the group before the last slash, the parent of a
      non-root path is a group, and every created group is a prefix of the
      path. */
  lemma WriteParentFacts(c1: Container, path: string)
    requires Valid(c1)
    requires IsGroupAt(c1, Components(ParentText(path)))
    ensures var p := Components(path);
      && (p != [] ==> IsGroupAt(c1, Parent(p)))
      && (p != [] ==> Components(ParentText(path)) <= p)
  {
    var p := Components(path);
    if p != [] {
      ParentComponents(path);
      var g := Components(ParentText(path));
      if g == p {
        assert IsGroupAt(c1, p[..|p| - 1]);
      }
    }
  }

  /** Whether a path text ends in a slash (`path[-1] == "/"`). */
  predicate EndsWithSlash(s: string) {
    s != "" && s[|s| - 1] == '/'
  }

  /** `d` differs from `c` only strictly below `o` and by groups created on
      the way to `o`. */
  predicate ChangedOnlyBelow(c: Container, d: Container, o: Path) {
    && (forall q :: q in c.entries && !(o < q) ==> q in d.entries && d.entries[q] == c.entries[q])
    && (forall q :: q in d.entries && q !in c.entries ==> q <= o || o < q)
    && NodesKept(c, d)
  }

  /** The outcome of a single copy of the object at `ip` into the group `o`
      under its leaf name: TypeError when a non-group blocks `o`; otherwise
      `o` is a group, the tree at `o/leaf` is a copy of the source tree, and
      only that tree and the groups on the way to `o` change. */
  ghost predicate PlacedAt(src: Container, dst: Container, ip: string, o: Path, r: Result<(bool, Container)>) {
    var t := o + [LeafText(ip)];
    && (r.Raised? <==> Blocked(dst, o))
    && (r.Raised? ==> r.exc == TypeError)
    && (r.Ok? ==>
          && r.value.0
          && Valid(r.value.1)
          && IsGroupAt(r.value.1, o)
          && Copied(src, Components(ip), r.value.1, t)
          && (forall q :: q in dst.entries && !(t <= q) ==> q in r.value.1.entries && r.value.1.entries[q] == dst.entries[q])
          && (forall q :: q in r.value.1.entries && q !in dst.entries ==> q <= o || t <= q)
          && NodesKept(dst, r.value.1))
  }

  /** Deleting paths that are not prefixes of `o` does not change whether
      `o` is blocked. */
  lemma BlockedUnchanged(c: Container, d: Container, o: Path)
    requires forall i :: 0 <= i <= |o| ==> (o[..i] in c.entries <==> o[..i] in d.entries)
    requires forall i :: 0 <= i <= |o| && o[..i] in c.entries ==> c.entries[o[..i]] == d.entries[o[..i]]
    requires c.nodes == d.nodes
    ensures Blocked(c, o) == Blocked(d, o)
  {
    if Blocked(c, o) {
      var i :| 0 <= i <= |o| && o[..i] in c.entries && !IsGroupAt(c, o[..i]);
      assert !IsGroupAt(d, o[..i]);
    }
    if Blocked(d, o) {
      var i :| 0 <= i <= |o| && o[..i] in d.entries && !IsGroupAt(d, o[..i]);
      assert !IsGroupAt(c, o[..i]);
    }
  }

  /** The single-copy branch of `copy_hdf5_tree`: replaces whatever is at
      `output/leaf`, requires the output group, and copies the source object
      there under its leaf name. */
  function SingleCopy(src: Container, dst: Container, ip: string, op: string): (r: Result<(bool, Container)>)
    requires Valid(src) && Valid(dst)
    requires ip != "" && !EndsWithSlash(ip) && Components(ip) in src.entries
    ensures PlacedAt(src, dst, ip, Components(op), r)
  {
    var name := LeafText(ip);
    LeafNonEmpty(ip);
    var o := Components(op);
    var t := o + [name];
    var c1 := ClearTarget(dst, t);
    assert forall i :: 0 <= i <= |o| ==> !(t <= o[..i]);
    BlockedUnchanged(dst, c1, o);
    var c2 :- RequireGroup(c1, o);
    assert t !in c2.entries by {
      assert !(t <= o);
    }
    assert Parent(t) == o;
    var d := Graft(src, Components(ip), c2, t);
    assert forall q :: q in d.entries && q !in dst.entries ==> q <= o || t <= q by {
      forall q | q in d.entries && q !in dst.entries
        ensures q <= o || t <= q
      {
        if q !in c2.entries {
          assert t <= q;
        } else {
          assert q !in c1.entries;
        }
      }
    }
    assert IsGroupAt(d, o) && NodesKept(dst, d);
    Ok((true, d))
  }

  /** `del h5_out[target]` when the target exists: everything at or below
      `t` goes, the rest stays. */
  function ClearTarget(c: Container, t: Path): (r: Container)
    requires Valid(c) && t != []
    ensures Valid(r) && r.nodes == c.nodes && r.next == c.next
    ensures forall q :: q in r.entries <==> q in c.entries && !(t <= q)
    ensures forall q :: q in r.entries ==> r.entries[q] == c.entries[q]
  {
    if t in c.entries then Delete(c, t).value
    else
      NoDescendants(c, t);
      c
  }

  /** Which reading to follow where the source departs from its evident
      intent: the source as written, or the corrected behaviour. */
  datatype Revision = AsWritten | Corrected

  /** The output path of the recursive call for child `k` of a fan-out from
      `op1` (the output path without its slash). */
  function ChildOutput(op1: string, k: string, rev: Revision): string {
    if rev == AsWritten then op1 + "/" + k else op1 + "/"
  }

  /** The group a fan-out child is copied into. */
  function ChildBase(o: Path, k: string, rev: Revision): Path {
    if rev == AsWritten then o + [k] else o
  }

  /** Where a fan-out child's tree lands. */
  function ChildTarget(o: Path, k: string, rev: Revision): Path {
    ChildBase(o, k, rev) + [k]
  }

  /** The path texts of a fan-out child's recursive call. */
  lemma ChildPaths(ip1: string, op1: string, k: string, rev: Revision)
    requires NameOk(k)
    ensures var ip := ip1 + "/" + k;
      && ip != "" && !EndsWithSlash(ip) && TrailingSlashes(ip) == 0
      && Components(ip) == Components(ip1) + [k]
      && LeafText(ip) == k
    ensures var op := ChildOutput(op1, k, rev);
      && Components(op) == ChildBase(Components(op1), k, rev)
      && TrailingSlashes(op) <= TrailingSlashes(op1) + 1
      && (TrailingSlashes(op) < |op| <==> rev == AsWritten || TrailingSlashes(op1) < |op1|)
  {
    JoinNoTrailingSlash(ip1, k);
    ComponentsOfChild(ip1, k);
    LeafOfJoin(ip1, k);
    if rev == AsWritten {
      JoinNoTrailingSlash(op1, k);
      ComponentsOfChild(op1, k);
    } else {
      var op := op1 + "/";
      assert op[..|op| - 1] == op1;
      ComponentsDropSlash(op);
    }
  }

  /** Fan-out children that differ in name land in disjoint trees, and one
      child's tree is never on the way to another child's group. */
  lemma ChildrenApart(o: Path, k: string, k0: string, rev: Revision, s: Path)
    requires k != k0
    ensures !(ChildTarget(o, k0, rev) <= ChildTarget(o, k, rev) + s)
    ensures !(ChildTarget(o, k, rev) + s <= ChildBase(o, k0, rev))
  {
    var t0 := ChildTarget(o, k0, rev);
    var t := ChildTarget(o, k, rev) + s;
    assert t0[|o|] == k0 && t[|o|] == k;
  }

  /** A copy survives changes made elsewhere. */
  lemma CopiedStable(src: Container, sp: Path, d: Container, d1: Container, t: Path)
    requires Copied(src, sp, d, t)
    requires forall s :: t + s in d.entries ==> t + s in d1.entries && d1.entries[t + s] == d.entries[t + s]
    requires forall s :: t + s in d1.entries ==> t + s in d.entries
    requires NodesKept(d, d1)
    ensures Copied(src, sp, d1, t)
  {
    forall s
      ensures sp + s in src.entries <==> t + s in d1.entries
      ensures sp + s in src.entries ==> SameEntry(src, src.entries[sp + s], d1, d1.entries[t + s])
    {
      if sp + s in src.entries {
        assert SameEntry(src, src.entries[sp + s], d, d.entries[t + s]);
      }
    }
  }

  /** Copying child `k0` keeps an earlier copy of another child `k`. */
  lemma ChildCopyKeeps(src: Container, sp: Path, d: Container, d1: Container, o: Path, k: string, k0: string, rev: Revision)
    requires k != k0
    requires Copied(src, sp, d, ChildTarget(o, k, rev))
    requires forall q :: q in d.entries && !(ChildTarget(o, k0, rev) <= q) ==> q in d1.entries && d1.entries[q] == d.entries[q]
    requires forall q :: q in d1.entries && q !in d.entries ==> q <= ChildBase(o, k0, rev) || ChildTarget(o, k0, rev) <= q
    requires NodesKept(d, d1)
    ensures Copied(src, sp, d1, ChildTarget(o, k, rev))
  {
    var t := ChildTarget(o, k, rev);
    forall s | t + s in d.entries
      ensures t + s in d1.entries && d1.entries[t + s] == d.entries[t + s]
    {
      ChildrenApart(o, k, k0, rev, s);
    }
    forall s | t + s in d1.entries
      ensures t + s in d.entries
    {
      ChildrenApart(o, k, k0, rev, s);
    }
    CopiedStable(src, sp, d, d1, t);
  }

  /** Changes confined below a child group are confined below its parent. */
  lemma BelowChild(c: Container, d: Container, o: Path, k: string)
    requires ChangedOnlyBelow(c, d, o + [k])
    ensures ChangedOnlyBelow(c, d, o)
  {
    forall q | q in d.entries && q !in c.entries
      ensures q <= o || o < q
    {
      if q <= o + [k] && |q| <= |o| {
        assert q == (o + [k])[..|q|];
        assert q == o[..|q|];
      }
    }
  }

  /** A single copy into `o` changes nothing outside `o`. */
  lemma PlacedBelow(src: Container, dst: Container, ip: string, o: Path, r: Result<(bool, Container)>)
    requires PlacedAt(src, dst, ip, o, r) && r.Ok?
    ensures ChangedOnlyBelow(dst, r.value.1, o)
  {
    var t := o + [LeafText(ip)];
    forall q | q in dst.entries && !(o < q)
      ensures q in r.value.1.entries && r.value.1.entries[q] == dst.entries[q]
    {
      assert !(t <= q);
    }
  }

  /** `copy_hdf5_tree`, returning its boolean and the output file:
      - ValueError for an empty input path, which `h5_in.get` passes to HDF5;
      - False and no change when the input path is not a group;
      - IndexError on an empty output path (the `[-1]` index);
      - both paths slashed: one recursive call per member of the input group
        (as written, the input `/` is stripped to the empty name, and
        `h5_in[""]` raises ValueError; corrected, it is the root);
      - only the output slashed: the same call without the slash;
      - only the input slashed: False and no change;
      - neither: a single copy into the output group under the leaf name. */
  function CopyTree(src: Container, dst: Container, ip: string, op: string, rev: Revision): (r: Result<(bool, Container)>)
    requires Valid(src) && Valid(dst)
    ensures r.Ok? ==> Valid(r.value.1) && ChangedOnlyBelow(dst, r.value.1, Components(op))
    ensures r.Ok? && !r.value.0 ==> r.value.1 == dst
    ensures r.Raised? ==> r.exc == IndexError || r.exc == TypeError || r.exc == ValueError
    ensures ip == "" ==> r == Raised(ValueError)
    ensures !IsGroupAt(src, Components(ip)) ==> r == Ok((false, dst))
    ensures IsGroupAt(src, Components(ip)) && ip != "" && op == "" ==> r == Raised(IndexError)
    ensures ip == "/" && EndsWithSlash(op) && rev == AsWritten ==> r == Raised(ValueError)
    ensures IsGroupAt(src, Components(ip)) && op != "" && EndsWithSlash(ip) && !EndsWithSlash(op) ==> r == Ok((false, dst))
    ensures IsGroupAt(src, Components(ip)) && ip != "" && !EndsWithSlash(ip) ==>
      && (r.Ok? ==> r.value.0)
      && (TrailingSlashes(op) == |op| ==> r == Raised(IndexError))
      && (TrailingSlashes(op) < |op| ==> PlacedAt(src, dst, ip, Components(op), r))
    ensures IsGroupAt(src, Components(ip)) && EndsWithSlash(ip) && EndsWithSlash(op) && r.Ok? ==>
      && r.value.0
      && forall k :: IsGroupAt(src, Components(ip) + [k]) ==>
           Copied(src, Components(ip) + [k], r.value.1, ChildTarget(Components(op), k, rev))
    decreases TrailingSlashes(ip) + TrailingSlashes(op), 2, 0
  {
    assert ip == "/" ==> Components(ip) == [] by {
      if ip == "/" {
        ComponentsDropSlash("/");
        assert "/"[..0] == "";
      }
    }
    if ip == "" then Raised(ValueError)
    else if !IsGroupAt(src, Components(ip)) then Ok((false, dst))
    else if op == "" then Raised(IndexError)
    else if EndsWithSlash(op) && EndsWithSlash(ip) then
      var op1 := op[..|op| - 1];
      var ip1 := ip[..|ip| - 1];
      if ip1 == "" && rev == AsWritten then Raised(ValueError)
      else
        ComponentsDropSlash(ip);
        ComponentsDropSlash(op);
        var names := ChildNames(src, Components(ip1));
        var keys := Sorted(names);
        FanOutKeys(src, Components(ip1), keys);
        var d :- CopyChildren(src, dst, ip1, op1, keys, rev);
        Ok((true, d))
    else if EndsWithSlash(op) then
      var op1 := op[..|op| - 1];
      ComponentsDropSlash(op);
      var res :- CopyTree(src, dst, ip, op1, rev);
      Ok((true, res.1))
    else if EndsWithSlash(ip) then Ok((false, dst))
    else
      var res := SingleCopy(src, dst, ip, op);
      PlacedBelowOk(src, dst, ip, Components(op), res);
      res
  }

  lemma PlacedBelowOk(src: Container, dst: Container, ip: string, o: Path, r: Result<(bool, Container)>)
    requires PlacedAt(src, dst, ip, o, r)
    ensures r.Ok? ==> ChangedOnlyBelow(dst, r.value.1, o)
  {
    if r.Ok? {
      PlacedBelow(src, dst, ip, o, r);
    }
  }

  /** The member names of a group, in order, are valid, distinct, and name
      every member. */
  lemma FanOutKeys(src: Container, i: Path, keys: seq<string>)
    requires Valid(src)
    requires keys == Sorted(ChildNames(src, i))
    ensures forall j :: 0 <= j < |keys| ==> NameOk(keys[j])
    ensures forall a, b :: 0 <= a < b < |keys| ==> keys[a] != keys[b]
    ensures forall k :: i + [k] in src.entries ==> k in keys
  {
    forall j | 0 <= j < |keys|
      ensures NameOk(keys[j])
    {
      var q := i + [keys[j]];
      assert q in src.entries;
      assert q[|i|] == keys[j];
    }
    forall a, b | 0 <= a < b < |keys|
      ensures keys[a] != keys[b]
    {
      PrecedesIrreflexive(keys[a]);
    }
  }

  /** The loop over `h5_in[input_path].keys()` in a fan-out: one recursive
      copy per member, in order, ignoring each call's boolean. */
  function CopyChildren(src: Container, dst: Container, ip1: string, op1: string, keys: seq<string>, rev: Revision): (r: Result<Container>)
    requires Valid(src) && Valid(dst)
    requires forall j :: 0 <= j < |keys| ==> NameOk(keys[j])
    requires forall a, b :: 0 <= a < b < |keys| ==> keys[a] != keys[b]
    ensures r.Ok? ==> Valid(r.value) && ChangedOnlyBelow(dst, r.value, Components(op1))
    ensures r.Raised? ==> r.exc == IndexError || r.exc == TypeError
    ensures r.Ok? ==> forall k :: k in keys && IsGroupAt(src, Components(ip1) + [k]) ==>
      Copied(src, Components(ip1) + [k], r.value, ChildTarget(Components(op1), k, rev))
    ensures r.Ok? ==> forall k :: k !in keys && Copied(src, Components(ip1) + [k], dst, ChildTarget(Components(op1), k, rev)) ==>
      Copied(src, Components(ip1) + [k], r.value, ChildTarget(Components(op1), k, rev))
    ensures (forall k :: k in keys ==> !IsGroupAt(src, Components(ip1) + [k])) ==> r == Ok(dst)
    decreases TrailingSlashes(ip1) + TrailingSlashes(op1) + 2, 1, |keys|
  {
    if keys == [] then Ok(dst)
    else
      var d1 :- CopyChild(src, dst, ip1, op1, keys[0], rev);
      KeysTail(keys);
      var rest :- CopyChildren(src, d1, ip1, op1, keys[1..], rev);
      ComposeSteps(src, dst, d1, rest, Components(ip1), Components(op1), keys, rev);
      Ok(rest)
  }

  lemma KeysTail(keys: seq<string>)
    requires keys != []
    requires forall j :: 0 <= j < |keys| ==> NameOk(keys[j])
    requires forall a, b :: 0 <= a < b < |keys| ==> keys[a] != keys[b]
    ensures forall j :: 0 <= j < |keys[1..]| ==> NameOk(keys[1..][j])
    ensures forall a, b :: 0 <= a < b < |keys[1..]| ==> keys[1..][a] != keys[1..][b]
    ensures keys[0] !in keys[1..]
  {
    assert forall j :: 0 <= j < |keys[1..]| ==> keys[1..][j] == keys[j + 1];
  }

  /** One iteration of the fan-out loop: the recursive call for child `k0`. */
  function CopyChild(src: Container, dst: Container, ip1: string, op1: string, k0: string, rev: Revision): (r: Result<Container>)
    requires Valid(src) && Valid(dst) && NameOk(k0)
    ensures r.Raised? ==> r.exc == IndexError || r.exc == TypeError
    ensures r.Ok? ==> Valid(r.value) && ChangedOnlyBelow(dst, r.value, Components(op1))
    ensures r.Ok? && IsGroupAt(src, Components(ip1) + [k0]) ==>
      Copied(src, Components(ip1) + [k0], r.value, ChildTarget(Components(op1), k0, rev))
    ensures r.Ok? ==> forall k :: k != k0 && Copied(src, Components(ip1) + [k], dst, ChildTarget(Components(op1), k, rev)) ==>
      Copied(src, Components(ip1) + [k], r.value, ChildTarget(Components(op1), k, rev))
    ensures !IsGroupAt(src, Components(ip1) + [k0]) ==> r == Ok(dst)
    decreases TrailingSlashes(ip1) + TrailingSlashes(op1) + 2, 0, 0
  {
    ChildPaths(ip1, op1, k0, rev);
    var call := CopyTree(src, dst, ip1 + "/" + k0, ChildOutput(op1, k0, rev), rev);
    if call.Raised? then Raised(call.exc)
    else
      ChildStep(src, dst, ip1, op1, k0, rev, call);
      Ok(call.value.1)
  }

  /** What one fan-out step does, given what the recursive call promises:
      changes stay below the output group, a group child's tree is copied
      to its target, and copies of other children survive. */
  lemma ChildStep(src: Container, dst: Container, ip1: string, op1: string, k0: string, rev: Revision, res: Result<(bool, Container)>)
    requires Valid(src) && Valid(dst) && NameOk(k0)
    requires res.Ok? && Valid(res.value.1)
    requires ChangedOnlyBelow(dst, res.value.1, Components(ChildOutput(op1, k0, rev)))
    requires !IsGroupAt(src, Components(ip1 + "/" + k0)) ==> res == Ok((false, dst))
    requires IsGroupAt(src, Components(ip1 + "/" + k0)) ==>
      var op := ChildOutput(op1, k0, rev);
      && (TrailingSlashes(op) == |op| ==> res == Raised(IndexError))
      && (TrailingSlashes(op) < |op| ==> PlacedAt(src, dst, ip1 + "/" + k0, Components(op), res))
    ensures ChangedOnlyBelow(dst, res.value.1, Components(op1))
    ensures IsGroupAt(src, Components(ip1) + [k0]) ==>
      Copied(src, Components(ip1) + [k0], res.value.1, ChildTarget(Components(op1), k0, rev))
    ensures forall k :: k != k0 && Copied(src, Components(ip1) + [k], dst, ChildTarget(Components(op1), k, rev)) ==>
      Copied(src, Components(ip1) + [k], res.value.1, ChildTarget(Components(op1), k, rev))
  {
    ChildPaths(ip1, op1, k0, rev);
    var o := Components(op1);
    var d1 := res.value.1;
    if rev == AsWritten {
      BelowChild(dst, d1, o, k0);
    }
    if IsGroupAt(src, Components(ip1) + [k0]) {
      var op := ChildOutput(op1, k0, rev);
      assert TrailingSlashes(op) < |op|;
      assert PlacedAt(src, dst, ip1 + "/" + k0, ChildBase(o, k0, rev), res);
      assert ChildBase(o, k0, rev) + [LeafText(ip1 + "/" + k0)] == ChildTarget(o, k0, rev);
      forall k | k != k0 && Copied(src, Components(ip1) + [k], dst, ChildTarget(o, k, rev))
        ensures Copied(src, Components(ip1) + [k], d1, ChildTarget(o, k, rev))
      {
        ChildCopyKeeps(src, Components(ip1) + [k], dst, d1, o, k, k0, rev);
      }
    }
  }

  /** One fan-out step followed by the rest of the loop. */
  lemma ComposeSteps(src: Container, dst: Container, d1: Container, r: Container, i: Path, o: Path, keys: seq<string>, rev: Revision)
    requires keys != [] && keys[0] !in keys[1..]
    requires ChangedOnlyBelow(dst, d1, o) && ChangedOnlyBelow(d1, r, o)
    requires IsGroupAt(src, i + [keys[0]]) ==> Copied(src, i + [keys[0]], d1, ChildTarget(o, keys[0], rev))
    requires forall k :: k != keys[0] && Copied(src, i + [k], dst, ChildTarget(o, k, rev)) ==> Copied(src, i + [k], d1, ChildTarget(o, k, rev))
    requires forall k :: k in keys[1..] && IsGroupAt(src, i + [k]) ==> Copied(src, i + [k], r, ChildTarget(o, k, rev))
    requires forall k :: k !in keys[1..] && Copied(src, i + [k], d1, ChildTarget(o, k, rev)) ==> Copied(src, i + [k], r, ChildTarget(o, k, rev))
    ensures ChangedOnlyBelow(dst, r, o)
    ensures forall k :: k in keys && IsGroupAt(src, i + [k]) ==> Copied(src, i + [k], r, ChildTarget(o, k, rev))
    ensures forall k :: k !in keys && Copied(src, i + [k], dst, ChildTarget(o, k, rev)) ==> Copied(src, i + [k], r, ChildTarget(o, k, rev))
  {
    assert keys == [keys[0]] + keys[1..];
  }

  /** A trailing slash on the output path alone changes nothing: the call
      strips it and recurses, and a single copy already lands inside the
      output group. */
  lemma {:induction false} OutputSlashIgnored(src: Container, dst: Container, ip: string, op: string, rev: Revision)
    requires Valid(src) && Valid(dst)
    requires !EndsWithSlash(ip)
    ensures CopyTree(src, dst, ip, op + "/", rev) == CopyTree(src, dst, ip, op, rev)
  {
    var op' := op + "/";
    assert op'[..|op'| - 1] == op;
  }

  function Slashes(n: nat): (r: string)
    ensures |r| == n && forall i :: 0 <= i < n ==> r[i] == '/'
  {
    if n == 0 then "" else Slashes(n - 1) + "/"
  }

  /** Any number of trailing slashes on the output path alone give the same
      result as none. */
  lemma {:induction false} OutputSlashesIgnored(src: Container, dst: Container, ip: string, op: string, n: nat, rev: Revision)
    requires Valid(src) && Valid(dst)
    requires !EndsWithSlash(ip)
    ensures CopyTree(src, dst, ip, op + Slashes(n), rev) == CopyTree(src, dst, ip, op, rev)
  {
    if n == 0 {
      assert op + Slashes(n) == op;
    } else {
      OneMoreSlash(src, dst, ip, op, n, rev);
      OutputSlashesIgnored(src, dst, ip, op, n - 1, rev);
    }
  }

  lemma OneMoreSlash(src: Container, dst: Container, ip: string, op: string, n: nat, rev: Revision)
    requires Valid(src) && Valid(dst)
    requires !EndsWithSlash(ip) && n > 0
    ensures CopyTree(src, dst, ip, op + Slashes(n), rev) == CopyTree(src, dst, ip, op + Slashes(n - 1), rev)
  {
    var shorter := op + Slashes(n - 1);
    assert op + Slashes(n) == shorter + "/";
    OutputSlashIgnored(src, dst, ip, shorter, rev);
  }

  /** As written, a fan-out from `a/` to `b/` does not put a copy of the
      member `x` at `b/x`: it lands at `b/x/x`, so unless `x` itself has a
      member named `x`, the tree at `b/x` is not a copy of `a/x`. */
  lemma FanOutNestsChildren(src: Container, dst: Container, ip: string, op: string, k: string)
    requires Valid(src) && Valid(dst)
    requires EndsWithSlash(ip) && EndsWithSlash(op)
    requires IsGroupAt(src, Components(ip) + [k])
    requires Components(ip) + [k, k] !in src.entries
    requires CopyTree(src, dst, ip, op, AsWritten).Ok?
    ensures var d := CopyTree(src, dst, ip, op, AsWritten).value.1;
      && Copied(src, Components(ip) + [k], d, Components(op) + [k, k])
      && !Copied(src, Components(ip) + [k], d, Components(op) + [k])
  {
    var i := Components(ip);
    var o := Components(op);
    var d := CopyTree(src, dst, ip, op, AsWritten).value.1;
    NotGroupRoot(src, ip);
    assert ChildTarget(o, k, AsWritten) == (o + [k]) + [k] == o + [k, k];
    assert (i + [k]) + [k] == i + [k, k];
    NotCopiedAbove(src, i + [k], d, o + [k], k);
  }

  /** As written, a tree copy from the root (`/`) to a slashed output
      raises: the input is stripped to the empty name, and HDF5 refuses it. */
  lemma RootFanOutRaises(src: Container, dst: Container, op: string)
    requires Valid(src) && Valid(dst)
    requires EndsWithSlash(op)
    ensures CopyTree(src, dst, "/", op, AsWritten) == Raised(ValueError)
  {
  }

  /** Corrected, a tree copy from the root to `b/` copies every member group
      `x` of the root to `b/x`. */
  lemma RootFanOutCopiesMembers(src: Container, dst: Container, op: string, k: string)
    requires Valid(src) && Valid(dst)
    requires EndsWithSlash(op)
    requires IsGroupAt(src, [k])
    requires CopyTree(src, dst, "/", op, Corrected).Ok?
    ensures Copied(src, [k], CopyTree(src, dst, "/", op, Corrected).value.1, Components(op) + [k])
  {
    ComponentsDropSlash("/");
    assert "/"[..0] == "";
    assert Components("/") + [k] == [k];
  }

  /** As written, a rule whose destination sits directly below the root
      (`/title`) raises ValueError: the group required above it is the
      empty name. */
  lemma TopLevelDestinationRaises(c: Container, name: string, data: Value, compression: Option<string>, attributes: Attrs)
    requires Valid(c) && NameOk(name)
    ensures WriteDataset(c, "/" + name, data, compression, attributes, AsWritten) == Raised(ValueError)
  {
    LeafOfJoin("", name);
    assert "" + "/" + name == "/" + name;
  }

  /** Corrected, the same destination is written into the root group: the
      member `name` of the root holds the data. */
  lemma TopLevelDestinationWritten(c: Container, name: string, data: Value, compression: Option<string>, attributes: Attrs)
    requires Valid(c) && NameOk(name)
    requires Storable(data) && AllStorable(attributes)
    requires FitsInt64(data) && !CompressionRefused(data, compression)
    ensures var r := WriteDataset(c, "/" + name, data, compression, attributes, Corrected);
      && r.Ok?
      && NodeAt(r.value, [name]).Some?
      && NodeAt(r.value, [name]).value.Dataset?
      && NodeAt(r.value, [name]).value.value == data
  {
    LeafOfJoin("", name);
    ComponentsOfChild("", name);
    assert "" + "/" + name == "/" + name;
    assert Components("") == [];
    assert [] + [name] == [name];
    assert !Blocked(c, []);
  }

  /** A tree copied to `t/x` is not also a copy at `t` when the source has
      no member `x`. */
  lemma NotCopiedAbove(src: Container, sp: Path, d: Container, t: Path, x: string)
    requires Copied(src, sp, d, t + [x])
    requires sp in src.entries && sp + [x] !in src.entries
    ensures !Copied(src, sp, d, t)
  {
    assert sp + [] == sp;
    assert (t + [x]) + [] == t + [x];
    assert t + [x] in d.entries;
  }

  /** The input group of a fan-out is a group whenever one of its members
      is. */
  lemma NotGroupRoot(src: Container, ip: string)
    requires Valid(src)
    ensures forall k :: IsGroupAt(src, Components(ip) + [k]) ==> IsGroupAt(src, Components(ip))
  {
    forall k | IsGroupAt(src, Components(ip) + [k])
      ensures IsGroupAt(src, Components(ip))
    {
      var q := Components(ip) + [k];
      assert q[..|q| - 1] == Components(ip);
    }
  }
}

=== FILE: keyvals.dfy ===
/** The command-line `key=value` list (HDF5Translator/utils/argparse_utils.py):
    each item is split at its first `=`, both halves are stripped, and later
    items override earlier ones with the same key. */
module KeyVals {
  import opened Text
  import opened Values

  /** An item the parser accepts: one that contains `=`. */
  predicate HasSeparator(item: string) {
    '=' in item
  }

  predicate AllHaveSeparator(items: seq<string>) {
    forall i :: 0 <= i < |items| ==> HasSeparator(items[i])
  }

  /** `key, value = item.split("=", 1)`, then both stripped. */
  function Pair(item: string): (string, string)
    requires HasSeparator(item)
  {
    var kv := SplitFirst(item, '=').value;
    (Strip(kv.0), Strip(kv.1))
  }

  /** The stripped pair of every item. */
  function Pairs(items: seq<string>): (ps: seq<(string, string)>)
    requires AllHaveSeparator(items)
    ensures |ps| == |items|
    ensures forall i :: 0 <= i < |items| ==> ps[i] == Pair(items[i])
  {
    seq(|items|, i requires 0 <= i < |items| => Pair(items[i]))
  }

  /** A dictionary built by inserting pairs from the left. */
  function Insert(ps: seq<(string, string)>): map<string, string> {
    if ps == [] then map[]
    else Insert(ps[..|ps| - 1])[ps[|ps| - 1].0 := ps[|ps| - 1].1]
  }

  /** The dictionary the parser builds. */
  function Reference(items: seq<string>): map<string, string>
    requires AllHaveSeparator(items)
  {
    Insert(Pairs(items))
  }

  /** `KeyValueAction.__call__`: the dictionary of the stripped pairs, or
      ValueError (the two-name unpacking fails) at an item without `=`. */
  method ParseKeyValues(items: seq<string>) returns (r: Result<map<string, string>>)
    ensures r.Raised? <==> !AllHaveSeparator(items)
    ensures r.Raised? ==> r.exc == ValueError
    ensures r.Ok? ==> AllHaveSeparator(items) && r.value == Reference(items)
  {
    var keyvals: map<string, string> := map[];
    var n := 0;
    while n < |items|
      invariant 0 <= n <= |items|
      invariant AllHaveSeparator(items[..n])
      invariant keyvals == Reference(items[..n])
    {
      if !HasSeparator(items[n]) {
        return Raised(ValueError);
      }
      var kv := Pair(items[n]);
      ReferenceSnoc(items, n);
      keyvals := keyvals[kv.0 := kv.1];
      n := n + 1;
    }
    assert items[..n] == items;
    return Ok(keyvals);
  }

  /** One more item updates the dictionary with its pair. */
  lemma ReferenceSnoc(items: seq<string>, n: nat)
    requires n < |items|
    requires AllHaveSeparator(items[..n]) && HasSeparator(items[n])
    ensures AllHaveSeparator(items[..n + 1])
    ensures Reference(items[..n + 1]) == Reference(items[..n])[Pair(items[n]).0 := Pair(items[n]).1]
  {
    var longer := items[..n + 1];
    PrefixOfPrefix(items, n);
    forall j | 0 <= j < n + 1
      ensures HasSeparator(longer[j])
    {
      if j < n {
        assert longer[j] == items[..n][j];
      }
    }
    PairsPrefix(longer, n);
    var ps := Pairs(longer);
    var kv := Pair(items[n]);
    assert ps[n] == kv;
    assert |ps| - 1 == n;
    InsertSnoc(ps, Pairs(items[..n]), kv);
  }

  lemma InsertSnoc(ps: seq<(string, string)>, prefix: seq<(string, string)>, last: (string, string))
    requires |ps| > 0 && ps[..|ps| - 1] == prefix && ps[|ps| - 1] == last
    ensures Insert(ps) == Insert(prefix)[last.0 := last.1]
  {
  }

  lemma PrefixOfPrefix<T>(s: seq<T>, n: nat)
    requires n < |s|
    ensures s[..n + 1][..n] == s[..n] && s[..n + 1][n] == s[n]
  {
  }

  /** The pairs of a prefix are the prefix of the pairs. */
  lemma PairsPrefix(items: seq<string>, n: nat)
    requires AllHaveSeparator(items) && n <= |items|
    ensures AllHaveSeparator(items[..n])
    ensures Pairs(items)[..n] == Pairs(items[..n])
  {
    assert forall j :: 0 <= j < n ==> items[..n][j] == items[j];
  }

  /** Two splits at a separator that the left parts do not contain are the
      same split. */
  lemma {:induction false} SplitUnique(a: string, b: string, c: string, d: string, sep: char)
    requires sep !in a && sep !in c
    requires a + [sep] + b == c + [sep] + d
    ensures a == c && b == d
  {
    if a == [] || c == [] {
      assert (a + [sep] + b)[0] == (c + [sep] + d)[0];
      assert a == [] && c == [];
      assert b == (a + [sep] + b)[1..];
      assert d == (c + [sep] + d)[1..];
    } else {
      assert (a + [sep] + b)[0] == a[0] && (c + [sep] + d)[0] == c[0];
      assert a[1..] + [sep] + b == (a + [sep] + b)[1..];
      assert c[1..] + [sep] + d == (c + [sep] + d)[1..];
      SplitUnique(a[1..], b, c[1..], d, sep);
      assert a == [a[0]] + a[1..] && c == [c[0]] + c[1..];
    }
  }

  lemma PairOfSplit(item: string, k: string, v: string)
    requires '=' !in k && item == k + "=" + v
    ensures HasSeparator(item) && Pair(item) == (Strip(k), Strip(v))
  {
    assert item[|k|] == '=';
    var kv := SplitFirst(item, '=').value;
    SplitUnique(kv.0, kv.1, k, v, '=');
  }

  /** The item is split at its first `=` only: the value keeps any later
      `=`. */
  lemma SplitAtFirstSeparator(k: string, v: string)
    requires '=' !in k
    ensures HasSeparator(k + "=" + v)
    ensures Pair(k + "=" + v) == (Strip(k), Strip(v))
  {
    PairOfSplit(k + "=" + v, k, v);
  }

  /** Every key of the dictionary comes from some pair. */
  lemma {:induction false} InsertKeys(ps: seq<(string, string)>, k: string)
    requires k in Insert(ps)
    ensures exists i :: 0 <= i < |ps| && ps[i].0 == k
  {
    var n := |ps|;
    if ps[n - 1].0 != k {
      InsertKeys(ps[..n - 1], k);
      var i :| 0 <= i < n - 1 && ps[..n - 1][i].0 == k;
      assert ps[i].0 == k;
    }
  }

  /** The last pair with a key gives its value. */
  lemma {:induction false} InsertLastWins(ps: seq<(string, string)>, i: nat)
    requires i < |ps|
    requires forall j :: i < j < |ps| ==> ps[j].0 != ps[i].0
    ensures ps[i].0 in Insert(ps) && Insert(ps)[ps[i].0] == ps[i].1
  {
    var n := |ps|;
    if i < n - 1 {
      var prefix := ps[..n - 1];
      assert prefix[i] == ps[i];
      forall j | i < j < |prefix|
        ensures prefix[j].0 != prefix[i].0
      {
        assert prefix[j] == ps[j];
      }
      InsertLastWins(prefix, i);
    }
  }

  /** Every key of the dictionary is the stripped key of some item. */
  lemma KeysComeFromItems(items: seq<string>, k: string)
    requires AllHaveSeparator(items)
    requires k in Reference(items)
    ensures exists i :: 0 <= i < |items| && Pair(items[i]).0 == k
  {
    InsertKeys(Pairs(items), k);
  }

  /** For a repeated key the last item wins: the item at `i` whose key no
      later item repeats gives that key's value. */
  lemma LastItemWins(items: seq<string>, i: nat)
    requires AllHaveSeparator(items)
    requires i < |items|
    requires forall j :: i < j < |items| ==> Pair(items[j]).0 != Pair(items[i]).0
    ensures Pair(items[i]).0 in Reference(items)
    ensures Reference(items)[Pair(items[i]).0] == Pair(items[i]).1
  {
    InsertLastWins(Pairs(items), i);
  }
}

=== FILE: text.dfy ===
/** String helpers the translator relies on, written as Python's `str` methods
    behave: `strip()`, `lower()`, `split(sep, 1)`, `rsplit("/", 1)`, and the
    component view of an HDF5 path. Also the lexicographic order used to sort
    glob matches and group member names. */
module Text {

  /** Python's `str.isspace()` for a single character. */
  predicate IsSpace(c: char) {
    || (9 <= c as int <= 13)
    || (28 <= c as int <= 32)
    || c as int == 0x85 || c as int == 0xA0 || c as int == 0x1680
    || (0x2000 <= c as int <= 0x200A)
    || c as int == 0x2028 || c as int == 0x2029 || c as int == 0x202F
    || c as int == 0x205F || c as int == 0x3000
  }

  predicate AllSpace(s: string) {
    forall i :: 0 <= i < |s| ==> IsSpace(s[i])
  }

  /** No whitespace at either end. */
  predicate Stripped(s: string) {
    s == [] || (!IsSpace(s[0]) && !IsSpace(s[|s| - 1]))
  }

  function TrimLeft(s: string): (r: string)
    ensures |r| <= |s| && r == s[|s| - |r|..]
    ensures AllSpace(s[..|s| - |r|])
    ensures r == [] || !IsSpace(r[0])
  {
    if s == [] || !IsSpace(s[0]) then s
    else
      var r := TrimLeft(s[1..]);
      TrimLeftStep(s, r);
      r
  }

  lemma TrimLeftStep(s: string, r: string)
    requires s != [] && IsSpace(s[0])
    requires |r| <= |s| - 1 && r == s[1..][|s| - 1 - |r|..]
    requires AllSpace(s[1..][..|s| - 1 - |r|])
    ensures |r| <= |s| && r == s[|s| - |r|..] && AllSpace(s[..|s| - |r|])
  {
    var k := |s| - 1 - |r|;
    assert s[..k + 1] == [s[0]] + s[1..][..k];
    assert s[1..][k..] == s[k + 1..];
  }

  function TrimRight(s: string): (r: string)
    ensures |r| <= |s| && r == s[..|r|]
    ensures AllSpace(s[|r|..])
    ensures r == [] || !IsSpace(r[|r| - 1])
  {
    if s == [] || !IsSpace(s[|s| - 1]) then s
    else
      var r := TrimRight(s[..|s| - 1]);
      TrimRightStep(s, r);
      r
  }

  lemma TrimRightStep(s: string, r: string)
    requires s != [] && IsSpace(s[|s| - 1])
    requires |r| <= |s| - 1 && r == s[..|s| - 1][..|r|]
    requires AllSpace(s[..|s| - 1][|r|..])
    ensures |r| <= |s| && r == s[..|r|] && AllSpace(s[|r|..])
  {
    assert s[|r|..] == s[..|s| - 1][|r|..] + [s[|s| - 1]];
    assert s[..|s| - 1][..|r|] == s[..|r|];
  }

  /** The number of whitespace characters `s` starts with. */
  function LeadingSpaces(s: string): (n: nat)
    ensures n <= |s| && AllSpace(s[..n])
  {
    |s| - |TrimLeft(s)|
  }

  /** Python's `s.strip()`: the slice of `s` after its leading whitespace,
      without whitespace at either end, leaving only whitespace after it. */
  function Strip(s: string): (r: string)
    ensures Stripped(r)
    ensures Framed(s, LeadingSpaces(s), r)
  {
    var l := TrimLeft(s);
    var r := TrimRight(l);
    StripFacts(s, l, r, LeadingSpaces(s));
    r
  }

  /** `r` sits in `s` at offset `i`, followed only by whitespace. */
  predicate Framed(s: string, i: nat, r: string) {
    i + |r| <= |s| && r == s[i..i + |r|] && AllSpace(s[i + |r|..])
  }

  lemma StripFacts(s: string, l: string, r: string, i: nat)
    requires i + |l| == |s| && l == s[i..]
    requires l == [] || !IsSpace(l[0])
    requires |r| <= |l| && r == l[..|r|] && AllSpace(l[|r|..])
    requires r == [] || !IsSpace(r[|r| - 1])
    ensures Stripped(r)
    ensures Framed(s, i, r)
  {
    if r != [] {
      assert r[0] == l[0];
    }
    SliceOfSlice(s, i, |r|);
  }

  /** Slicing a suffix is slicing the whole. */
  lemma SliceOfSlice<T>(s: seq<T>, i: nat, n: nat)
    requires i + n <= |s|
    ensures s[i..][..n] == s[i..i + n]
    ensures s[i..][n..] == s[i + n..]
  {
  }

  /** Stripping a string that has no whitespace at its ends changes nothing. */
  lemma {:induction false} StripOfStripped(s: string)
    requires Stripped(s)
    ensures Strip(s) == s
  {
    assert TrimLeft(s) == s;
    assert TrimRight(s) == s;
  }

  /** Leading whitespace does not survive `strip()`. */
  lemma StripLeadingSpace(c: char, s: string)
    requires IsSpace(c)
    ensures Strip([c] + s) == Strip(s)
  {
    assert ([c] + s)[1..] == s;
    assert TrimLeft([c] + s) == TrimLeft(s);
  }

  /** `strip()` is idempotent. */
  lemma StripIdempotent(s: string)
    ensures Strip(Strip(s)) == Strip(s)
  {
    StripOfStripped(Strip(s));
  }

  /** Python's `str.lower()` restricted to ASCII letters; other characters are
      kept as they are. */
  function Lower(s: string): (r: string)
    ensures |r| == |s|
    ensures forall i :: 0 <= i < |s| ==>
      r[i] == (if 'A' <= s[i] <= 'Z' then (s[i] as int + 32) as char else s[i])
  {
    if s == [] then []
    else [if 'A' <= s[0] <= 'Z' then (s[0] as int + 32) as char else s[0]] + Lower(s[1..])
  }

  lemma {:induction false} LowerIdempotent(s: string)
    ensures Lower(Lower(s)) == Lower(s)
  {
    if s != [] {
      LowerIdempotent(s[1..]);
      assert Lower(s)[1..] == Lower(s[1..]);
    }
  }

  /** Index of the first occurrence of `c` in `s`. */
  function IndexOf(s: string, c: char): (r: Option<nat>)
    ensures r.None? <==> c !in s
    ensures r.Some? ==> r.value < |s| && s[r.value] == c && c !in s[..r.value]
  {
    if s == [] then None
    else if s[0] == c then Some(0)
    else
      var r := IndexOf(s[1..], c);
      if r.None? then None
      else
        assert s[..r.value + 1] == [s[0]] + s[1..][..r.value];
        Some(r.value + 1)
  }

  /** Index of the last occurrence of `c` in `s`. */
  function LastIndexOf(s: string, c: char): (r: Option<nat>)
    ensures r.None? <==> c !in s
    ensures r.Some? ==> r.value < |s| && s[r.value] == c && c !in s[r.value + 1..]
  {
    if s == [] then None
    else if s[|s| - 1] == c then Some(|s| - 1)
    else
      var r := LastIndexOf(s[..|s| - 1], c);
      if r.None? then None
      else
        assert s[r.value + 1..] == s[..|s| - 1][r.value + 1..] + [s[|s| - 1]];
        Some(r.value)
  }

  datatype Option<+T> = None | Some(value: T)

  /** Python's `s.split(sep, 1)` unpacked into two names: `None` when `sep`
      does not occur (the unpacking would fail). The key never holds `sep`. */
  function SplitFirst(s: string, sep: char): (r: Option<(string, string)>)
    ensures r.None? <==> sep !in s
    ensures r.Some? ==> r.value.0 + [sep] + r.value.1 == s && sep !in r.value.0
  {
    var i := IndexOf(s, sep);
    if i.None? then None
    else
      assert s == s[..i.value] + [sep] + s[i.value + 1..];
      Some((s[..i.value], s[i.value + 1..]))
  }

  /** `path.rsplit("/", maxsplit=1)[0]`: everything before the last slash, or
      the whole string when there is none. */
  function ParentText(path: string): string {
    var i := LastIndexOf(path, '/');
    if i.None? then path else path[..i.value]
  }

  /** `path.rsplit("/", maxsplit=1)[-1]`: everything after the last slash. */
  function LeafText(path: string): (r: string)
    ensures '/' !in r
    ensures '/' in path ==> path == ParentText(path) + "/" + r
    ensures '/' !in path ==> r == path
  {
    var i := LastIndexOf(path, '/');
    if i.None? then path
    else
      assert path == path[..i.value] + "/" + path[i.value + 1..];
      path[i.value + 1..]
  }

  /** Python's `s.split("/")`, keeping empty pieces. */
  function SplitSlash(s: string): (r: seq<string>)
    ensures |r| >= 1
    ensures forall i :: 0 <= i < |r| ==> '/' !in r[i]
    decreases |s|
  {
    var i := IndexOf(s, '/');
    if i.None? then [s] else [s[..i.value]] + SplitSlash(s[i.value + 1..])
  }

  lemma {:induction false} IndexOfPrefix(a: string, x: string, c: char)
    requires IndexOf(a, c).Some?
    ensures IndexOf(a + x, c) == IndexOf(a, c)
  {
    if a[0] != c {
      assert (a + x)[1..] == a[1..] + x;
      IndexOfPrefix(a[1..], x, c);
    }
  }

  lemma {:induction false} IndexOfAfter(a: string, x: string, c: char)
    requires c !in a
    ensures IndexOf(a + [c] + x, c) == Some(|a|)
  {
    if a != [] {
      assert (a + [c] + x)[1..] == a[1..] + [c] + x;
      IndexOfAfter(a[1..], x, c);
    }
  }

  lemma AppendAssoc<T>(x: seq<T>, y: seq<T>, z: seq<T>)
    ensures x + (y + z) == (x + y) + z
  {
  }

  lemma SplitSlashNoSep(a: string)
    requires '/' !in a
    ensures SplitSlash(a) == [a]
  {
  }

  lemma SplitSlashAt(s: string, k: nat)
    requires IndexOf(s, '/') == Some(k)
    ensures SplitSlash(s) == [s[..k]] + SplitSlash(s[k + 1..])
  {
  }

  /** Where `a + "/" + b` splits when `a` already holds a slash at `k`. */
  lemma SlashConcatPieces(a: string, b: string, k: nat)
    requires IndexOf(a, '/') == Some(k)
    ensures IndexOf(a + "/" + b, '/') == Some(k)
    ensures (a + "/" + b)[..k] == a[..k]
    ensures (a + "/" + b)[k + 1..] == a[k + 1..] + "/" + b
  {
    var s := a + "/" + b;
    var rest := "/" + b;
    assert s == a + rest;
    IndexOfPrefix(a, rest, '/');
    assert a == a[..k + 1] + a[k + 1..];
    assert s == a[..k + 1] + (a[k + 1..] + "/" + b);
  }

  lemma {:induction false} SplitSlashConcat(a: string, b: string)
    ensures SplitSlash(a + "/" + b) == SplitSlash(a) + SplitSlash(b)
    decreases |a|
  {
    var s := a + "/" + b;
    if '/' !in a {
      IndexOfAfter(a, b, '/');
      SplitSlashAt(s, |a|);
      assert s[..|a|] == a;
      assert s[|a| + 1..] == b;
      SplitSlashNoSep(a);
    } else {
      var k := IndexOf(a, '/').value;
      var tail := a[k + 1..];
      SlashConcatPieces(a, b, k);
      SplitSlashAt(s, k);
      SplitSlashAt(a, k);
      SplitSlashConcat(tail, b);
      AppendAssoc([a[..k]], SplitSlash(tail), SplitSlash(b));
    }
  }

  /** The non-empty pieces of a sequence of pieces. */
  function NonEmpty(xs: seq<string>): (r: seq<string>)
    ensures forall i :: 0 <= i < |r| ==> r[i] != "" && r[i] in xs
  {
    if xs == [] then []
    else if xs[0] == "" then NonEmpty(xs[1..])
    else [xs[0]] + NonEmpty(xs[1..])
  }

  lemma {:induction false} NonEmptyConcat(xs: seq<string>, ys: seq<string>)
    ensures NonEmpty(xs + ys) == NonEmpty(xs) + NonEmpty(ys)
  {
    if xs == [] {
      assert xs + ys == ys;
    } else {
      var zs := xs + ys;
      assert zs[0] == xs[0] && zs[1..] == xs[1..] + ys;
      NonEmptyConcat(xs[1..], ys);
      if xs[0] != "" {
        AppendAssoc([xs[0]], NonEmpty(xs[1..]), NonEmpty(ys));
      }
    }
  }

  /** A member name as HDF5 stores it: non-empty, without a separator. */
  predicate NameOk(n: string) {
    n != "" && '/' !in n
  }

  /** The components of an HDF5 path: the path split at '/', with empty pieces
      dropped, so that "/a//b/" and "a/b" name the same object. */
  function Components(s: string): (r: seq<string>)
    ensures forall i :: 0 <= i < |r| ==> NameOk(r[i])
  {
    NonEmpty(SplitSlash(s))
  }

  /** Joining two paths with a slash concatenates their components. */
  lemma ComponentsJoin(a: string, b: string)
    ensures Components(a + "/" + b) == Components(a) + Components(b)
  {
    SplitSlashConcat(a, b);
    NonEmptyConcat(SplitSlash(a), SplitSlash(b));
  }

  /** A valid member name is a single component. */
  lemma ComponentsOfName(n: string)
    requires NameOk(n)
    ensures Components(n) == [n]
  {
    assert IndexOf(n, '/').None?;
    assert SplitSlash(n) == [n];
    assert NonEmpty([n]) == [n] + NonEmpty([n][1..]);
    assert [n][1..] == [];
  }

  /** The components of the text before the last slash are a prefix of the
      path's components, a proper one exactly when the path does not end in a
      slash. */
  lemma ComponentsOfParent(path: string)
    requires '/' in path
    ensures Components(ParentText(path)) <= Components(path)
    ensures Components(ParentText(path)) == Components(path) <==> LeafText(path) == ""
  {
    var leaf := LeafText(path);
    ComponentsJoin(ParentText(path), leaf);
    if leaf != "" {
      ComponentsOfName(leaf);
    } else {
      assert SplitSlash("") == [""];
      assert Components("") == [];
    }
  }

  /** The last `c` of `a + [c] + k` is the one after `a` when `k` holds no
      `c`. */
  lemma {:induction false} LastIndexOfBefore(a: string, k: string, c: char)
    requires c !in k
    ensures LastIndexOf(a + [c] + k, c) == Some(|a|)
    decreases |k|
  {
    var s := a + [c] + k;
    if k != [] {
      assert s[|s| - 1] == k[|k| - 1];
      assert s[..|s| - 1] == a + [c] + k[..|k| - 1];
      LastIndexOfBefore(a, k[..|k| - 1], c);
    }
  }

  /** The last component of `a/k` is `k`, and what precedes it is `a`. */
  lemma LeafOfJoin(a: string, k: string)
    requires '/' !in k
    ensures LeafText(a + "/" + k) == k
    ensures ParentText(a + "/" + k) == a
  {
    var s := a + "/" + k;
    LastIndexOfBefore(a, k, '/');
    assert s[..|a|] == a;
    assert s[|a| + 1..] == k;
  }

  /** A non-empty path that does not end in a slash has a non-empty last
      component. */
  lemma LeafNonEmpty(path: string)
    requires path != "" && path[|path| - 1] != '/'
    ensures NameOk(LeafText(path))
  {
    assert '/' in path ==> path == ParentText(path) + "/" + LeafText(path);
  }

  /** Dropping one trailing slash does not change the components. */
  lemma ComponentsDropSlash(path: string)
    requires path != "" && path[|path| - 1] == '/'
    ensures Components(path[..|path| - 1]) == Components(path)
  {
    var a := path[..|path| - 1];
    assert path == a + "/" + "";
    ComponentsJoin(a, "");
    assert SplitSlash("") == [""];
    assert NonEmpty([""]) == NonEmpty([""][1..]);
    assert [""][1..] == [];
  }

  /** The components of `a/k`, for a member name `k`. */
  lemma ComponentsOfChild(a: string, k: string)
    requires NameOk(k)
    ensures Components(a + "/" + k) == Components(a) + [k]
  {
    ComponentsJoin(a, k);
    ComponentsOfName(k);
  }

  /** `a/k` does not end in a slash when `k` is a member name. */
  lemma JoinNoTrailingSlash(a: string, k: string)
    requires NameOk(k)
    ensures TrailingSlashes(a + "/" + k) == 0
    ensures (a + "/" + k)[|a + "/" + k| - 1] != '/'
  {
    var s := a + "/" + k;
    assert s[|s| - 1] == k[|k| - 1];
    assert k[|k| - 1] in k;
  }

  /** Number of trailing slashes. */
  function TrailingSlashes(s: string): (r: nat)
    ensures r <= |s|
    ensures r == |s| <==> forall i :: 0 <= i < |s| ==> s[i] == '/'
  {
    if s != [] && s[|s| - 1] == '/' then 1 + TrailingSlashes(s[..|s| - 1]) else 0
  }

  /** Rank of a character for ordering path strings: the separator sorts
      before every other character, which makes the order on strings agree
      with Python's order on `Path` objects (compared part by part); on names
      without separators it is plain code-point order. */
  function Rank(c: char): nat {
    if c == '/' then 0 else c as nat + 1
  }

  /** Strict lexicographic order on strings by `Rank`. */
  predicate Precedes(a: string, b: string) {
    if a == [] then b != []
    else if b == [] then false
    else if Rank(a[0]) != Rank(b[0]) then Rank(a[0]) < Rank(b[0])
    else Precedes(a[1..], b[1..])
  }

  lemma RankInjective(c: char, d: char)
    requires Rank(c) == Rank(d)
    ensures c == d
  {
  }

  lemma {:induction false} PrecedesIrreflexive(a: string)
    ensures !Precedes(a, a)
  {
    if a != [] {
      PrecedesIrreflexive(a[1..]);
    }
  }

  lemma {:induction false} PrecedesTransitive(a: string, b: string, c: string)
    requires Precedes(a, b) && Precedes(b, c)
    ensures Precedes(a, c)
  {
    if a != [] && b != [] && c != [] {
      if Rank(a[0]) == Rank(b[0]) && Rank(b[0]) == Rank(c[0]) {
        PrecedesTransitive(a[1..], b[1..], c[1..]);
      }
    }
  }

  lemma {:induction false} PrecedesTotal(a: string, b: string)
    requires a != b
    ensures Precedes(a, b) || Precedes(b, a)
  {
    if a != [] && b != [] {
      if Rank(a[0]) == Rank(b[0]) {
        RankInjective(a[0], b[0]);
        assert a == [a[0]] + a[1..] && b == [b[0]] + b[1..];
        PrecedesTotal(a[1..], b[1..]);
      }
    }
  }

  /** The element that `sorted(xs)[-1]` returns. */
  function Last(xs: seq<string>): (r: string)
    requires xs != []
    ensures r in xs
    ensures forall x :: x in xs ==> !Precedes(r, x)
  {
    if |xs| == 1 then
      PrecedesIrreflexive(xs[0]);
      xs[0]
    else
      var m := Last(xs[1..]);
      if Precedes(m, xs[0]) then
        assert forall x :: x in xs[1..] ==> !Precedes(xs[0], x) by {
          forall x | x in xs[1..] ensures !Precedes(xs[0], x) {
            if Precedes(xs[0], x) { PrecedesTransitive(m, xs[0], x); }
          }
        }
        PrecedesIrreflexive(xs[0]);
        assert xs == [xs[0]] + xs[1..];
        xs[0]
      else
        assert !Precedes(m, xs[0]);
        assert xs == [xs[0]] + xs[1..];
        m
  }

  predicate IsLeast(m: string, s: set<string>) {
    m in s && forall x :: x in s && x != m ==> Precedes(m, x)
  }

  /** Every non-empty finite set of names has a least element. */
  lemma {:induction false} HasLeast(s: set<string>)
    requires s != {}
    ensures exists m :: IsLeast(m, s)
    decreases |s|
  {
    var y :| y in s;
    if s != {y} {
      HasLeast(s - {y});
      var m' :| IsLeast(m', s - {y});
      if Precedes(y, m') {
        forall x | x in s && x != y ensures Precedes(y, x) {
          if x != m' { PrecedesTransitive(y, m', x); }
        }
        assert IsLeast(y, s);
      } else {
        PrecedesTotal(y, m');
        assert IsLeast(m', s);
      }
    } else {
      assert IsLeast(y, s);
    }
  }

  /** The least element is unique. */
  lemma LeastUnique(s: set<string>, m1: string, m2: string)
    requires IsLeast(m1, s) && IsLeast(m2, s)
    ensures m1 == m2
  {
    if m1 != m2 {
      PrecedesTransitive(m1, m2, m1);
      PrecedesIrreflexive(m1);
    }
  }

  /** The elements of a finite set of names in increasing order, as HDF5's
      name index lists the members of a group. */
  function Sorted(s: set<string>): (r: seq<string>)
    ensures |r| == |s|
    ensures forall x :: x in r <==> x in s
    ensures forall i, j :: 0 <= i < j < |r| ==> Precedes(r[i], r[j])
    decreases |s|
  {
    if s == {} then []
    else
      HasLeast(s);
      assert forall m1, m2 :: IsLeast(m1, s) && IsLeast(m2, s) ==> m1 == m2 by {
        forall m1, m2 | IsLeast(m1, s) && IsLeast(m2, s) ensures m1 == m2 {
          LeastUnique(s, m1, m2);
        }
      }
      var m :| IsLeast(m, s);
      var rest := Sorted(s - {m});
      SortedCons(s, m, rest);
      [m] + rest
  }

  /** The least element followed by the rest in order is the whole set in
      order. */
  lemma SortedCons(s: set<string>, m: string, rest: seq<string>)
    requires IsLeast(m, s)
    requires |rest| == |s - {m}|
    requires forall x :: x in rest <==> x in s - {m}
    requires forall i, j :: 0 <= i < j < |rest| ==> Precedes(rest[i], rest[j])
    ensures |[m] + rest| == |s|
    ensures forall x :: x in [m] + rest <==> x in s
    ensures forall i, j :: 0 <= i < j < |[m] + rest| ==> Precedes(([m] + rest)[i], ([m] + rest)[j])
  {
    var r := [m] + rest;
    forall i, j | 0 <= i < j < |r|
      ensures Precedes(r[i], r[j])
    {
      if i == 0 {
        assert r[j] == rest[j - 1] && r[j] in s - {m};
      } else {
        assert r[i] == rest[i - 1] && r[j] == rest[j - 1];
      }
    }
  }
}

=== FILE: translator.dfy ===
/** The translation engine (HDF5Translator/translator.py): the per-rule
    dataset pipeline, link creation, and the five phases of `translate`
    (tree copy, dataset rules, attributes, pruning, links), each written as a
    transformation of the destination file. */
module Translator {
  import opened Text
  import opened Values
  import opened Elements
  import opened DataUtils
  import opened Containers
  import opened Hdf5Utils

  /** Where a rule's data and attributes come from: the source dataset when a
      source file is open and the rule names a source, otherwise the rule's
      default and its own attributes. */
  function ReadRule(src: Option<Container>, e: TranslationElement, o: Oracles): (r: Result<(Value, Attrs)>)
    ensures !(src.Some? && TruthyText(e.source)) ==> r == Ok((e.defaultValue, e.attributes))
    ensures src.Some? && TruthyText(e.source) ==> r == GetDataAndAttributesFromSource(src.value, e, o)
  {
    if src.Some? && TruthyText(e.source) then GetDataAndAttributesFromSource(src.value, e, o)
    else Ok((e.defaultValue, e.attributes))
  }

  /** The conversion step: pint runs only when the effective source unit is
      truthy and the destination unit is a non-empty string; the truth test of
      an array unit of more than one element raises ValueError. */
  function ConvertUnits(data: Value, sourceUnits: Value, destinationUnits: Option<string>, o: Oracles): (r: Result<Value>)
    ensures r.Raised? <==> Truth(sourceUnits).Raised?
    ensures r.Raised? ==> r.exc == ValueError
    ensures Truth(sourceUnits) == Ok(false) ==> r == Ok(data)
    ensures Truth(sourceUnits) == Ok(true) && !TruthyText(destinationUnits) ==> r == Ok(data)
    ensures Truth(sourceUnits) == Ok(true) && TruthyText(destinationUnits) ==>
      r == Ok(PerformUnitConversion(data, sourceUnits, destinationUnits.value, o))
  {
    var convert :- Truth(sourceUnits);
    if convert && TruthyText(destinationUnits) then
      Ok(PerformUnitConversion(data, sourceUnits, destinationUnits.value, o))
    else Ok(data)
  }

  /** The attributes written with a rule's dataset: the source's attributes
      overridden by the rule's, then `units` set to the effective source unit
      (when not None) and overridden by the destination unit (when given);
      None values are dropped and the rest sanitised. */
  function FinalAttributes(sourceAttrs: Attrs, e: TranslationElement, sourceUnits: Value, o: Oracles): (r: Result<Attrs>)
    ensures r.Raised? ==> r.exc == ValueError
    ensures r.Ok? ==> forall k :: k in r.value ==> !r.value[k].Null?
    ensures r.Ok? ==> forall k :: k in r.value ==> k == "units" || k in e.attributes || k in sourceAttrs
    ensures r.Ok? && e.destinationUnits.Some? ==>
      "units" in r.value && Ok(r.value["units"]) == SanitizeAttribute(Str(e.destinationUnits.value), o)
    ensures r.Ok? && e.destinationUnits.None? && !sourceUnits.Null? ==>
      "units" in r.value && Ok(r.value["units"]) == SanitizeAttribute(sourceUnits, o)
    ensures r.Ok? ==> forall k :: k != "units" && k in e.attributes && !e.attributes[k].Null? ==>
      k in r.value && Ok(r.value[k]) == SanitizeAttribute(e.attributes[k], o)
    ensures r.Ok? ==> forall k :: k != "units" && k in e.attributes && e.attributes[k].Null? ==> k !in r.value
    ensures r.Ok? ==> forall k :: k != "units" && k !in e.attributes && k in sourceAttrs && !sourceAttrs[k].Null? ==>
      k in r.value && Ok(r.value[k]) == SanitizeAttribute(sourceAttrs[k], o)
  {
    var m := MergedAttributes(sourceAttrs, e, sourceUnits);
    var kept := DropNone(m);
    var r := SanitizeAttributes(kept, o);
    assert r.Ok? ==> forall k :: k in r.value ==> k in m;
    r
  }

  /** The merge before None values are dropped. */
  function MergedAttributes(sourceAttrs: Attrs, e: TranslationElement, sourceUnits: Value): (m: Attrs)
    ensures forall k :: k in m <==>
      (k == "units" && (e.destinationUnits.Some? || !sourceUnits.Null?)) || k in e.attributes || k in sourceAttrs
    ensures e.destinationUnits.Some? ==> "units" in m && m["units"] == Str(e.destinationUnits.value)
    ensures e.destinationUnits.None? && !sourceUnits.Null? ==> "units" in m && m["units"] == sourceUnits
    ensures forall k :: k != "units" && k in e.attributes ==> m[k] == e.attributes[k]
    ensures forall k :: k != "units" && k !in e.attributes && k in sourceAttrs ==> m[k] == sourceAttrs[k]
  {
    var merged := sourceAttrs + e.attributes;
    var withSource := if !sourceUnits.Null? then merged["units" := sourceUnits] else merged;
    if e.destinationUnits.Some? then withSource["units" := Str(e.destinationUnits.value)] else withSource
  }

  /** What a rule writes, in the fixed step order: read, sanitise and cast
      (None means the rule writes nothing), transformation, unit choice and
      conversion, dimension growth for non-strings, string-array flattening,
      attribute merge. `rev` selects the flattening: as written, or the
      corrected one that accepts string arrays of any rank. */
  function PrepareWrite(src: Option<Container>, e: TranslationElement, o: Oracles, rev: Revision): (r: Result<Option<(Value, Attrs)>>)
    ensures r == Ok(None) <==> ReadRule(src, e, o).Ok? && SanitizeData(ReadRule(src, e, o).value.0, e, o) == Ok(Null)
    ensures r.Ok? && r.value.Some? ==>
      ReadRule(src, e, o).Ok? &&
      var read := ReadRule(src, e, o).value;
      var units := SelectSourceUnits(e.sourceUnits, read.1);
      && SanitizeData(read.0, e, o).Ok?
      && ShapeValue(SanitizeData(read.0, e, o).value, units, e, o, rev) == Ok(r.value.value.0)
      && FinalAttributes(read.1, e, units, o) == Ok(r.value.value.1)
  {
    var read :- ReadRule(src, e, o);
    var d1 :- SanitizeData(read.0, e, o);
    if d1.Null? then Ok(None)
    else
      var units := SelectSourceUnits(e.sourceUnits, read.1);
      var d := ShapeValue(d1, units, e, o, rev);
      if d.Raised? then Raised(d.exc)
      else
        var attrs :- FinalAttributes(read.1, e, units, o);
        Ok(Some((d.value, attrs)))
  }

  /** The value steps of a rule after sanitising: the transformation (when
      set), the unit conversion, dimension growth for anything but text, and
      string-array flattening (as written or corrected). */
  function ShapeValue(v: Value, units: Value, e: TranslationElement, o: Oracles, rev: Revision): (r: Result<Value>)
    ensures r.Raised? ==> r.exc == ValueError || r.exc == TypeError
    ensures Truth(units).Raised? ==> r == Raised(ValueError)
    ensures !TransformationSet(e.transformation) && Truth(units).Ok? && !(Truth(units).value && TruthyText(e.destinationUnits)) ==>
      && (v.Str? ==> r == Ok(v))
      && (e.minimumDimensionality.None? && rev == AsWritten ==> r == FixIfArrayOfStrings(v))
      && (e.minimumDimensionality.None? && rev == Corrected ==> r == FlattenStringArray(v))
    ensures e.transformation.Callable? && o.transform(e.transformation.id, v).Some? &&
            Truth(units) == Ok(true) && TruthyText(e.destinationUnits) ==>
      var t := o.transform(e.transformation.id, v).value;
      o.convert(t, units, e.destinationUnits.value).Some? && o.convert(t, units, e.destinationUnits.value).value.Float? ==>
        r == Ok(AddDimensionsIfNeeded(o.convert(t, units, e.destinationUnits.value).value, e.minimumDimensionality))
    ensures Truth(units).Ok? ==>
      var t := if e.transformation.Callable? && o.transform(e.transformation.id, v).Some?
               then o.transform(e.transformation.id, v).value else v;
      var converts := Truth(units).value && TruthyText(e.destinationUnits);
      var w := if converts && o.convert(t, units, e.destinationUnits.value).Some?
               then o.convert(t, units, e.destinationUnits.value).value else t;
      var grown := AddDimensionsIfNeeded(w, e.minimumDimensionality);
      && (w.Str? ==> r == Ok(w))
      && (!w.Str? && rev == AsWritten ==> r == FixIfArrayOfStrings(grown))
      && (!w.Str? && rev == Corrected ==> r == FlattenStringArray(grown))
  {
    var d2 := if TransformationSet(e.transformation) then ApplyTransformation(v, e.transformation, o) else v;
    var d3 :- ConvertUnits(d2, units, e.destinationUnits, o);
    var d4 := if d3.Str? then d3 else AddDimensionsIfNeeded(d3, e.minimumDimensionality);
    if rev == AsWritten then FixIfArrayOfStrings(d4) else FlattenStringArray(d4)
  }

  /** An empty destination unit skips the conversion yet is still stored
      as the `units` attribute (as the empty string, which float() rejects). */
  lemma EmptyDestinationUnits(data: Value, sourceAttrs: Attrs, e: TranslationElement, sourceUnits: Value, o: Oracles)
    requires e.destinationUnits == Some("")
    requires o.parseFloat("").None?
    ensures ConvertUnits(data, sourceUnits, e.destinationUnits, o).Ok? ==>
      ConvertUnits(data, sourceUnits, e.destinationUnits, o) == Ok(data)
    ensures FinalAttributes(sourceAttrs, e, sourceUnits, o).Ok? ==>
      FinalAttributes(sourceAttrs, e, sourceUnits, o).value["units"] == Str("")
  {
    assert !TruthyText(e.destinationUnits);
    assert Strip("") == "";
    assert !LooksLikeArray(Strip(""));
  }

  /** Without a source the rule's own attributes are the attribute set, so a
      `units` key the rule declares beats its `source_units` and ends up as
      the dataset's `units` (unless a destination unit is given). */
  lemma RuleUnitsBeatSourceUnits(src: Option<Container>, e: TranslationElement, o: Oracles, rev: Revision, d: Value, a: Attrs)
    requires !(src.Some? && TruthyText(e.source))
    requires "units" in e.attributes && !e.attributes["units"].Null?
    requires e.destinationUnits.None?
    requires PrepareWrite(src, e, o, rev) == Ok(Some((d, a)))
    ensures "units" in a && Ok(a["units"]) == SanitizeAttribute(e.attributes["units"], o)
  {
    var read := ReadRule(src, e, o).value;
    assert read.1 == e.attributes;
    assert SelectSourceUnits(e.sourceUnits, read.1) == e.attributes["units"];
  }

  /** Whether the rule's value goes through pint: only for a truthy
      effective source unit and a non-empty destination unit. */
  predicate Converts(e: TranslationElement, sourceAttrs: Attrs) {
    Truth(SelectSourceUnits(e.sourceUnits, sourceAttrs)) == Ok(true) && TruthyText(e.destinationUnits)
  }

  /** A value that is still text after the transformation and the unit step
      is written as it is: neither grown to the minimum rank nor flattened. */
  lemma TextIsNeverReshaped(src: Option<Container>, e: TranslationElement, o: Oracles, rev: Revision,
                            t: string, d: Value, a: Attrs)
    requires ReadRule(src, e, o).Ok? && SanitizeData(ReadRule(src, e, o).value.0, e, o) == Ok(Str(t))
    requires !TransformationSet(e.transformation) && !Converts(e, ReadRule(src, e, o).value.1)
    requires PrepareWrite(src, e, o, rev) == Ok(Some((d, a)))
    ensures d == Str(t)
  {
  }

  /** Without a transformation, a unit conversion or a minimum rank, the
      written value is the sanitised value after string-array flattening,
      and so the sanitised value itself when it is no string array. */
  lemma PlainRuleWritesSanitised(src: Option<Container>, e: TranslationElement, o: Oracles, rev: Revision,
                                 v: Value, d: Value, a: Attrs)
    requires ReadRule(src, e, o).Ok? && SanitizeData(ReadRule(src, e, o).value.0, e, o) == Ok(v)
    requires !TransformationSet(e.transformation) && !Converts(e, ReadRule(src, e, o).value.1)
    requires e.minimumDimensionality.None?
    requires PrepareWrite(src, e, o, rev) == Ok(Some((d, a)))
    ensures rev == AsWritten ==> FixIfArrayOfStrings(v) == Ok(d)
    ensures rev == Corrected ==> FlattenStringArray(v) == Ok(d)
    ensures !(v.Array? && IsStringKind(v.arr.dtype.kind)) ==> d == v
  {
  }

  /** The transformation runs before the unit conversion: pint receives the
      transformed value, and a numeric result is then grown to the rule's
      minimum rank. */
  lemma ConversionSeesTransformed(src: Option<Container>, e: TranslationElement, o: Oracles, rev: Revision,
                                  v: Value, t: Value, y: real, d: Value, a: Attrs)
    requires ReadRule(src, e, o).Ok? && SanitizeData(ReadRule(src, e, o).value.0, e, o) == Ok(v)
    requires e.transformation.Callable? && o.transform(e.transformation.id, v) == Some(t)
    requires Converts(e, ReadRule(src, e, o).value.1)
    requires o.convert(t, SelectSourceUnits(e.sourceUnits, ReadRule(src, e, o).value.1), e.destinationUnits.value) == Some(Float(y))
    requires PrepareWrite(src, e, o, rev) == Ok(Some((d, a)))
    ensures d == AddDimensionsIfNeeded(Float(y), e.minimumDimensionality)
  {
  }

  /** A callable transformation's result is what the rule writes when no
      unit conversion, minimum rank or string flattening applies to it. */
  lemma TransformedValueWritten(src: Option<Container>, e: TranslationElement, o: Oracles, rev: Revision,
                                v: Value, t: Value, d: Value, a: Attrs)
    requires ReadRule(src, e, o).Ok? && SanitizeData(ReadRule(src, e, o).value.0, e, o) == Ok(v)
    requires e.transformation.Callable? && o.transform(e.transformation.id, v) == Some(t)
    requires !Converts(e, ReadRule(src, e, o).value.1) && e.minimumDimensionality.None?
    requires !(t.Array? && IsStringKind(t.arr.dtype.kind))
    requires PrepareWrite(src, e, o, rev) == Ok(Some((d, a)))
    ensures d == t
  {
    var units := SelectSourceUnits(e.sourceUnits, ReadRule(src, e, o).value.1);
    assert ShapeValue(v, units, e, o, rev) == Ok(d);
    assert Truth(units).Ok?;
    TransformOnlyShape(v, units, e, o, rev, t);
  }

  /** The value steps with a transformation and nothing else: the
      transformed value comes out unchanged unless it is a string array. */
  lemma TransformOnlyShape(v: Value, units: Value, e: TranslationElement, o: Oracles, rev: Revision, t: Value)
    requires e.transformation.Callable? && o.transform(e.transformation.id, v) == Some(t)
    requires Truth(units).Ok? && !(Truth(units).value && TruthyText(e.destinationUnits))
    requires e.minimumDimensionality.None?
    requires !(t.Array? && IsStringKind(t.arr.dtype.kind))
    ensures ShapeValue(v, units, e, o, rev) == Ok(t)
  {
    assert AddDimensionsIfNeeded(t, e.minimumDimensionality) == t;
  }

  /** A rule without a source, with default 42 and data type "float", writes
      what `float(42)` gives, with no attributes. */
  lemma DefaultIsCast(src: Option<Container>, o: Oracles, rev: Revision)
    requires o.construct(TypeName(Builtins, "float"), Int(42)) == Cast(Float(42.0))
    ensures var e := TranslationElement("/entry/value", None, None, TypeName(Builtins, "float"), None, None,
                                        NoTransform, None, map[], Int(42), None);
            PrepareWrite(src, e, o, rev) == Ok(Some((Float(42.0), map[])))
  {
    var e := TranslationElement("/entry/value", None, None, TypeName(Builtins, "float"), None, None,
                                NoTransform, None, map[], Int(42), None);
    assert ReadRule(src, e, o) == Ok((Int(42), map[]));
    assert SanitizeData(Int(42), e, o) == Ok(Float(42.0));
    assert FinalAttributes(map[], e, Null, o) == Ok(map[]) by {
      assert MergedAttributes(map[], e, Null) == map[];
    }
  }

  /** `process_translation_element`: nothing happens when the sanitised
      value is None; otherwise exactly one `write_dataset` at the rule's
      destination, which leaves everything outside that path as it was. */
  function ProcessTranslationElement(src: Option<Container>, c: Container, e: TranslationElement, o: Oracles, rev: Revision): (r: Result<Container>)
    requires Valid(c)
    ensures PrepareWrite(src, e, o, rev) == Ok(None) ==> r == Ok(c)
    ensures PrepareWrite(src, e, o, rev).Raised? ==> r.Raised?
    ensures r.Ok? ==> Valid(r.value)
    ensures r.Ok? ==>
      var p := Components(e.destination);
      && (forall q :: q in c.entries && !(p <= q) ==> q in r.value.entries && r.value.entries[q] == c.entries[q])
      && (forall q :: q in r.value.entries ==> q in c.entries || q <= p)
    ensures r.Ok? && PrepareWrite(src, e, o, rev).value.Some? ==>
      var w := PrepareWrite(src, e, o, rev).value.value;
      var n := NodeAt(r.value, Components(e.destination));
      && n.Some? && n.value.Dataset?
      && n.value.value == w.0
      && (forall k :: k in w.1 ==> k in n.value.attrs && n.value.attrs[k] == w.1[k])
    ensures (rev == AsWritten && ParentText(e.destination) == "" && PrepareWrite(src, e, o, rev).Ok? &&
            PrepareWrite(src, e, o, rev).value.Some?) ==> r == Raised(ValueError)
    ensures r.Ok? ==> FreshLinks(c, r.value) && ObjectsKeptBut(c, r.value, Components(e.destination))
  {
    var w :- PrepareWrite(src, e, o, rev);
    if w.None? then Ok(c)
    else
      WriteDatasetKeepsOtherObjects(c, e.destination, w.value.0, e.compression, w.value.1, rev);
      WriteDataset(c, e.destination, w.value.0, e.compression, w.value.1, rev)
  }

  /** A rule that writes text with a compression filter always fails, so
      such a rule can only write numbers or arrays. */
  lemma CompressedTextRuleRaises(src: Option<Container>, c: Container, e: TranslationElement, o: Oracles, rev: Revision,
                                 text: string, a: Attrs)
    requires Valid(c)
    requires PrepareWrite(src, e, o, rev) == Ok(Some((Str(text), a)))
    requires e.compression.Some? && e.compression.value != ""
    ensures ProcessTranslationElement(src, c, e, o, rev).Raised?
  {
    CompressedTextRaises(c, e.destination, text, e.compression.value, a, rev);
  }

  /** Link creation at a path that does not exist: intermediate groups are
      created as needed, then the link is stored. */
  function Attach(c: Container, p: Path, link: Entry): (r: Result<Container>)
    requires Valid(c) && WellNamed(p) && p != [] && p !in c.entries
    requires link.Hard? ==> link.id in c.nodes
    ensures r.Raised? <==> Blocked(c, Parent(p))
    ensures r.Raised? ==> r.exc == TypeError
    ensures r.Ok? ==> Valid(r.value) && Extends(c, r.value)
    ensures r.Ok? ==> p in r.value.entries && r.value.entries[p] == link
    ensures r.Ok? ==> forall q :: q in r.value.entries ==> q in c.entries || q <= p
  {
    var c1 :- RequireGroup(c, Parent(p));
    assert !(p <= Parent(p));
    Ok(AddLink(c1, p, link))
  }

  /** Whether the link's source is present: in the destination file for an
      internal link, in the opened source file otherwise. */
  predicate SourcePresent(h5in: Option<Container>, c: Container, e: LinkElement) {
    && e.sourcePath.Some?
    && if e.internalOrExternal == Some("internal") then Contains(c, e.sourcePath.value)
       else h5in.Some? && Contains(h5in.value, e.sourcePath.value)
  }

  /** The presence check looks in the file the link reads from: the
      destination for an internal link, the opened source file otherwise. A
      source missing there skips the link, whatever the other file holds. */
  lemma SourceCheckedInItsFile(h5in: Option<Container>, relPath: string, c: Container, e: LinkElement)
    requires Valid(c) && e.sourcePath.Some?
    ensures e.internalOrExternal == Some("internal") && !Contains(c, e.sourcePath.value) ==>
      ProcessLinkElement(h5in, relPath, c, e) == Ok(c)
    ensures e.internalOrExternal != Some("internal") && h5in.Some? && !Contains(h5in.value, e.sourcePath.value) ==>
      ProcessLinkElement(h5in, relPath, c, e) == Ok(c)
  {
  }

  /** The link itself, once the destination path is free: `h5_out[dest] =
      link`. HDF5 refuses the empty name with ValueError; for a hard link
      the source object is looked up first, so a source that leads nowhere
      raises KeyError before that. */
  function CreateLink(c: Container, dest: string, e: LinkElement, relPath: string): (r: Result<Container>)
    requires Valid(c) && (dest != "" ==> Components(dest) !in c.entries)
    requires e.sourcePath.Some?
    ensures r.Ok? ==> Valid(r.value) && Extends(c, r.value)
    ensures r.Ok? ==> forall q :: q in r.value.entries ==> q in c.entries || q <= Components(dest)
    ensures r.Raised? ==> r.exc == TypeError || r.exc == KeyError || r.exc == ValueError
    ensures dest == "" && (e.internalOrExternal != Some("internal") || e.softOrHardLink == Some("soft")) ==>
      r == Raised(ValueError)
    ensures (dest == "" && e.internalOrExternal == Some("internal") && e.softOrHardLink == Some("hard") &&
             Resolve(c, Components(e.sourcePath.value)).Some?) ==> r == Raised(ValueError)
    ensures r.Ok? && e.internalOrExternal == Some("internal") && e.softOrHardLink == Some("soft") ==>
      var dp := Components(dest);
      dp in r.value.entries && r.value.entries[dp] == SoftLink(e.sourcePath.value)
    ensures r.Ok? && e.internalOrExternal == Some("internal") && e.softOrHardLink == Some("hard") ==>
      var dp := Components(dest);
      && Resolve(c, Components(e.sourcePath.value)).Some?
      && dp in r.value.entries
      && r.value.entries[dp] == Hard(Resolve(c, Components(e.sourcePath.value)).value)
    ensures (e.internalOrExternal == Some("internal") && e.softOrHardLink == Some("hard") &&
             Resolve(c, Components(e.sourcePath.value)).None?) ==> r == Raised(KeyError)
    ensures e.internalOrExternal == Some("internal") && e.softOrHardLink != Some("soft") && e.softOrHardLink != Some("hard") ==>
      r == Ok(c)
    ensures r.Ok? && e.internalOrExternal != Some("internal") ==>
      var dp := Components(dest);
      dp in r.value.entries && r.value.entries[dp] == ExternalLink(relPath, e.sourcePath.value)
  {
    assert Valid(c) && [] in c.entries;
    var sp := e.sourcePath.value;
    var dp := Components(dest);
    if e.internalOrExternal == Some("internal") then
      if e.softOrHardLink == Some("soft") then
        if dest == "" then Raised(ValueError) else Attach(c, dp, SoftLink(sp))
      else if e.softOrHardLink == Some("hard") then
        match Resolve(c, Components(sp))
        case None => Raised(KeyError)
        case Some(id) => if dest == "" then Raised(ValueError) else Attach(c, dp, Hard(id))
      else Ok(c)
    else if dest == "" then Raised(ValueError)
    else Attach(c, dp, ExternalLink(relPath, sp))
  }

  /** The part of `process_link_element` after the presence check: an
      existing destination is deleted first (the root cannot be, KeyError);
      then the link is created. Only the destination path and the groups
      above it change, and no object's contents. */
  function ReplaceLink(relPath: string, c: Container, e: LinkElement): (r: Result<Container>)
    requires Valid(c) && e.sourcePath.Some?
    ensures e.destinationPath != "" && Components(e.destinationPath) == [] ==> r == Raised(KeyError)
    ensures e.destinationPath == "" ==>
      && (e.internalOrExternal != Some("internal") || e.softOrHardLink == Some("soft") ==> r == Raised(ValueError))
      && (e.internalOrExternal == Some("internal") && e.softOrHardLink == Some("hard") ==>
            r == Raised(if Resolve(c, Components(e.sourcePath.value)).None? then KeyError else ValueError))
    ensures e.destinationPath == "" && r.Ok? ==> r.value == c
    ensures r.Ok? ==> Valid(r.value) && NodesKept(c, r.value)
    ensures r.Ok? ==>
      var dp := Components(e.destinationPath);
      && (forall q :: q in c.entries && !(dp <= q) ==> q in r.value.entries && r.value.entries[q] == c.entries[q])
      && (forall q :: q in r.value.entries ==> q in c.entries || q <= dp)
    ensures r.Ok? && e.internalOrExternal == Some("internal") && e.softOrHardLink == Some("soft") ==>
      var dp := Components(e.destinationPath);
      dp in r.value.entries && r.value.entries[dp] == SoftLink(e.sourcePath.value)
    ensures r.Ok? && e.internalOrExternal == Some("internal") && e.softOrHardLink == Some("hard") ==>
      var dp := Components(e.destinationPath);
      && dp in r.value.entries && r.value.entries[dp].Hard?
      && r.value.entries[dp].id in c.nodes && r.value.nodes[r.value.entries[dp].id] == c.nodes[r.value.entries[dp].id]
    ensures (r.Ok? && e.internalOrExternal == Some("internal") &&
             e.softOrHardLink != Some("soft") && e.softOrHardLink != Some("hard")) ==>
      e.destinationPath == "" || Components(e.destinationPath) !in r.value.entries
    ensures r.Ok? && e.internalOrExternal != Some("internal") ==>
      var dp := Components(e.destinationPath);
      dp in r.value.entries && r.value.entries[dp] == ExternalLink(relPath, e.sourcePath.value)
  {
    var dp := Components(e.destinationPath);
    var c1 :- if Contains(c, e.destinationPath) then Delete(c, dp) else Ok(c);
    CreateLink(c1, e.destinationPath, e, relPath)
  }

  /** `process_link_element`: skipped without a source path or when the
      source is absent (a TypeError for an external link without a source
      file); otherwise the destination is replaced by the link. */
  function ProcessLinkElement(h5in: Option<Container>, relPath: string, c: Container, e: LinkElement): (r: Result<Container>)
    requires Valid(c)
    ensures e.sourcePath.None? ==> r == Ok(c)
    ensures e.sourcePath.Some? && e.internalOrExternal != Some("internal") && h5in.None? ==> r == Raised(TypeError)
    ensures e.sourcePath.Some? && !(e.internalOrExternal != Some("internal") && h5in.None?) && !SourcePresent(h5in, c, e) ==>
      r == Ok(c)
    ensures SourcePresent(h5in, c, e) ==> r == ReplaceLink(relPath, c, e)
    ensures r.Ok? ==> Valid(r.value) && NodesKept(c, r.value)
    ensures e.destinationPath == "" && r.Ok? ==> r.value == c
    ensures r.Ok? ==>
      var dp := Components(e.destinationPath);
      && (forall q :: q in c.entries && !(dp <= q) ==> q in r.value.entries && r.value.entries[q] == c.entries[q])
      && (forall q :: q in r.value.entries ==> q in c.entries || q <= dp)
  {
    if e.sourcePath.None? then Ok(c)
    else if e.internalOrExternal != Some("internal") && h5in.None? then Raised(TypeError)
    else if !SourcePresent(h5in, c, e) then Ok(c)
    else ReplaceLink(relPath, c, e)
  }

  /** What the translator sees of the file system: the files `h5py.File`
      can open, by name (each an HDF5 file); the names `Path.is_file`
      accepts, which include those and any other existing file; the matches
      of a glob pattern relative to the destination's directory; and a
      file's path relative to that directory. */
  datatype Env = Env(files: map<string, Container>, isFile: set<string>, glob: string -> seq<string>, relPath: string -> string)

  predicate EnvValid(env: Env) {
    && (forall f :: f in env.files ==> Valid(env.files[f]))
    && env.files.Keys <= env.isFile
  }

  /** The configuration's five lists. `attributes` is None when the
      configuration has no `attributes` key. */
  datatype Config = Config(
    treeCopy: seq<(string, string)>,
    dataCopy: seq<TranslationItem>,
    attributes: Option<seq<(string, Attrs)>>,
    pruneList: seq<string>,
    linkList: seq<LinkItem>)

  // Step 1: tree copies

  /** No tree copy's destination lies strictly above `q`. */
  predicate OutsideTrees(q: Path, trees: seq<(string, string)>) {
    forall i :: 0 <= i < |trees| ==> !(Components(trees[i].1) < q)
  }

  /** The tree copies, in order, all from the source file (TypeError without
      one, OSError when it cannot be opened). Each copy changes only what lies
      below its destination. */
  function TreeCopyPhase(env: Env, sourceFile: Option<string>, c: Container, trees: seq<(string, string)>, rev: Revision): (r: Result<Container>)
    requires EnvValid(env) && Valid(c)
    ensures trees == [] ==> r == Ok(c)
    ensures trees != [] && sourceFile.None? ==> r == Raised(TypeError)
    ensures trees != [] && sourceFile.Some? && sourceFile.value !in env.files ==> r == Raised(OSError)
    ensures r.Ok? ==> Valid(r.value) && NodesKept(c, r.value)
    ensures r.Ok? ==> forall q :: q in c.entries && OutsideTrees(q, trees) ==>
      q in r.value.entries && r.value.entries[q] == c.entries[q]
    decreases |trees|
  {
    if trees == [] then Ok(c)
    else if sourceFile.None? then Raised(TypeError)
    else if sourceFile.value !in env.files then Raised(OSError)
    else
      var step :- CopyTree(env.files[sourceFile.value], c, trees[0].0, trees[0].1, rev);
      var r := TreeCopyPhase(env, sourceFile, step.1, trees[1..], rev);
      assert r.Ok? ==> NodesKept(c, r.value) by {
        assert NodesKept(c, step.1);
      }
      assert r.Ok? ==> forall q :: q in c.entries && OutsideTrees(q, trees) ==>
        q in r.value.entries && r.value.entries[q] == c.entries[q] by {
        if r.Ok? {
          forall q | q in c.entries && OutsideTrees(q, trees)
            ensures q in r.value.entries && r.value.entries[q] == c.entries[q]
          {
            assert !(Components(trees[0].1) < q);
            assert OutsideTrees(q, trees[1..]) by {
              forall i | 0 <= i < |trees| - 1
                ensures !(Components(trees[1..][i].1) < q)
              {
                assert trees[1..][i] == trees[i + 1];
              }
            }
          }
        }
      }
      r
  }

  // Step 2: dataset rules

  /** What a dataset rule reads from: nothing to read (no source file given),
      an opened file, a skip when its file does not resolve to an existing
      file, or an existing file that does not open as HDF5 (OSError). */
  datatype Input = Skip | Unopenable | Read(src: Option<Container>)

  /** The file a rule reads when a source file is given: its alternate file
      (resolved relative to the destination) or the main source file; the rule
      is skipped when that is no existing file, and an existing file that is
      not an HDF5 file cannot be opened. */
  function RuleInput(env: Env, sourceFile: Option<string>, e: TranslationElement): (r: Input)
    requires EnvValid(env)
    ensures sourceFile.None? ==> r == Read(None)
    ensures sourceFile.Some? && e.alternateSourceFile.None? ==>
      r == if sourceFile.value in env.files then Read(Some(env.files[sourceFile.value]))
           else if sourceFile.value in env.isFile then Unopenable
           else Skip
    ensures sourceFile.Some? && e.alternateSourceFile.Some? ==>
      var alt := ResolveAlternateSourceFile(e.alternateSourceFile.value, env.glob(e.alternateSourceFile.value), env.isFile);
      r == if alt.None? then Skip
           else if alt.value in env.files then Read(Some(env.files[alt.value]))
           else Unopenable
    ensures r.Read? && r.src.Some? ==> Valid(r.src.value)
  {
    if sourceFile.None? then Read(None)
    else
      var sf := if e.alternateSourceFile.Some? then
        ResolveAlternateSourceFile(e.alternateSourceFile.value, env.glob(e.alternateSourceFile.value), env.isFile)
      else Some(sourceFile.value);
      if sf.None? || sf.value !in env.isFile then Skip
      else if sf.value in env.files then Read(Some(env.files[sf.value]))
      else Unopenable
  }

  /** One dataset rule of the phase: a skipped rule changes nothing; a rule
      that reads writes at most its destination, which then holds the
      prepared value and attributes, and leaves everything that is not at or
      below that destination as it was. */
  function DataStep(env: Env, sourceFile: Option<string>, c: Container, e: TranslationElement, o: Oracles, rev: Revision): (r: Result<Container>)
    requires EnvValid(env) && Valid(c)
    ensures RuleInput(env, sourceFile, e).Skip? ==> r == Ok(c)
    ensures RuleInput(env, sourceFile, e).Unopenable? ==> r == Raised(OSError)
    ensures RuleInput(env, sourceFile, e).Read? ==>
      var w := PrepareWrite(RuleInput(env, sourceFile, e).src, e, o, rev);
      && (w == Ok(None) ==> r == Ok(c))
      && (w.Raised? ==> r.Raised?)
      && (w.Ok? && w.value.Some? && r.Ok? ==> Holds(r.value, e.destination, w.value.value.0, w.value.value.1))
    ensures r.Ok? ==> Valid(r.value)
    ensures r.Ok? ==>
      var p := Components(e.destination);
      && (forall q :: q in c.entries && !(p <= q) ==> q in r.value.entries && r.value.entries[q] == c.entries[q])
      && (forall q :: q in r.value.entries ==> q in c.entries || q <= p)
    ensures r.Ok? ==> FreshLinks(c, r.value) && ObjectsKeptBut(c, r.value, Components(e.destination))
  {
    match RuleInput(env, sourceFile, e)
    case Skip => Ok(c)
    case Unopenable => Raised(OSError)
    case Read(src) => ProcessTranslationElement(src, c, e, o, rev)
  }

  /** A rule whose alternate-file pattern last matches an existing file
      that is not an HDF5 file is not skipped: opening it raises OSError. */
  lemma UnopenableAlternateRaises(env: Env, sourceFile: Option<string>, c: Container, e: TranslationElement, o: Oracles, rev: Revision)
    requires EnvValid(env) && Valid(c) && sourceFile.Some?
    requires e.alternateSourceFile.Some? && IsPattern(e.alternateSourceFile.value)
    requires env.glob(e.alternateSourceFile.value) != []
    requires Last(env.glob(e.alternateSourceFile.value)) in env.isFile
    requires Last(env.glob(e.alternateSourceFile.value)) !in env.files
    ensures DataStep(env, sourceFile, c, e, o, rev) == Raised(OSError)
  {
    var ms := env.glob(e.alternateSourceFile.value);
    var alt := ResolveAlternateSourceFile(e.alternateSourceFile.value, ms, env.isFile);
    assert alt.Some?;
    if alt.value != Last(ms) {
      PrecedesTotal(alt.value, Last(ms));
    }
  }

  /** No rule's destination lies at or above `q`. */
  predicate OutsideRules(q: Path, es: seq<TranslationElement>) {
    forall i :: 0 <= i < |es| ==> !(Components(es[i].destination) <= q)
  }

  /** The dataset rules, in order. Only paths at or below some rule's
      destination change. */
  function DataPhase(env: Env, sourceFile: Option<string>, c: Container, es: seq<TranslationElement>, o: Oracles, rev: Revision): (r: Result<Container>)
    requires EnvValid(env) && Valid(c)
    ensures es == [] ==> r == Ok(c)
    ensures r.Ok? ==> Valid(r.value)
    ensures r.Ok? ==> forall q :: q in c.entries && OutsideRules(q, es) ==>
      q in r.value.entries && r.value.entries[q] == c.entries[q]
    decreases |es|
  {
    if es == [] then Ok(c)
    else
      var prefix := es[..|es| - 1];
      var c1 :- DataPhase(env, sourceFile, c, prefix, o, rev);
      var r := DataStep(env, sourceFile, c1, es[|es| - 1], o, rev);
      assert r.Ok? ==> forall q :: q in c.entries && OutsideRules(q, es) ==>
        q in r.value.entries && r.value.entries[q] == c.entries[q] by {
        if r.Ok? {
          forall q | q in c.entries && OutsideRules(q, es)
            ensures q in r.value.entries && r.value.entries[q] == c.entries[q]
          {
            assert !(Components(es[|es| - 1].destination) <= q);
            assert OutsideRules(q, prefix) by {
              forall i | 0 <= i < |prefix|
                ensures !(Components(prefix[i].destination) <= q)
              {
                assert prefix[i] == es[i];
              }
            }
          }
        }
      }
      r
  }

  /** The destination of a rule that writes holds what it wrote. */
  predicate Holds(c: Container, dest: string, d: Value, a: Attrs) {
    var n := NodeAt(c, Components(dest));
    && n.Some? && n.value.Dataset? && n.value.value == d
    && forall k :: k in a ==> k in n.value.attrs && n.value.attrs[k] == a[k]
  }

  /** The file before the last rule, from which that rule's step gives the
      phase's result. */
  lemma BeforeLastRule(env: Env, sourceFile: Option<string>, c: Container, es: seq<TranslationElement>,
                       o: Oracles, rev: Revision, r: Container) returns (c1: Container)
    requires EnvValid(env) && Valid(c) && es != []
    requires DataPhase(env, sourceFile, c, es, o, rev) == Ok(r)
    ensures Valid(c1) && DataStep(env, sourceFile, c1, es[|es| - 1], o, rev) == Ok(r)
  {
    c1 := DataPhase(env, sourceFile, c, es[..|es| - 1], o, rev).value;
  }

  /** For rules sharing a destination the last one wins: when the last rule
      writes, its value is what the destination holds after the phase, and its
      attributes are among the destination's. */
  lemma LastRuleWins(env: Env, sourceFile: Option<string>, c: Container, es: seq<TranslationElement>,
                     e: TranslationElement, o: Oracles, rev: Revision,
                     src: Option<Container>, d: Value, a: Attrs, r: Container)
    requires EnvValid(env) && Valid(c) && es != [] && es[|es| - 1] == e
    requires RuleInput(env, sourceFile, e) == Read(src)
    requires PrepareWrite(src, e, o, rev) == Ok(Some((d, a)))
    requires DataPhase(env, sourceFile, c, es, o, rev) == Ok(r)
    ensures Holds(r, e.destination, d, a)
  {
    var c1 := BeforeLastRule(env, sourceFile, c, es, o, rev, r);
  }

  /** The paths the dataset rules write to, in order. */
  function RuleDestinations(es: seq<TranslationElement>): (r: seq<Path>)
    ensures |r| == |es| && forall i :: 0 <= i < |es| ==> r[i] == Components(es[i].destination)
  {
    if es == [] then [] else RuleDestinations(es[..|es| - 1]) + [Components(es[|es| - 1].destination)]
  }

  /** The dataset rules change at most the objects their destinations lead
      to in the file before the phase (an object reached through another
      hard link included); every other object keeps its contents, and every
      new link is a hard link to a new object. */
  lemma {:induction false} DataPhaseKeepsUntargeted(env: Env, sourceFile: Option<string>, c: Container, es: seq<TranslationElement>,
                                                    o: Oracles, rev: Revision)
    requires EnvValid(env) && Valid(c)
    ensures var r := DataPhase(env, sourceFile, c, es, o, rev);
      r.Ok? ==> FreshLinks(c, r.value) && ObjectsKeptOutside(c, r.value, RuleDestinations(es))
    decreases |es|
  {
    var r := DataPhase(env, sourceFile, c, es, o, rev);
    if es != [] && r.Ok? {
      var prefix := es[..|es| - 1];
      var c1 := DataPhase(env, sourceFile, c, prefix, o, rev).value;
      DataPhaseKeepsUntargeted(env, sourceFile, c, prefix, o, rev);
      assert RuleDestinations(es) == RuleDestinations(prefix) + [Components(es[|es| - 1].destination)];
      KeptOutsideThenOne(c, c1, r.value, RuleDestinations(prefix), Components(es[|es| - 1].destination));
    }
  }

  // Step 3: attributes

  /** One entry of the `attributes` mapping: its values are sanitised; a
      location that does not exist is created as a group; then the object's
      attributes are updated, keeping those not mentioned. */
  function AttributeStep(c: Container, location: string, ad: Attrs, o: Oracles): (r: Result<Container>)
    requires Valid(c)
    ensures SanitizeAttributes(ad, o).Raised? ==> r == Raised(ValueError)
    ensures SanitizeAttributes(ad, o).Ok? && location == "" ==> r == Raised(ValueError)
    ensures r.Raised? ==> r.exc == ValueError || r.exc == TypeError || r.exc == KeyError
    ensures r.Ok? ==> Valid(r.value)
    ensures r.Ok? ==> forall q :: q in c.entries ==> q in r.value.entries && r.value.entries[q] == c.entries[q]
    ensures r.Ok? ==> forall q :: q in r.value.entries && q !in c.entries ==> q <= Components(location)
    ensures r.Ok? ==>
      && SanitizeAttributes(ad, o).Ok?
      && var sa := SanitizeAttributes(ad, o).value;
      var p := Components(location);
      && NodeAt(r.value, p).Some?
      && (Contains(c, location) ==>
            NodeAt(c, p).Some? && NodeAt(r.value, p).value == NodeAt(c, p).value.(attrs := NodeAt(c, p).value.attrs + sa))
      && (!Contains(c, location) ==> NodeAt(r.value, p) == Some(Group(sa)))
    ensures r.Ok? ==> FreshLinks(c, r.value) && ObjectsKeptBut(c, r.value, Components(location))
  {
    var sa :- SanitizeAttributes(ad, o);
    var p := Components(location);
    var c1 :- if Contains(c, location) then Ok(c) else RequireGroupText(c, location);
    assert !Contains(c, location) ==> NodeAt(c1, p) == Some(Group(map[]));
    assert map[] + sa == sa;
    UpdateAttrs(c1, p, sa)
  }

  function AttributeList(c: Container, entries: seq<(string, Attrs)>, o: Oracles): (r: Result<Container>)
    requires Valid(c)
    ensures entries == [] ==> r == Ok(c)
    ensures r.Ok? ==> Valid(r.value)
    ensures r.Ok? ==> forall q :: q in c.entries ==> q in r.value.entries && r.value.entries[q] == c.entries[q]
    decreases |entries|
  {
    if entries == [] then Ok(c)
    else
      var c1 :- AttributeStep(c, entries[0].0, entries[0].1, o);
      AttributeList(c1, entries[1..], o)
  }

  /** The objects the attribute entries name, in order. */
  function AttributeLocations(entries: seq<(string, Attrs)>): (r: seq<Path>)
    ensures |r| == |entries| && forall i :: 0 <= i < |entries| ==> r[i] == Components(entries[i].0)
  {
    if entries == [] then [] else [Components(entries[0].0)] + AttributeLocations(entries[1..])
  }

  /** The attribute entries change at most the objects their locations lead
      to in the file before them; every other object keeps its contents, and
      every new link is a hard link to a new group. */
  lemma {:induction false} AttributeListKeepsUntargeted(c: Container, entries: seq<(string, Attrs)>, o: Oracles)
    requires Valid(c)
    ensures var r := AttributeList(c, entries, o);
      r.Ok? ==> FreshLinks(c, r.value) && ObjectsKeptOutside(c, r.value, AttributeLocations(entries))
    decreases |entries|
  {
    var r := AttributeList(c, entries, o);
    if entries != [] && r.Ok? {
      var c1 := AttributeStep(c, entries[0].0, entries[0].1, o).value;
      AttributeListKeepsUntargeted(c1, entries[1..], o);
      assert AttributeLocations(entries) == [Components(entries[0].0)] + AttributeLocations(entries[1..]);
      OneThenKeptOutside(c, c1, r.value, Components(entries[0].0), AttributeLocations(entries[1..]));
    }
  }

  /** The objects the attribute phase may change: the locations of its
      entries, none without an `attributes` key. */
  function AttributeTargets(attributes: Option<seq<(string, Attrs)>>): seq<Path> {
    if attributes.None? then [] else AttributeLocations(attributes.value)
  }

  /** The attribute phase. Without an `attributes` key the default is an
      empty list, whose missing `items` raises AttributeError as written; the
      corrected phase treats it as an empty mapping. */
  function AttributePhase(c: Container, attributes: Option<seq<(string, Attrs)>>, o: Oracles, rev: Revision): (r: Result<Container>)
    requires Valid(c)
    ensures attributes.None? && rev == AsWritten ==> r == Raised(AttributeError)
    ensures attributes.None? && rev == Corrected ==> r == Ok(c)
    ensures attributes.Some? ==> r == AttributeList(c, attributes.value, o)
    ensures r.Ok? ==> Valid(r.value)
  {
    if attributes.None? then
      if rev == AsWritten then Raised(AttributeError) else Ok(c)
    else AttributeList(c, attributes.value, o)
  }

  // Step 4: pruning

  /** No pruned path lies at or above `q`. */
  predicate OutsidePrunes(q: Path, prunes: seq<string>) {
    forall i :: 0 <= i < |prunes| ==> !NamesAbove(prunes[i], q)
  }

  /** The prune list, in order: each listed path that exists is deleted, with
      everything below it; the root cannot be deleted (KeyError), and the
      empty name, which never exists, is skipped. Afterwards none of the
      listed paths exists, nothing was added, and no object changed. */
  function PrunePhase(c: Container, prunes: seq<string>): (r: Result<Container>)
    requires Valid(c)
    ensures r.Raised? <==> exists i :: 0 <= i < |prunes| && prunes[i] != "" && Components(prunes[i]) == []
    ensures r.Raised? ==> r.exc == KeyError
    ensures r.Ok? ==> Valid(r.value) && r.value.nodes == c.nodes
    ensures r.Ok? ==> forall q :: q in r.value.entries ==> q in c.entries && r.value.entries[q] == c.entries[q]
    ensures r.Ok? ==> forall i :: 0 <= i < |prunes| ==> !Contains(r.value, prunes[i])
    ensures r.Ok? ==> forall q :: q in c.entries && OutsidePrunes(q, prunes) ==> q in r.value.entries
    decreases |prunes|
  {
    if prunes == [] then Ok(c)
    else
      var p := Components(prunes[0]);
      var c1 := if Contains(c, prunes[0]) then Delete(c, p) else Ok(c);
      if c1.Raised? then
        assert prunes[0] != "" && p == [];
        Raised(KeyError)
      else
        var r := PrunePhase(c1.value, prunes[1..]);
        assert forall q :: q in c1.value.entries <==> q in c.entries && !NamesAbove(prunes[0], q) by {
          if !Contains(c, prunes[0]) && prunes[0] != "" {
            NoDescendants(c, p);
          }
        }
        PruneFacts(c, prunes, c1.value, r);
        r
  }

  lemma PruneFacts(c: Container, prunes: seq<string>, c1: Container, r: Result<Container>)
    requires Valid(c) && Valid(c1) && prunes != []
    requires c1.nodes == c.nodes
    requires forall q :: q in c1.entries <==> q in c.entries && !NamesAbove(prunes[0], q)
    requires forall q :: q in c1.entries ==> c1.entries[q] == c.entries[q]
    requires r.Raised? <==> exists i :: 0 <= i < |prunes[1..]| && prunes[1..][i] != "" && Components(prunes[1..][i]) == []
    requires r.Ok? ==> Valid(r.value) && r.value.nodes == c1.nodes
    requires r.Ok? ==> forall q :: q in r.value.entries ==> q in c1.entries && r.value.entries[q] == c1.entries[q]
    requires r.Ok? ==> forall i :: 0 <= i < |prunes[1..]| ==> !Contains(r.value, prunes[1..][i])
    requires r.Ok? ==> forall q :: q in c1.entries && OutsidePrunes(q, prunes[1..]) ==> q in r.value.entries
    ensures r.Raised? <==> exists i :: 0 <= i < |prunes| && prunes[i] != "" && Components(prunes[i]) == []
    ensures r.Ok? ==> forall i :: 0 <= i < |prunes| ==> !Contains(r.value, prunes[i])
    ensures r.Ok? ==> forall q :: q in c.entries && OutsidePrunes(q, prunes) ==> q in r.value.entries
  {
    assert prunes[0] == "" || Components(prunes[0]) != [] by {
      assert [] in c.entries && [] in c1.entries;
    }
    forall i | 0 <= i < |prunes| - 1
      ensures prunes[1..][i] == prunes[i + 1]
    {
    }
    if r.Ok? && prunes[0] != "" {
      assert !Contains(r.value, prunes[0]) by {
        assert Components(prunes[0]) !in c1.entries;
      }
    }
  }

  // Step 5: links

  /** One entry of the link list. An external link reads its source from the
      alternate file when one is named (resolved relative to the destination),
      else from the source file; it is skipped when there is none, and a
      requested hard link is made soft. Any other link is processed without a
      source file. An external link is always stored as an external link to
      the source path, never as a hard link. */
  function LinkStep(env: Env, sourceFile: Option<string>, c: Container, e: LinkElement): (r: Result<Container>)
    requires EnvValid(env) && Valid(c)
    ensures r.Ok? ==> Valid(r.value) && NodesKept(c, r.value)
    ensures e.destinationPath == "" && r.Ok? ==> r.value == c
    ensures r.Ok? ==>
      var dp := Components(e.destinationPath);
      && (forall q :: q in c.entries && !(dp <= q) ==> q in r.value.entries && r.value.entries[q] == c.entries[q])
      && (forall q :: q in r.value.entries ==> q in c.entries || q <= dp)
    ensures e.internalOrExternal != Some("internal") && e.internalOrExternal != Some("external") && e.sourcePath.Some? ==>
      r == Raised(TypeError)
    ensures e.internalOrExternal == Some("external") && r.Ok? && r.value != c ==>
      var dp := Components(e.destinationPath);
      && e.sourcePath.Some?
      && dp in r.value.entries && r.value.entries[dp].ExternalLink?
      && r.value.entries[dp].target == e.sourcePath.value
    ensures e.internalOrExternal == Some("external") && e.alternateSourceFile.None? && sourceFile.None? ==> r == Ok(c)
    ensures (e.internalOrExternal == Some("external") && e.alternateSourceFile.None? && sourceFile.Some? &&
             sourceFile.value !in env.files) ==> r == Raised(OSError)
    ensures e.internalOrExternal == Some("external") && e.alternateSourceFile.Some? ==>
      var alt := ResolveAlternateSourceFile(e.alternateSourceFile.value, env.glob(e.alternateSourceFile.value), env.isFile);
      && (alt.None? ==> r == Ok(c))
      && (alt.Some? && alt.value !in env.files ==> r == Raised(OSError))
    ensures e.internalOrExternal == Some("internal") ==> r == ProcessLinkElement(None, "", c, e)
  {
    if e.internalOrExternal == Some("external") then
      var sf := if e.alternateSourceFile.Some? then
        ResolveAlternateSourceFile(e.alternateSourceFile.value, env.glob(e.alternateSourceFile.value), env.isFile)
      else sourceFile;
      if sf.None? then Ok(c)
      else if sf.value !in env.files then Raised(OSError)
      else
        var e1 := if e.softOrHardLink == Some("hard") then e.(softOrHardLink := Some("soft")) else e;
        ProcessLinkElement(Some(env.files[sf.value]), env.relPath(sf.value), c, e1)
    else ProcessLinkElement(None, "", c, e)
  }

  /** Whether a path text names `q` or a group above it; the empty text
      names nothing. */
  predicate NamesAbove(text: string, q: Path) {
    text != "" && Components(text) <= q
  }

  /** No link's destination lies at or above `q`. */
  predicate OutsideLinks(q: Path, ls: seq<LinkElement>) {
    forall i :: 0 <= i < |ls| ==> !NamesAbove(ls[i].destinationPath, q)
  }

  /** The link list, in order. Only paths at or below some link's
      destination change. */
  function LinkPhase(env: Env, sourceFile: Option<string>, c: Container, ls: seq<LinkElement>): (r: Result<Container>)
    requires EnvValid(env) && Valid(c)
    ensures ls == [] ==> r == Ok(c)
    ensures r.Ok? ==> Valid(r.value) && NodesKept(c, r.value)
    ensures r.Ok? ==> forall q :: q in c.entries && OutsideLinks(q, ls) ==>
      q in r.value.entries && r.value.entries[q] == c.entries[q]
    decreases |ls|
  {
    if ls == [] then Ok(c)
    else
      var c1 :- LinkStep(env, sourceFile, c, ls[0]);
      var r := LinkPhase(env, sourceFile, c1, ls[1..]);
      assert r.Ok? ==> forall q :: q in c.entries && OutsideLinks(q, ls) ==>
        q in r.value.entries && r.value.entries[q] == c.entries[q] by {
        if r.Ok? {
          forall q | q in c.entries && OutsideLinks(q, ls)
            ensures q in r.value.entries && r.value.entries[q] == c.entries[q]
          {
            assert !NamesAbove(ls[0].destinationPath, q);
            assert OutsideLinks(q, ls[1..]) by {
              forall i | 0 <= i < |ls| - 1
                ensures !NamesAbove(ls[1..][i].destinationPath, q)
              {
                assert ls[1..][i] == ls[i + 1];
              }
            }
          }
        }
      }
      r
  }

  // The whole translation

  /** The file the phases start from: a copy of the template when one is
      given; otherwise a new file when overwriting or when none exists; else
      the existing destination. */
  function Initial(existing: Option<Container>, template: Option<Container>, overwrite: bool): (r: Container)
    requires existing.Some? ==> Valid(existing.value)
    requires template.Some? ==> Valid(template.value)
    ensures Valid(r)
    ensures template.Some? ==> r == template.value
    ensures template.None? && (overwrite || existing.None?) ==> r == Empty()
    ensures template.None? && !overwrite && existing.Some? ==> r == existing.value
  {
    if template.Some? then template.value
    else if overwrite || existing.None? then Empty()
    else existing.value
  }

  /** Steps 0 to 2: the starting file, the tree copies and the dataset
      rules. */
  function Populate(env: Env, sourceFile: Option<string>, existing: Option<Container>, template: Option<Container>,
                    overwrite: bool, trees: seq<(string, string)>, items: seq<TranslationItem>, o: Oracles, rev: Revision): (r: Result<Container>)
    requires EnvValid(env)
    requires existing.Some? ==> Valid(existing.value)
    requires template.Some? ==> Valid(template.value)
    ensures r.Ok? ==> Valid(r.value)
    ensures r.Ok? ==>
      var c0 := Initial(existing, template, overwrite);
      forall q :: q in c0.entries && OutsideTrees(q, trees) && OutsideRules(q, ParseTranslationElements(items, o)) ==>
        q in r.value.entries && r.value.entries[q] == c0.entries[q]
  {
    var c1 :- TreeCopyPhase(env, sourceFile, Initial(existing, template, overwrite), trees, rev);
    DataPhase(env, sourceFile, c1, ParseTranslationElements(items, o), o, rev)
  }

  /** Steps 3 to 5: attributes, pruning and links. */
  function Finish(env: Env, sourceFile: Option<string>, c: Container, config: Config, o: Oracles, rev: Revision): (r: Result<Container>)
    requires EnvValid(env) && Valid(c)
    ensures r.Ok? ==> Valid(r.value)
    ensures config.attributes.None? && rev == AsWritten ==> r == Raised(AttributeError)
    ensures r.Ok? ==>
      forall q :: q in c.entries && OutsidePrunes(q, config.pruneList) && OutsideLinks(q, ParseLinkElements(config.linkList)) ==>
        q in r.value.entries && r.value.entries[q] == c.entries[q]
  {
    var c3 :- AttributePhase(c, config.attributes, o, rev);
    var c4 :- PrunePhase(c3, config.pruneList);
    LinkPhase(env, sourceFile, c4, ParseLinkElements(config.linkList))
  }

  /** Steps 3 to 5 change at most the objects the attribute locations lead
      to: pruning and linking only remove and add links. */
  lemma FinishKeepsUntargeted(env: Env, sourceFile: Option<string>, c: Container, config: Config, o: Oracles, rev: Revision)
    requires EnvValid(env) && Valid(c)
    ensures var r := Finish(env, sourceFile, c, config, o, rev);
      r.Ok? ==> forall id :: id in c.nodes && !Targeted(c, id, AttributeTargets(config.attributes)) ==>
        id in r.value.nodes && r.value.nodes[id] == c.nodes[id]
  {
    if config.attributes.Some? {
      AttributeListKeepsUntargeted(c, config.attributes.value, o);
    }
  }

  /** Steps 0 to 2 change at most the objects of the starting file that the
      rule destinations lead to once the trees are copied: copying trees
      adds objects but changes none. */
  lemma PopulateKeepsUntargeted(env: Env, sourceFile: Option<string>, existing: Option<Container>, template: Option<Container>,
                                overwrite: bool, trees: seq<(string, string)>, items: seq<TranslationItem>, o: Oracles, rev: Revision)
    requires EnvValid(env)
    requires existing.Some? ==> Valid(existing.value)
    requires template.Some? ==> Valid(template.value)
    ensures var c0 := Initial(existing, template, overwrite);
      var r := Populate(env, sourceFile, existing, template, overwrite, trees, items, o, rev);
      r.Ok? ==>
        && TreeCopyPhase(env, sourceFile, c0, trees, rev).Ok?
        && var t := TreeCopyPhase(env, sourceFile, c0, trees, rev).value;
        forall id :: id in c0.nodes && !Targeted(t, id, RuleDestinations(ParseTranslationElements(items, o))) ==>
          id in r.value.nodes && r.value.nodes[id] == c0.nodes[id]
  {
    var c0 := Initial(existing, template, overwrite);
    var t := TreeCopyPhase(env, sourceFile, c0, trees, rev);
    if t.Ok? {
      DataPhaseKeepsUntargeted(env, sourceFile, t.value, ParseTranslationElements(items, o), o, rev);
    }
  }

  /** A path that no phase of the configuration aims at: no tree copy's
      destination lies strictly above it, and no rule, pruned path or link
      destination lies at or above it. (Attribute locations are not listed:
      that phase keeps every entry.) */
  predicate Untouched(q: Path, config: Config, o: Oracles) {
    && OutsideTrees(q, config.treeCopy)
    && OutsideRules(q, ParseTranslationElements(config.dataCopy, o))
    && OutsidePrunes(q, config.pruneList)
    && OutsideLinks(q, ParseLinkElements(config.linkList))
  }

  /** `translate`: the five phases in order on the destination file; the
      first exception ends the translation. As written, a configuration
      without `attributes` always fails. */
  function Translate(env: Env, sourceFile: Option<string>, existing: Option<Container>, template: Option<Container>,
                     overwrite: bool, config: Config, o: Oracles, rev: Revision): (r: Result<Container>)
    requires EnvValid(env)
    requires existing.Some? ==> Valid(existing.value)
    requires template.Some? ==> Valid(template.value)
    ensures r.Ok? ==> Valid(r.value)
    ensures config.attributes.None? && rev == AsWritten ==> r.Raised?
  {
    var c := Populate(env, sourceFile, existing, template, overwrite, config.treeCopy, config.dataCopy, o, rev);
    if c.Raised? then Raised(c.exc)
    else Finish(env, sourceFile, c.value, config, o, rev)
  }

  /** A successful translation keeps every path of the starting file that
      no phase aims at, with the same entry (the same link, or a reference to
      the same object). */
  lemma TranslateKeepsUntouched(env: Env, sourceFile: Option<string>, existing: Option<Container>, template: Option<Container>,
                                overwrite: bool, config: Config, o: Oracles, rev: Revision, q: Path)
    requires EnvValid(env)
    requires existing.Some? ==> Valid(existing.value)
    requires template.Some? ==> Valid(template.value)
    requires Translate(env, sourceFile, existing, template, overwrite, config, o, rev).Ok?
    requires q in Initial(existing, template, overwrite).entries && Untouched(q, config, o)
    ensures var r := Translate(env, sourceFile, existing, template, overwrite, config, o, rev).value;
            q in r.entries && r.entries[q] == Initial(existing, template, overwrite).entries[q]
  {
    var c := Populate(env, sourceFile, existing, template, overwrite, config.treeCopy, config.dataCopy, o, rev);
    assert c.Ok?;
  }

  /** A path no phase aims at that is a hard link to an object out of reach
      of the rules and the attribute entries still leads to that object, as
      it was. */
  lemma TranslateKeepsUntouchedObject(env: Env, sourceFile: Option<string>, existing: Option<Container>, template: Option<Container>,
                                      overwrite: bool, config: Config, o: Oracles, rev: Revision, q: Path)
    requires EnvValid(env)
    requires existing.Some? ==> Valid(existing.value)
    requires template.Some? ==> Valid(template.value)
    requires Translate(env, sourceFile, existing, template, overwrite, config, o, rev).Ok?
    requires q in Initial(existing, template, overwrite).entries && Untouched(q, config, o)
    requires Initial(existing, template, overwrite).entries[q].Hard?
    requires ObjectUntargeted(env, sourceFile, existing, template, overwrite, config, o, rev,
                              Initial(existing, template, overwrite).entries[q].id)
    ensures NodeAt(Translate(env, sourceFile, existing, template, overwrite, config, o, rev).value, q) ==
            NodeAt(Initial(existing, template, overwrite), q)
  {
    var c0 := Initial(existing, template, overwrite);
    var r := Translate(env, sourceFile, existing, template, overwrite, config, o, rev).value;
    TranslateKeepsUntouched(env, sourceFile, existing, template, overwrite, config, o, rev, q);
    TranslateKeepsUntargeted(env, sourceFile, existing, template, overwrite, config, o, rev);
    assert Valid(r) && r.entries[q] == c0.entries[q];
  }

  /** Whether the object `id` of the starting file is out of reach of the
      rules (their destinations once the trees are copied) and of the
      attribute entries (their locations once the rules have run). */
  ghost predicate ObjectUntargeted(env: Env, sourceFile: Option<string>, existing: Option<Container>, template: Option<Container>,
                                   overwrite: bool, config: Config, o: Oracles, rev: Revision, id: nat)
    requires EnvValid(env)
    requires existing.Some? ==> Valid(existing.value)
    requires template.Some? ==> Valid(template.value)
  {
    var c0 := Initial(existing, template, overwrite);
    var t := TreeCopyPhase(env, sourceFile, c0, config.treeCopy, rev);
    var p := Populate(env, sourceFile, existing, template, overwrite, config.treeCopy, config.dataCopy, o, rev);
    && (t.Ok? ==> !Targeted(t.value, id, RuleDestinations(ParseTranslationElements(config.dataCopy, o))))
    && (p.Ok? ==> !Targeted(p.value, id, AttributeTargets(config.attributes)))
  }

  /** A successful translation changes at most the objects of the starting
      file that a rule or an attribute entry leads to; every other object,
      however many links reach it, keeps its contents. */
  lemma TranslateKeepsUntargeted(env: Env, sourceFile: Option<string>, existing: Option<Container>, template: Option<Container>,
                                 overwrite: bool, config: Config, o: Oracles, rev: Revision)
    requires EnvValid(env)
    requires existing.Some? ==> Valid(existing.value)
    requires template.Some? ==> Valid(template.value)
    ensures var c0 := Initial(existing, template, overwrite);
      var r := Translate(env, sourceFile, existing, template, overwrite, config, o, rev);
      r.Ok? ==> forall id :: id in c0.nodes && ObjectUntargeted(env, sourceFile, existing, template, overwrite, config, o, rev, id) ==>
        id in r.value.nodes && r.value.nodes[id] == c0.nodes[id]
  {
    var p := Populate(env, sourceFile, existing, template, overwrite, config.treeCopy, config.dataCopy, o, rev);
    PopulateKeepsUntargeted(env, sourceFile, existing, template, overwrite, config.treeCopy, config.dataCopy, o, rev);
    if p.Ok? {
      FinishKeepsUntargeted(env, sourceFile, p.value, config, o, rev);
    }
  }

  /** With `overwrite` and no template the existing destination plays no
      part: the result is what translating into a new file gives. */
  lemma OverwriteIgnoresExisting(env: Env, sourceFile: Option<string>, existing: Container,
                                 config: Config, o: Oracles, rev: Revision)
    requires EnvValid(env) && Valid(existing)
    ensures Translate(env, sourceFile, Some(existing), None, true, config, o, rev) ==
            Translate(env, sourceFile, None, None, false, config, o, rev)
  {
    assert Initial(Some(existing), None, true) == Initial(None, None, false);
  }

  /** A configuration without `attributes`, as written: once the tree copies
      and dataset rules succeed, the translation fails with AttributeError. */
  lemma MissingAttributesRaise(env: Env, sourceFile: Option<string>, existing: Option<Container>, template: Option<Container>,
                               overwrite: bool, config: Config, o: Oracles)
    requires EnvValid(env)
    requires existing.Some? ==> Valid(existing.value)
    requires template.Some? ==> Valid(template.value)
    requires config.attributes.None?
    requires Populate(env, sourceFile, existing, template, overwrite, config.treeCopy, config.dataCopy, o, AsWritten).Ok?
    ensures Translate(env, sourceFile, existing, template, overwrite, config, o, AsWritten) == Raised(AttributeError)
  {
  }

  /** A configuration without `attributes`, corrected: the translation is
      the one with an empty attribute mapping. */
  lemma MissingAttributesCorrected(env: Env, sourceFile: Option<string>, existing: Option<Container>, template: Option<Container>,
                                   overwrite: bool, config: Config, o: Oracles)
    requires EnvValid(env)
    requires existing.Some? ==> Valid(existing.value)
    requires template.Some? ==> Valid(template.value)
    requires config.attributes.None?
    ensures Translate(env, sourceFile, existing, template, overwrite, config, o, Corrected) ==
            Translate(env, sourceFile, existing, template, overwrite, config.(attributes := Some([])), o, Corrected)
  {
    var c := Populate(env, sourceFile, existing, template, overwrite, config.treeCopy, config.dataCopy, o, Corrected);
    if c.Ok? {
      FinishWithoutAttributes(env, sourceFile, c.value, config, o);
    }
    SameTreeAndData(env, sourceFile, existing, template, overwrite, config, config.(attributes := Some([])), o, c);
  }

  /** Translate splits into Populate, which reads only the tree and data
      lists, and Finish. */
  lemma SameTreeAndData(env: Env, sourceFile: Option<string>, existing: Option<Container>, template: Option<Container>,
                        overwrite: bool, config: Config, config2: Config, o: Oracles, c: Result<Container>)
    requires EnvValid(env)
    requires existing.Some? ==> Valid(existing.value)
    requires template.Some? ==> Valid(template.value)
    requires config2.treeCopy == config.treeCopy && config2.dataCopy == config.dataCopy
    requires c == Populate(env, sourceFile, existing, template, overwrite, config.treeCopy, config.dataCopy, o, Corrected)
    requires c.Ok? ==> Finish(env, sourceFile, c.value, config, o, Corrected) == Finish(env, sourceFile, c.value, config2, o, Corrected)
    ensures Translate(env, sourceFile, existing, template, overwrite, config, o, Corrected) ==
            Translate(env, sourceFile, existing, template, overwrite, config2, o, Corrected)
  {
  }

  lemma FinishWithoutAttributes(env: Env, sourceFile: Option<string>, c: Container, config: Config, o: Oracles)
    requires EnvValid(env) && Valid(c)
    requires config.attributes.None?
    ensures Finish(env, sourceFile, c, config, o, Corrected) ==
            Finish(env, sourceFile, c, config.(attributes := Some([])), o, Corrected)
  {
    assert AttributePhase(c, None, o, Corrected) == Ok(c) == AttributePhase(c, Some([]), o, Corrected);
  }
}

=== FILE: values.dfy ===
/** The values that flow through the translator: Python scalars, byte
    strings and numpy arrays as one tagged union, attribute dictionaries, the
    exceptions that can escape, and the library behaviour the translator
    delegates to (json, numpy casting, pint, eval, UTF-8, `float()`), which
    the model receives as an `Oracles` record instead of reimplementing. */
module Values {
  import opened Text

  newtype byte = x: int | 0 <= x < 256

  /** Python exception classes that escape the functions of the core. */
  datatype Exc = ValueError | TypeError | AttributeError | IndexError | KeyError | OSError | OverflowError

  /** A Python call: it returns a value or raises. */
  datatype Result<+T> = Ok(value: T) | Raised(exc: Exc) {
    predicate IsFailure() {
      Raised?
    }

    function PropagateFailure<U>(): Result<U>
      requires Raised?
    {
      Raised(exc)
    }

    function Extract(): T
      requires Ok?
    {
      value
    }
  }

  /** numpy's `dtype.kind`: 'U', 'S', 'i', 'f', 'b' and 'O'. */
  datatype Kind = Unicode | ByteString | Integer | Floating | Boolean | PyObject

  datatype DType = DType(kind: Kind, itemsize: nat)

  /** A numpy array: element type, shape, and the elements in C order. */
  datatype NdArray = NdArray(dtype: DType, shape: seq<nat>, elems: seq<Value>)

  /** A Python value as the translator handles it: `None`, `str`, `bytes`,
      `int`, `float`, `bool`, or a numpy array. */
  datatype Value =
    | Null
    | Str(s: string)
    | Bytes(bytes: seq<byte>)
    | Int(i: int)
    | Float(f: real)
    | Bool(flag: bool)
    | Array(arr: NdArray)

  /** An attribute dictionary. */
  type Attrs = map<string, Value>

  /** Python's `bool(v)`, which numpy refuses (ValueError) for arrays that do
      not hold exactly one element. */
  function Truth(v: Value): (r: Result<bool>)
    ensures v.Null? ==> r == Ok(false)
    ensures v.Str? ==> r == Ok(v.s != "")
    ensures r.Raised? ==> v.Array? && r.exc == ValueError
  {
    match v
    case Null => Ok(false)
    case Str(s) => Ok(s != "")
    case Bytes(b) => Ok(b != [])
    case Int(i) => Ok(i != 0)
    case Float(f) => Ok(f != 0.0)
    case Bool(b) => Ok(b)
    case Array(a) => if |a.elems| == 1 then Truth(a.elems[0]) else Raised(ValueError)
  }

  /** Python's `bool(s)` for an optional string. */
  predicate TruthyText(s: Option<string>) {
    s.Some? && s.value != ""
  }

  datatype Namespace = Builtins | Numpy

  /** A Python type object, named by the namespace it was found in. */
  datatype TypeName = TypeName(ns: Namespace, name: string)

  const StrType := TypeName(Builtins, "str")

  /** Outcome of `t(x)` or `a.astype(t)`: only ValueError is caught by the
      translator; any other exception (TypeError, OverflowError, ...)
      escapes with its class. */
  datatype CastOutcome = Cast(v: Present) | CastValueError | CastOtherError(exc: Exc)

  /** A value other than None: what calling a type or `astype` returns. */
  type Present = v: Value | !v.Null? witness Int(0)

  /** What the translator takes from libraries, as functions:
      - decode: `bytes.decode("utf-8")` (None when decoding fails)
      - parseFloat: `float(text)` (None on ValueError)
      - parseArray: `np.array(json.loads(text), dtype=t)` (None when it raises)
      - construct: `t(x)` for a non-array `x`
      - astype: `a.astype(t)`
      - evalExpr: `eval(text)` of a transformation, giving a callable's id
      - transform: calling callable `id` on a value (None when it raises)
      - convert: pint's `Q_(x, from).to(to).magnitude` (None when it raises) */
  datatype Oracles = Oracles(
    decode: seq<byte> -> Option<string>,
    parseFloat: string -> Option<real>,
    parseArray: (string, Option<TypeName>) -> Option<NdArray>,
    construct: (TypeName, Value) -> CastOutcome,
    astype: (TypeName, NdArray) -> CastOutcome,
    evalExpr: string -> Option<nat>,
    transform: (nat, Value) -> Option<Value>,
    convert: (Value, Value, string) -> Option<Value>)
}
